=== FILE: README.md ===
# Placement portal: decision and aggregation rules in Dafny

The placement portal lets students apply to campus placement drives. Heads of department (HODs) approve their students, and the training and placement officer (TPO) oversees companies, drives and reports. The backend is a Flask application and the front end a React application.

This project models the small deterministic rules underneath the HTTP, ORM and UI layers, and proves properties of them:

- **Applications** (`student_routes.py`). The apply-drive handler is a guarded insert into a `map<(student, drive), Application>`. Its guards are checked in the code's order: CGPA floor before duplicate. The module also covers the available-drives listing with its eligibility flag and the student-profile whitelist.
- **Accounts** (`auth_routes.py`, `hod_routes.py`):
  - registration validation and the approval flag it sets by role;
  - the login gate, which stops only unapproved students;
  - the account-edit whitelists;
  - the department listing and the department-guarded approval transition.
- **AiFallback**, **Templating**, **BuiltinTemplates**, **Pieces** (`ai_service.py`):
  - the non-AI fit score over `real`;
  - keyword skill extraction;
  - the fallback e-mail templates, built from literal and slot pieces so that the absence of `{{` can be proved.
- **Email** (`email_service.py`): `{{key}}` substitution, the welcome and confirmation e-mails, and bulk sending. Transport success is a parameter.
- **Analytics** and **Counting** (`report_service.py`):
  - the department analytics: status tally, disjoint groups, distinct companies, average CGPA, top-ten companies;
  - the monthly trend;
  - the student and company reports.
- **Dashboard** (`dashboard_routes.py`): profile completion, the student placement rate, and the HOD and TPO statistics with their zero-guarded rates.
- **Uploads** (`file_service.py`):
  - the extension whitelists, read from the text after the last dot;
  - the ordered rejection checks;
  - the stored-name shape, the URL, and the sort and cut of a listing.
- **Notifications**, **DrivesPage**, **ApplicationViews**, **ProfileView** (React):
  - notification read/unread state;
  - the drive filters and the favourite and applied sets;
  - the progress steps and filters of the application pages;
  - the profile page's completion meter.
- **Basics**, **Text**, **Records**: the shared vocabulary.
  - Basics holds an optional value, order-preserving filtering, subsequences and the zero-guarded percentage.
  - Text holds ASCII case mapping, whitespace stripping and the separator splits.
  - Records holds the persistent records, the role names, naive date-times and Python truthiness.

The database is passed in as sequences and maps and returned updated. The following are parameters: the current time, the random digits and uuid token, whether the AI service is on, what the scorer returns, and whether the e-mail transport accepts a message. Status is a plain string, because the code uses several vocabularies at once: `placed` in the dashboard, `selected`/`offer_accepted` in the reports, and the student page's own list. A redesign would collapse them into one enumeration. The code does not, and this model follows the code.

## Model

| member | source | states |
|---|---|---|
| Applications.CgpaBlocksOnlyBelowFloor | backend/routes/student_routes.py:181-182 | The CGPA floor refuses only when both numbers are present and non-zero and the student's is below the floor; an absent or zero value on either side, or a CGPA at or above the floor, never blocks. |
| Applications.ApplyErrorStatus | backend/routes/student_routes.py:162-191 | The apply handler's HTTP codes: 409 exactly for the duplicate, 403 exactly for a caller who is not a student, 404 exactly for a missing profile or an unavailable drive, and 400 exactly for a missing drive id or a CGPA below the floor. |
| Applications.ApplyStatusMeaning | backend/routes/student_routes.py:156-191 | For a refused application the code says why: 403 exactly for a caller who is not a student; 404 exactly for a student without a profile or with a given drive id that is missing or inactive; 400 exactly for a missing drive id or a CGPA below the floor; 409 exactly when every earlier check passes and the pair is already stored. |
| Applications.FitScoreFor | backend/routes/student_routes.py:200-213 | A score is recorded exactly when the AI service is on, both skill columns are set and the scorer reports success on them and the two CGPAs, each passed as its value when truthy and as 0 otherwise (`CgpaArgument`); the recorded value is the scorer's total. |
| Applications.ApplyToDrive | backend/routes/student_routes.py:156-233 | POST /apply-drive refuses in the handler's order: not a student, no profile, no drive id, drive missing or not active, CGPA below the floor, then already applied. Every refusal leaves the store unchanged and sends no confirmation. It succeeds exactly when all guards pass; the new entry is stored under the previously absent (student, drive) key with status `applied`, and nothing else in the store changes. |
| Applications.ApplyAddsExactlyOne | backend/routes/student_routes.py:194-216 | A successful application adds exactly one key, the (student, drive) pair, and every earlier entry keeps its value. |
| Applications.ApplyPreservesWellKeyed | backend/routes/student_routes.py:194-198 | Every stored application sits under its own (student, drive) key, before and after applying. |
| Applications.SecondApplicationConflicts | backend/routes/student_routes.py:184-191 | Repeating a successful application is refused as a duplicate and leaves the store as the first call left it. |
| Applications.CgpaCheckedBeforeDuplicate | backend/routes/student_routes.py:180-191 | A student blocked by the CGPA floor who already applied is told about the CGPA, not about the duplicate. |
| Applications.ScoringNeverBlocks | backend/routes/student_routes.py:200-228 | Whether the AI service is on and what the scorer returns changes neither the outcome, the stored keys, the confirmation e-mail nor any refusal. Two runs differ at most in the new entry's score. |
| Applications.AppliedDriveIds | backend/routes/student_routes.py:284 | The applied-drive ids are exactly the drive ids of the student's stored applications. |
| Applications.ListingFor | backend/routes/student_routes.py:296-302 | A listed drive is eligible exactly when the apply handler's CGPA test does not block it. An ineligible one carries the CGPA reason, an eligible one no reason. |
| Applications.ListAll | backend/routes/student_routes.py:292-304 | One listing row per drive, in order. |
| Applications.AvailableDrives | backend/routes/student_routes.py:270-308 | GET /available-drives refuses non-students and students without a profile. Otherwise it lists, in query order, one row per active drive not yet applied to. |
| Applications.AvailableDrivesExactly | backend/routes/student_routes.py:283-289 | A drive is listed exactly when it is active and its id is not among the student's applied drive ids. |
| Applications.ListedEligibleIsAccepted | backend/routes/student_routes.py:297-302 | A drive the listing marks eligible is accepted by the apply handler: both use the same CGPA test, and a listed drive is active and not yet applied to. |
| Applications.UpdateStudentProfile | backend/routes/student_routes.py:34-68 | PUT /student/profile refuses non-students and students without a profile. Otherwise each of the seven whitelisted columns and the three list columns takes the body's value when present and keeps its value when absent, and the id, user, code, department, batch, image, resume and active flag never change. |
| Applications.UpdateStudentProfileIdempotent | backend/routes/student_routes.py:49-61 | Sending the same edit twice leaves the profile as the first edit did: `Patched`, the per-field rule (a present field takes the body's value, an absent one keeps its own), is idempotent. |
| Applications.UpdateStudentProfileEmpty | backend/routes/student_routes.py:49-61 | An empty body leaves the profile unchanged. |
| Applications.FindDriveUnique | backend/routes/student_routes.py:176 | With distinct drive ids the lookup of a listed drive's id finds exactly that drive. |
| Accounts.IdCode | backend/routes/auth_routes.py:21-31 | A generated code is its three-letter prefix (`STU` for students, `EMP` for employees) followed by the six drawn digits: nine characters in all, with the digits recoverable from the code. |
| Accounts.CodesDistinct | backend/routes/auth_routes.py:21-31 | No student code equals an employee code, and each kind of code determines its digits. |
| Accounts.ValidEmailFromParts | backend/routes/auth_routes.py:14-16 | Every address made of a local part, `@`, a domain, `.` and a top-level part of two or more letters is accepted. |
| Accounts.ValidEmailHasParts | backend/routes/auth_routes.py:14-16 | Every accepted address splits into those three parts. |
| Accounts.ValidEmailExamples | backend/routes/auth_routes.py:14-16 | `ana@uni.edu` is accepted. |
| Accounts.InvalidEmailExamples | backend/routes/auth_routes.py:14-16 | An address without `@` is refused. |
| Basics.FindFirst | backend/routes/auth_routes.py:62 | The first-match lookup behind every `filter_by(...).first()` and primary-key `get`: it finds a row exactly when some row matches, and what it finds is a matching row with no matching row before it. |
| Basics.FindFirstAppended | backend/routes/auth_routes.py:62-69 | A row added to a table where nothing matched is the row the lookup then finds. |
| Accounts.CommonFailure | backend/routes/auth_routes.py:40-63 | The checks every role passes, in the handler's order: email, password and role present, then the normalised email's format, then password length, then role, then uniqueness of the normalised email. Each refusal is named with both directions of its condition. |
| Accounts.MissingStudentField | backend/routes/auth_routes.py:75-78 | A student registration lacks nothing exactly when first name, last name, department and batch year are all set. |
| Accounts.MissingHodField | backend/routes/auth_routes.py:103-106 | A head-of-department registration lacks nothing exactly when first name, last name and department are all set. |
| Accounts.RoleFailure | backend/routes/auth_routes.py:73-111 | After the common checks a student or head of department is refused for the first missing field, then for an unknown department. A training and placement officer is never refused here. |
| Accounts.SetHod | backend/routes/auth_routes.py:126-127 | Only the named department records the new head; every other department is unchanged. |
| Accounts.Commit | backend/routes/auth_routes.py:65-131 | A successful registration appends the user. A student also gets a profile with the generated `STU` code and the form's fields; a head of department gets a profile with the `EMP` code and is recorded on the department. Nothing else changes. |
| Accounts.Register | backend/routes/auth_routes.py:34-147 | POST /register succeeds exactly when the common and role checks pass, and any refusal leaves every table unchanged. The new user carries the normalised email and is approved exactly when the role is `tpo`. The status is `pending_approval` exactly for a student and `approved` otherwise. |
| Accounts.RegisterStatusMeaning | backend/routes/auth_routes.py:40-111 | A refused registration gets 409 exactly when the request is well formed (fields present, valid normalised address, password of at least six characters, known role) and the address is taken, and 400 exactly for a malformed request or a role check failing on a free address. |
| Accounts.RegisteredPasswordValid | backend/routes/auth_routes.py:18-55 | Every registered user's password passes `ValidatePassword`, the six-character rule, both in the response and in the stored row. |
| Accounts.RegisteredApprovalFollowsRole | backend/routes/auth_routes.py:66 | A registered user starts out approved exactly when they are a training and placement officer. |
| Accounts.SecondRegistrationConflicts | backend/routes/auth_routes.py:45-63 | After a successful registration, registering again with the same address in any letter case or padding is refused as an existing user. |
| Accounts.Login | backend/routes/auth_routes.py:150-192 | Login is refused for missing credentials exactly when the email or the password is empty. With both present it succeeds exactly when a user has the normalised email and that password, is active, and is approved or not a student, and it then returns that user. Bad credentials, deactivation and pending approval are each refused exactly on their condition. |
| Accounts.LoginStatusMeaning | backend/routes/auth_routes.py:155-171 | A refused login gets 400 exactly for a blank credential, 401 exactly when no user has the address and password, and 403 exactly when the password matches but the account is deactivated or an unapproved student's. |
| Accounts.UnapprovedHodCanLogIn | backend/routes/auth_routes.py:170-171 | Approval gates students only: an active but unapproved head of department logs in. |
| Accounts.AccountCheck | backend/routes/auth_routes.py:261-285 | The checks of PUT /profile let an edit through exactly when the user exists and is active, a given address is valid once normalised and held by no other user, and a given new password comes with the right current password and meets the length rule. |
| Accounts.UpdateAccount | backend/routes/auth_routes.py:255-320 | PUT /profile refuses a missing or inactive user, a malformed new address and an address another user holds; with no new address, it refuses a new password without the right current one. A save keeps id, role and flags. A given address is stored normalised and is valid and free; a given new password meets the length rule and came with the right current password. A student's profile takes the scalar whitelist and a head of department's the five-column patch. |
| Accounts.AccountStatusMeaning | backend/routes/auth_routes.py:261-285 | A refused account edit gets 404 exactly for a missing or inactive user, 409 exactly for a valid new address another user holds, and 400 exactly for a malformed address, a wrong current password or a short new password. |
| Accounts.ChangedPasswordValid | backend/routes/auth_routes.py:278-286 | A saved edit that changes the password stores one that passes `ValidatePassword`, and only when the current password was given correctly. |
| Accounts.SaveProfiles | backend/routes/auth_routes.py:289-306 | The caller's own profile takes the role's whitelist: a student's seven scalar columns, with the list columns and protected columns untouched; a head of department's profile becomes its five-column patch, with id, user, code, department and active flag untouched. The other profile passes through. |
| Accounts.AccountUpdateIgnoresStudentLists | backend/routes/auth_routes.py:294-297 | This endpoint never touches a student's skills, experience or education, even when the body carries them. |
| Accounts.HodErrorStatus | backend/routes/hod_routes.py:16-69 | The head-of-department codes: 403 exactly for a caller who is not one or a student of another department, 404 exactly for a missing profile or an invalid student, 400 exactly for a missing student id and 500 exactly for the server error. |
| Accounts.DepartmentStudents | backend/routes/hod_routes.py:10-30 | GET /hod/students refuses callers who are not heads of department and those without a profile. Otherwise it lists, in order, exactly the active students of the head's department. |
| Accounts.Approve | backend/routes/hod_routes.py:62 | Exactly the rows with the id become approved; every other row is unchanged. |
| Accounts.ApproveStudent | backend/routes/hod_routes.py:37-65 | PUT /hod/approve-student refuses, in order: a caller who is not a head of department, a missing id, an absent or non-student target, then a student of another department. It succeeds exactly when every guard passes, and then only the target's approval flag changes. |
| Accounts.ApproveStatusMeaning | backend/routes/hod_routes.py:37-69 | A refused approval gets 400 exactly for a HOD sending no id; 404 exactly when the id names no student; 500 exactly when a named student or the HOD lacks a profile; 403 exactly for a caller who is not a HOD or a student of another department. |
| Accounts.ApproveOtherDepartmentRefused | backend/routes/hod_routes.py:57-59 | A student of another department is refused with 403, and no table is returned. |
| Accounts.ApproveIdempotent | backend/routes/hod_routes.py:62-63 | Approving twice is the same as approving once. |
| Accounts.FindAfterApprove | backend/routes/hod_routes.py:62 | Approval changes no address, so lookup by e-mail finds the same row, now approved if it was the target. |
| Accounts.NewStudentPending | backend/routes/auth_routes.py:170-171 | A newly appended, unapproved student is held at the login gate. |
| Accounts.NewStudentApprovable | backend/routes/hod_routes.py:52-63 | The head of the new student's department may approve the new row. |
| Accounts.ApprovedStudentLogsIn | backend/routes/auth_routes.py:162-171 | Once approved, the same credentials log the student in. |
| Accounts.StudentOnboarding | backend/routes/auth_routes.py:66-171 | A registered student is refused at login as pending. The head of their department can approve them, and after that the same credentials log in. |
| AiFallback.MatchedSkills | backend/services/ai_service.py:384 | `matched_skills` is a subsequence of the lower-cased requirements. Each entry equals some lower-cased student skill, and every requirement whose lower-cased form is held appears in it. |
| AiFallback.MissingSkills | backend/services/ai_service.py:393 | `missing_skills` is the subsequence of the requirements, as written, whose lower-cased form no lower-cased student skill equals: each one it keeps is not held, and each one not held is kept. |
| AiFallback.MatchedMissingPartition | backend/services/ai_service.py:384-393 | Matched and missing skills split the requirement list: their lengths add up to its length. |
| AiFallback.AllHeldIffNoneMissing | backend/services/ai_service.py:393 | Every requirement is held exactly when nothing is missing. |
| AiFallback.MatchingIgnoresCase | backend/services/ai_service.py:381-393 | Lower-casing both lists beforehand (`LowerAll`) leaves the matched list unchanged, and lower-casing the student's skills leaves the number of missing skills unchanged. |
| AiFallback.SkillMatchScore | backend/services/ai_service.py:385 | The skill score is the zero-guarded percentage `Rate` of the requirements matched, so with requirements it is 100 times the matched share (`Basics.RateScales`) and without them 0. It lies in [0, 100] and is 0 exactly when nothing matched. |
| AiFallback.SkillMatchFull | backend/services/ai_service.py:385 | The skill score is 100 exactly when there are requirements and every one is held. |
| AiFallback.FullMatchIffAllHeld | backend/services/ai_service.py:384-385 | No more requirements match than exist, and all match exactly when every one is held. |
| AiFallback.CgpaScore | backend/services/ai_service.py:388 | The CGPA score is 100 exactly when the CGPA meets the floor, and otherwise the percentage of the floor reached. Below a positive floor a non-negative CGPA scores in [0, 100). A zero floor with a negative CGPA is the division by zero that makes the scorer fail. |
| AiFallback.TotalScoreBounds | backend/services/ai_service.py:391 | With both parts in [0, 100] the 0.6/0.4 total is in [0, 100], is 100 exactly when both parts are, and never exceeds 40 plus 0.6 of the skill part. |
| AiFallback.RecommendationMonotone | backend/services/ai_service.py:395 | `Recommendation` gives one of its three verdicts, never a worse one for a higher total, and changes only across 50 or 70. |
| AiFallback.BasicFitScore | backend/services/ai_service.py:377-416 | The basic scorer fails exactly on the zero-floor division. Otherwise it reports the matched and missing lists (which partition the requirements), the skill score of those lists, the CGPA score, the weighted total, zero additional factors and the total's band. The total lies in [0, 100] whenever the CGPA part does. |
| AiFallback.PerfectFit | backend/services/ai_service.py:384-395 | Holding every requirement while meeting the floor scores 100, is recommended and leaves nothing missing. |
| AiFallback.NoRequirementsNeverRecommended | backend/services/ai_service.py:385-395 | A drive without requirements scores at most 40 and is never better than `Not Recommended`. |
| AiFallback.BasicScorer | backend/services/ai_service.py:397-416 | Seen from the apply handler, the basic scorer fails exactly on the zero-floor division and otherwise reports the basic total. |
| AiFallback.ExtractSkills | backend/services/ai_service.py:293-296 | The skills found are a subsequence of the fixed keyword list. Each occurs in the lower-cased text, and every keyword that occurs is found. |
| AiFallback.ExtractSkillsIgnoresCase | backend/services/ai_service.py:296 | The scan gives the same skills for a text and its lower-cased form. |
| AiFallback.NestedKeywordsBothFound | backend/services/ai_service.py:294-296 | A keyword inside a longer one is found too: `JavaScript` yields both `java` and `javascript`. |
| AiFallback.FallbackEmail | backend/services/ai_service.py:141-181 | The fallback returns the chosen template's subject and content exactly as written, slots included, whatever the context holds, with `is_ai_generated` false: the `{{key}}` it replaces never occurs in the built-in texts. |
| AiFallback.FallbackGreetingUnfilled | backend/services/ai_service.py:146-175 | With a student name in the context, the as-written fallback body still opens `Dear {student_name}`. |
| AiFallback.FilledFallbackEmail | backend/services/ai_service.py:141-181 | The corrected fallback replaces each context value's single-brace slot. For brace-free context values this is the template with its slots filled, rendered. |
| AiFallback.FilledGreetingNamesStudent | backend/services/ai_service.py:143-175 | The corrected fallback body of every kind opens with `Dear `, the student's name and a comma. |
| AiFallback.GenerateEmailTemplate | backend/services/ai_service.py:54-103 | Without the service, or when the call fails, the result is the fallback as written. Otherwise it is the parsed reply, marked AI-generated, with the default subject when the reply had none and the raw reply when it had no content. |
| AiFallback.GeneratedEmailIgnoresContext | backend/services/ai_service.py:54-181 | The context never changes the generated e-mail; without the service or a reply it is the chosen built-in template's subject and content, rendered and not AI-generated. |
| BuiltinTemplates.FallbackTemplate | backend/services/ai_service.py:143-166 | An unknown kind gets the `application_received` template, and every built-in body opens with the greeting. |
| BuiltinTemplates.GreetingText | backend/services/ai_service.py:146 | The greeting renders as `Dear {student_name},` followed by a blank line. |
| BuiltinTemplates.DefaultSubject | backend/services/ai_service.py:129-139 | `Placement Update` exactly for kinds outside the six subjects. Each known kind's subject ends in its `{company_name}` slot. |
| BuiltinTemplates.OfferAcceptedHasNoTemplate | backend/services/ai_service.py:136-166 | `offer_accepted` has a default subject but no fallback template, so its fallback subject is the application-received one and differs from its default subject. |
| Templating.ReplaceAllWithoutMatch | backend/services/email_service.py:68-69 | `replace` returns text in which the pattern does not occur unchanged. |
| Templating.ReplaceAllBySelf | backend/services/email_service.py:68-69 | Replacing a pattern by itself changes nothing. |
| Templating.ReplaceAllExact | backend/services/email_service.py:68-69 | A text that is exactly the pattern becomes the value. |
| Templating.PlaceholderNeedsDoubleBrace | backend/services/email_service.py:67 | Text without `{{` contains no `Placeholder`, the `{{key}}` form. |
| Templating.SubstituteWithoutDoubleBrace | backend/services/email_service.py:63-69 | Substitution rewrites only the double-brace form, so text without `{{` passes through unchanged whatever the variables. |
| Templating.SubstituteSinglePlaceholder | backend/services/email_service.py:66-69 | A text that is exactly one placeholder becomes the variable's value. |
| Templating.RenderedHasNoDoubleBrace | backend/services/ai_service.py:143-164 | A template written as brace-free text and single-brace slots contains no `{{`. |
| Templating.SubstituteRenderedVerbatim | backend/services/ai_service.py:168-175 | Substitution into such a template returns it verbatim. |
| Templating.ReplaceSlotRendered | backend/services/ai_service.py:145-175 | Replacing a key's `SlotPlaceholder`, the single-brace `{key}` form, in a rendered template gives the same text as filling that slot in the template before rendering. |
| Templating.Lookup | backend/services/ai_service.py:172 | A key's value is found exactly when some variable carries the key, and the value found is that variable's. |
| Templating.FillAll | backend/services/ai_service.py:172-175 | Filling keeps the template's length, and each piece is filled on its own. |
| Templating.FillSlotsRendered | backend/services/ai_service.py:172-175 | With brace-free names and values, filling single-brace slots in the rendered text equals rendering the filled template. |
| Email.SendEmail | backend/services/email_service.py:15-52 | The message is attempted and succeeds exactly when the transport accepts it. The log entry is marked sent or failed accordingly, with the service's success or error message. |
| Email.FindTemplate | backend/services/email_service.py:58 | The lookup finds a stored template exactly when one has the name. |
| Email.SendTemplated | backend/services/email_service.py:54-81 | An unknown template name is refused with `Template not found` and nothing is sent. Otherwise the message goes to the recipient with the template's id and the user id, its subject and content are the stored ones with every variable substituted, and it succeeds exactly when the transport accepts it. |
| Email.TemplatedVerbatim | backend/services/email_service.py:63-69 | A stored template without `{{` is sent exactly as stored, whatever the variables. |
| Email.TemplatedFillsPlaceholder | backend/services/email_service.py:66-69 | A template whose content is one placeholder is sent with the variable's value as its content. |
| Email.WelcomeTemplateName | backend/services/email_service.py:91-96 | Students get `student_welcome`; every other role gets `user_welcome`. |
| Email.SendWelcome | backend/services/email_service.py:83-99 | The welcome e-mail goes to the user's address with the user's id, and nothing is sent when its template is missing. When the role's template is found, the message carries that template's id, and its subject and content are the template's with the welcome variables substituted. The delivery succeeds exactly when the transport accepts the message. |
| Email.WelcomeStatusFollowsRole | backend/services/email_service.py:85-97 | Only students get a status variable, and it is `pending_approval`; every user gets a message. |
| Email.WelcomeNameDefaultsToLocalPart | backend/services/email_service.py:86 | Without a first name the greeting uses the text before the `@`; a given first name is used as is. |
| Email.WelcomeRoleUpper | backend/services/email_service.py:87 | The role variable is the role name in capitals. |
| Email.SendConfirmation | backend/services/email_service.py:101-110 | The confirmation uses the `application_received` template, goes to the applicant without a user id, and nothing is sent when the template is missing. When the template is found, the message carries its id, and its subject and content are the template's with the confirmation variables substituted. The delivery succeeds exactly when the transport accepts the message. |
| Email.ConfirmationNamesStudent | backend/services/email_service.py:103-110 | A confirmation template that is only the `{{student_name}}` placeholder carries the student's name, provided the name holds no `{{`. |
| Email.BulkSend | backend/services/email_service.py:158-182 | There is exactly one result per entry, in entry order. Each carries the entry's address and reports whether that entry's own filled-in message went out. |
| Email.BulkSendSplits | backend/services/email_service.py:162-180 | A failure for one recipient does not affect the others: the results for a list are the results for its two halves, concatenated. |
| Email.BulkPlainTexts | backend/services/email_service.py:166-173 | Without `{{` in the shared subject and content every recipient gets them verbatim. |
| Analytics.ActiveSuccessfulBound | backend/services/report_service.py:50-51 | No application is both active and successful, so the two counts together never exceed the number of applications. |
| Analytics.DepartmentStudentIds | backend/services/report_service.py:36-39 | The ids collected are exactly the ids of the department's active students. |
| Analytics.DepartmentRows | backend/services/report_service.py:39-45 | The report covers, in stored order, exactly the applications of those students made within the period, both ends included. |
| Analytics.CompanyIds | backend/services/report_service.py:52 | The company ids are exactly those of the applications whose drive still exists, at most one per application. |
| Analytics.CompaniesVisited | backend/services/report_service.py:52 | `companies_visited` never exceeds the number of applications, and is zero exactly when no counted application still has its drive. |
| Analytics.CompaniesVisitedCountsDistinct | backend/services/report_service.py:52 | The size of the id set equals the number of distinct ids in order of first appearance. |
| Analytics.SetOfSize | backend/services/report_service.py:52 | A set built from a list is no larger than the list, and as large when the list has no repeats. |
| Analytics.Distinct | backend/services/report_service.py:52 | The first occurrences have no repeats and hold exactly the elements of the list. |
| Analytics.MeanTruthy | backend/services/report_service.py:219 | The average AI score is 0 when no score is truthy, and otherwise times the number of truthy scores gives their sum. |
| Analytics.MeanTruthyBetween | backend/services/report_service.py:219 | Truthy scores within [0, hi] average within [0, hi]. |
| Analytics.AverageCgpa | backend/services/report_service.py:63-64 | The average CGPA is 0 without successful applications. Otherwise, times the number of successful applications, it gives the sum of their truthy CGPAs: the divisor counts the missing ones too. |
| Analytics.AverageCgpaBetween | backend/services/report_service.py:63-64 | CGPAs within [0, hi] give an average within [0, hi]. |
| Analytics.AverageCgpaCountsMissing | backend/services/report_service.py:64 | One placed student with CGPA 8 and one with no CGPA average 4, not 8. |
| Analytics.TopCompanies | backend/services/report_service.py:126-138 | At most ten companies, most applications first, each listed once. Each is listed with its true, positive count of applications whose drive and company exist. A company left out only when ten are listed has no more applications than the tenth. |
| Analytics.NextMonth | backend/services/report_service.py:118-122 | The cursor moves to the next calendar month, and wraps to January exactly from December. |
| Analytics.MonthIndexInjective | backend/services/report_service.py:112 | Different months never share a `%Y-%m` label. |
| Analytics.NotAfterMonth | backend/services/report_service.py:98 | A date no later than another lies in the same or an earlier month. |
| Analytics.Entry | backend/services/report_service.py:101-116 | A trend entry counts its month's applications and, among them, the successful ones, which are never more. Its rate is the zero-guarded percentage of the two: 0 for an empty month, within [0, 100], and 100 exactly when the month has applications and all succeeded. |
| Analytics.TrendFromAsWritten | backend/services/report_service.py:95-124 | The trend as written has consecutive months starting at the cursor's, each with its first day (at the start's time of day) not after the end. It has about one entry per month up to the end month. Each entry is `Entry` of the applications inside its window as the code draws it, so its successful count never exceeds its application count and its rate is zero-guarded. |
| Analytics.TrendAsWritten | backend/services/report_service.py:90-124 | The trend as written starts at the start month and steps one month at a time, each entry being `Entry` of the applications inside that month's window as the code draws it (the first at the start's time of day to the last day at that time). |
| Analytics.TrendAsWrittenMissesLateApplication | backend/services/report_service.py:96-103 | A report from noon on 15 March 2024 to 10 April 2024 covers an application made at 18:00 on 31 March, yet its trend counts no application at all. |
| Analytics.TrendFrom | backend/services/report_service.py:98-122 | The corrected trend has one entry per calendar month from the cursor's month through the end month, in order, each being `Entry` of the applications of that calendar month. |
| Analytics.Trend | backend/services/report_service.py:90-124 | For a period that is not reversed, the corrected trend has one entry per month from the start month through the end month, starting at the start month, each month followed by the next, and each entry is `Entry` of the applications of that calendar month. |
| Analytics.TrendCountsEveryApplication | backend/services/report_service.py:96-122 | The corrected monthly counts add up to the number of applications of the period: each is counted exactly once. |
| Analytics.TrendFromCounts | backend/services/report_service.py:98-122 | The corrected trend from a month counts exactly the applications from that month through the end month. |
| Analytics.DepartmentAnalytics | backend/services/report_service.py:24-88 | The department summary counts the department's active students and the applications covered, and among those the active and the successful ones, which together never exceed the total. Companies visited are the distinct companies of those applications. The success rate is the successful applications' zero-guarded percentage. The average CGPA is over the successful rows, the status distribution counts every status exactly, the top companies are the top-ten ranking of those rows, and the trend is the trend as written. |
| Analytics.DepartmentTrendCounts | backend/services/report_service.py:82 | The corrected trend of the department's applications sums to the number covered; the trend the code builds does not always (second finding). |
| Analytics.DepartmentGroupsFromDistribution | backend/services/report_service.py:50-57 | The active count is the distribution's `applied`, `under_review` and `shortlisted` counts together, and the successful count its `selected` and `offer_accepted` counts together. |
| Analytics.OccurrencesOfStatus | backend/services/report_service.py:55-57 | A status occurs in the status list as often as applications carry it. |
| Analytics.SuccessfulCount | backend/services/report_service.py:51-63 | The successful applications and the successful students' rows number the same. |
| Analytics.SixIndicators | backend/services/report_service.py:157-162 | A status is counted under at most one of the six headings, and under one exactly when it is one of the six. |
| Analytics.SummaryCountsSummarised | backend/services/report_service.py:155-163 | The six counts add up to the applications whose status is one of the six. |
| Analytics.StudentReport | backend/services/report_service.py:140-163 | An unknown student gives `Student not found`. Otherwise the total is the student's applications and each of the six counts is the number of those applications with that status. The six never exceed the total, and reach it exactly when each of those applications has one of the six statuses. |
| Analytics.Breakdown | backend/services/report_service.py:222-230 | One row per drive, in drive order. Each counts the drive's applications and its successful ones, which are never more, and its rate is their zero-guarded percentage. |
| Analytics.BreakdownCounts | backend/services/report_service.py:222-230 | With distinct drive ids the rows' counts add up to the applications of those drives. |
| Analytics.BreakdownCountsAll | backend/services/report_service.py:222-230 | When every application belongs to one of the drives, the rows' counts add up to all of them. |
| Analytics.CompanyApplications | backend/services/report_service.py:200-213 | The company report counts, in stored order, exactly the applications of the company's drives within whichever date bounds are given. |
| Analytics.CompanyReport | backend/services/report_service.py:191-243 | An unknown company gives `Company not found`. Otherwise the report counts the company's drives, their applications and the successful ones, whose zero-guarded percentage is the overall rate. The average AI score is over those applications' truthy scores, and the breakdown is their per-drive rows, which add up to the total when drive ids are distinct. |
| Analytics.CompanyAverageScoreBetween | backend/services/report_service.py:219 | AI scores within [0, 100] give a company average within [0, 100]. |
| Counting.Bump | backend/services/report_service.py:57 | `tally[k] += 1` raises k's count by one and leaves every other count. Keys stay distinct and in place, and a new key goes at the end. |
| Counting.BumpAll | backend/services/report_service.py:56-57 | Tallying a list onto a tally adds each element's occurrences to its count, and the total grows by the list's length. |
| Counting.Tally | backend/services/report_service.py:55-57 | The tally has distinct keys, all drawn from the list, with positive counts. Each key's count is its number of occurrences, and the counts add up to the list's length. |
| Counting.CountOfEntry | backend/services/report_service.py:81 | Each entry of the tally reports its key's count. |
| Counting.TallyCoversElements | backend/services/report_service.py:55-57 | Every element of the list appears as a key. |
| Counting.SortDescending | backend/services/report_service.py:137 | Sorting by count gives a rearrangement of the tally with the counts non-increasing. |
| Counting.MostCommon | backend/services/report_service.py:137 | `most_common(n)` gives at most n entries of the tally, largest first, each taken from the tally no more often than it occurs there (so keys stay distinct), and all of them when there are at most n. An entry left out only when n are listed is no larger than the last one listed. |
| Counting.SubMultisetKeepsDistinctKeys | backend/services/report_service.py:137 | Entries taken from a tally with distinct keys, none more often than there, keep distinct keys. |
| Counting.DistinctKeysOnce | backend/services/report_service.py:55-57 | In a tally with distinct keys no entry occurs twice. |
| Text.LowerIdempotent | backend/services/ai_service.py:381-382 | Lower-casing twice is lower-casing once. |
| Text.LowerMeaning | backend/routes/auth_routes.py:45 | `Lower` keeps the length, leaves no capital letter, changes nothing but capitals, and upper-cases back to what the text upper-cases to. |
| Text.UpperMeaning | backend/services/email_service.py:87 | `Upper` keeps the length, leaves no small letter, changes nothing but small letters, and lower-cases back to what the text lower-cases to. |
| Text.StripEmptyIffBlank | backend/routes/auth_routes.py:45 | Stripping leaves nothing exactly when the text is all whitespace. |
| Text.LastIndexOf | backend/services/file_service.py:37-38 | The last index of c is -1 exactly when c is absent. Otherwise it holds c and nothing after it does. |
| Text.AfterLast | backend/services/file_service.py:38 | `rsplit(c, 1)[1]` has no c and is what follows some c in the name. |
| Text.AfterLastOfJoin | backend/services/file_service.py:38 | Anything before the last separator is ignored: the part after it is returned unchanged. |
| Text.BeforeFirst | backend/services/email_service.py:86 | `split(c)[0]` is the prefix before the first c, or the whole text when there is no c. |
| Text.BeforeFirstOfJoin | backend/services/email_service.py:86 | Anything after the first separator is ignored: the text before it is returned unchanged. |
| Records.ParseRole | backend/routes/auth_routes.py:58-59 | A role is accepted exactly when it is `student`, `hod` or `tpo`, and it parses to the role of that name. |
| Records.ParseRoleName | backend/routes/auth_routes.py:58-59 | Every role's name parses back to it. |
| Records.DaysInMonth | backend/services/report_service.py:99 | The last day of a month: 28 exactly in February of a common year, 29 exactly in February of a leap year, 30 exactly in April, June, September and November, and 31 exactly in the other seven months. |
| Records.MonthsMakeYear | backend/services/report_service.py:99 | The twelve month lengths add up to 365 days, or 366 in a leap year. |
| Basics.Rate | backend/services/report_service.py:60 | The zero-guarded percentage is 0 for an empty whole or a zero part. It lies in [0, 100] for a part of the whole, and is 100 exactly when the part is all of it. |
| Basics.RateScales | backend/services/report_service.py:60 | A rate times the whole is 100 times the part. |
| Basics.RateMonotone | backend/services/report_service.py:60 | A larger part of the same whole never has a lower rate. |
| Basics.RateComplement | backend/routes/dashboard_routes.py:123 | The rates of the two sides of a split add up to 100. |
| Dashboard.CompletionFields | backend/routes/dashboard_routes.py:216-225 | The ten scored fields, as truthiness flags, in the order the code checks them. |
| Dashboard.ProfileCompletion | backend/routes/dashboard_routes.py:211-227 | Completion is ten points per filled field (a NULL list column reads as empty through `ListOrEmpty`): a multiple of ten up to 100, 100 exactly when all ten fields are filled and 0 exactly when none is. |
| Dashboard.ProfileCompletionMonotone | backend/routes/dashboard_routes.py:216-227 | Filling in more fields never lowers the completion. |
| Dashboard.ZeroCgpaScoresNothing | backend/routes/dashboard_routes.py:218 | A CGPA of zero scores like a missing one. |
| Dashboard.StudentPlacementRate | backend/routes/dashboard_routes.py:229-240 | The rate is the zero-guarded percentage of `placed` applications: 0 without applications, within [0, 100], 100 exactly when there are applications and all are `placed`, and 0 exactly when none is. |
| Dashboard.SelectedIsNotPlaced | backend/routes/dashboard_routes.py:235-238 | Only the status `placed` counts: applications that are all selected or offer-accepted give a rate of 0. |
| Dashboard.PlacementRateMonotone | backend/routes/dashboard_routes.py:229-240 | Marking more of the same applications `placed` never lowers the placement rate. |
| Dashboard.GetStudentStats | backend/routes/dashboard_routes.py:11-59 | The handler as intended (third finding), with the student's profile relationship taken as meant. A caller who is not a student gets 403 and a student without a profile 404; only a student with a profile gets statistics. They count the profile's applications, the pending ones among them (never more) and the active drives. They report the profile's completion and the placement rate of the profile's applications. |
| Dashboard.GetStudentStatsAsWritten | backend/routes/dashboard_routes.py:17-62 | The handler as written, against the declared models, never answers with statistics. Anyone but a student gets 403, and every student, with a profile or without, gets 500 with the exception's text, because reading `user.student_profile` raises before the profile check. |
| Dashboard.StudentStatsAsWrittenFails | backend/routes/dashboard_routes.py:20-34 | Every student gets 500 from the handler as written, where the intended handler answers with statistics exactly when the student has a profile; the two agree on the 403 for everyone else. |
| Dashboard.StudentsWithOffers | backend/routes/dashboard_routes.py:105-109 | The number of distinct department students whose id is among the offer holders: never more than the department's rows, and none when nobody holds an offer. |
| Dashboard.OffersCountStudents | backend/routes/dashboard_routes.py:105-109 | With one row per student, the count is the number of department rows whose student holds an offer. |
| Dashboard.GetHodStats | backend/routes/dashboard_routes.py:66-130 | The handler as intended (fourth finding), with the HOD's profile relationship taken as meant. A caller who is not a HOD gets 403, and a HOD without a profile or department 404. Otherwise the department's students split into approved and pending; the approval rate is the approved students' zero-guarded percentage and the placement rate that of the students with offers. Both lie in [0, 100], and the approval rate is 100 exactly when the department has students and none is pending. |
| Dashboard.GetHodStatsAsWritten | backend/routes/dashboard_routes.py:72-133 | The handler as written, against the declared models, never answers with statistics. Anyone but a HOD gets 403 and a HOD without a profile 404; every HOD with a profile gets 500 with the exception's text, because `hod_profile` is a list and reading its `department` raises, so the department check is never reached. |
| Dashboard.HodStatsAsWrittenFails | backend/routes/dashboard_routes.py:75-98 | Every HOD with a profile gets 500 from the handler as written, where the intended handler answers with statistics exactly when the profile has a department; every other caller gets the same refusal from both. |
| Dashboard.HodApprovalComplement | backend/routes/dashboard_routes.py:85-123 | For a department with students, the approval rate and the pending students' percentage add up to 100. |
| Dashboard.RolesPartitionUsers | backend/routes/dashboard_routes.py:150-151 | Every user has exactly one of the three roles, so the role counts add up to the number of users. |
| Dashboard.GetTpoStats | backend/routes/dashboard_routes.py:137-206 | The handler as intended (fifth finding). Only a TPO gets statistics; anyone else gets 403. They count the active companies, the active drives, all applications, the pending ones, the students and the HODs. The placement rate is the placement rate of all applications. Active users are students plus HODs plus one, which equals the number of users when there is exactly one TPO. |
| Dashboard.GetTpoStatsAsWritten | backend/routes/dashboard_routes.py:143-209 | The handler as written never answers with statistics: anyone but a TPO gets 403, and every TPO gets 500 with the exception's text. |
| Dashboard.TpoStatsAsWrittenFails | backend/routes/dashboard_routes.py:154-156 | Every TPO gets 500 from the handler as written instead of the statistics; every other caller gets the intended 403. |
| Uploads.Extension | backend/services/file_service.py:38 | The extension of a name with a dot is the lower-cased text after one of its dots, and holds neither a dot nor a capital. |
| Uploads.ExtensionOfJoin | backend/services/file_service.py:38 | The extension is the lower-cased text after the last dot, whatever comes before it. |
| Uploads.AllowedFileIff | backend/services/file_service.py:12-38 | A name with a dot is allowed exactly when its lower-cased last extension is `pdf`, `doc`, `docx` or `txt`. |
| Uploads.UpperCaseExtensionAllowed | backend/services/file_service.py:38 | `CV.PDF` is allowed: the check ignores case. |
| Uploads.LastExtensionDecides | backend/services/file_service.py:38 | `cv.pdf.exe` is refused: only the last extension counts. |
| Uploads.NameWithoutDotRefused | backend/services/file_service.py:37 | A name without a dot is refused. |
| Uploads.JoinPath | backend/services/file_service.py:55 | Joining to an empty folder gives the name, and otherwise exactly one slash separates folder and name. |
| Uploads.StoredNameExtension | backend/services/file_service.py:53-54 | The stored name has a dot, and its extension is the one it was built with. |
| Uploads.SaveDocument | backend/services/file_service.py:40-73 | A missing file or name, a disallowed extension and a size above 16 MiB are refused, in that order and with the source's messages. Otherwise, and only then, the file is written under the stored name in its category directory. |
| Uploads.SaveResume | backend/services/file_service.py:40-58 | A written resume passed the whitelist and the 16 MiB limit, and lies in the `resumes` directory. |
| Uploads.SavedResumeName | backend/services/file_service.py:53-55 | A saved resume is named `resume_`, the student id, `_`, the eight-digit token, a dot and the extension. Its length is 17 plus the id's and the extension's, and its own name passes the whitelist with the same extension. |
| Uploads.SaveOfferLetter | backend/services/file_service.py:75-93 | A written offer letter passed the whitelist and the 16 MiB limit, and lies in the `offer_letters` directory. |
| Uploads.SaveImage | backend/services/file_service.py:109-144 | A missing file is refused first. A name without a dot makes the extension lookup raise, reported as a failed upload. A non-image extension and an oversized image are refused next. Otherwise, and only then, the image is written under its stored name. |
| Uploads.SaveCompanyLogo | backend/services/file_service.py:109-130 | A written logo is a jpg, jpeg, png, gif or bmp of at most 5 MiB in the `company_logos` directory. |
| Uploads.SaveProfileImage | backend/services/file_service.py:146-167 | A written profile image is one of those five image types, at most 3 MiB, in the `profile_images` directory. |
| Uploads.GetFileUrl | backend/services/file_service.py:197-203 | The URL is empty exactly for an empty name, and otherwise is `/uploads/`, the category, a slash and the name. |
| Uploads.UrlNamesFile | backend/services/file_service.py:203 | The text after the URL's last slash is the file name, for a name without a slash. |
| Uploads.SlicePrefix | backend/services/file_service.py:261 | Python's `s[:limit]` is a prefix of `s`: the first `limit` elements, all of them when the limit is larger, and a negative limit counts back from the end. |
| Uploads.RegularFiles | backend/services/file_service.py:249-256 | The listing keeps exactly the regular files, each as its name and modification time. |
| Uploads.ListFiles | backend/services/file_service.py:241-265 | A missing directory lists nothing. Otherwise the listing holds regular files, each no more often than it is in the directory, newest first, at most `limit` of them, and all of them when the limit is not smaller. A file left out under a non-negative limit is no newer than the last one listed. |
| Notifications.AsRead | frontend/src/components/NotificationPanel.js:119 | A notification once read is unchanged except for its read flag. |
| Notifications.MarkAsRead | frontend/src/components/NotificationPanel.js:116-122 | The entries with the id become read, and every other entry and the length are unchanged. |
| Notifications.MarkAsReadUnreadCount | frontend/src/components/NotificationPanel.js:116-122 | Marking read lowers the unread count by exactly the number of unread entries with that id. |
| Notifications.MarkAsReadIdempotent | frontend/src/components/NotificationPanel.js:116-122 | Marking the same id read twice is the same as once. |
| Notifications.MarkAllAsRead | frontend/src/components/NotificationPanel.js:124-128 | Every entry becomes read, each otherwise unchanged. |
| Notifications.MarkAllClearsUnread | frontend/src/components/NotificationPanel.js:124-143 | After marking all read, both the unread badge and the high-priority badge are zero. |
| Notifications.DeleteNotification | frontend/src/components/NotificationPanel.js:130-132 | Deleting keeps, in order, exactly the entries with other ids. |
| Notifications.DeleteCount | frontend/src/components/NotificationPanel.js:130-132 | Deleting removes exactly as many entries as carry the id. |
| Notifications.FilteredNotifications | frontend/src/components/NotificationPanel.js:134-140 | `unread` shows exactly the unread entries and `high` exactly the high-priority ones, in order. Any other filter shows the whole list. |
| Notifications.UnreadCount | frontend/src/components/NotificationPanel.js:142 | The unread count never exceeds the list, and is zero exactly when every entry is read. |
| Notifications.CountsOrdered | frontend/src/components/NotificationPanel.js:142-143 | The high-priority badge never exceeds the unread badge, which never exceeds the list. |
| Notifications.Click | frontend/src/components/NotificationPanel.js:234-235 | Clicking a read entry changes nothing, and clicking an unread one marks its id read. |
| Notifications.ClickUnreadLowersCount | frontend/src/components/NotificationPanel.js:234-235 | Clicking a listed unread entry lowers the unread count. |
| DrivesPage.FilterDrives | frontend/src/pages/student/PlacementDrivesPage.js:153-177 | The page keeps, in order, exactly the drives that pass each filter whose input is non-empty. Search matches title, company or role, ignoring case. The CGPA filter keeps drives without a truthy floor or with a floor within the entered value, and the company filter matches the company name. With all three empty every drive is kept. |
| DrivesPage.NoFloorPassesCgpaFilter | frontend/src/pages/student/PlacementDrivesPage.js:164-168 | A drive with no minimum CGPA, or a minimum of zero, passes any CGPA filter. |
| DrivesPage.NoCompanyFailsCompanyFilter | frontend/src/pages/student/PlacementDrivesPage.js:170-174 | A drive without a company never passes a company filter. |
| DrivesPage.ToggleFavorite | frontend/src/pages/student/PlacementDrivesPage.js:199-209 | Toggling flips the id's membership, and no other id changes. |
| DrivesPage.ToggleTwice | frontend/src/pages/student/PlacementDrivesPage.js:199-209 | Toggling twice restores the favourites. |
| DrivesPage.RecordApplication | frontend/src/pages/student/PlacementDrivesPage.js:190-192 | The drive joins the applied set on an ok response, and nothing changes otherwise. |
| DrivesPage.ApplyOnce | frontend/src/pages/student/PlacementDrivesPage.js:190-514 | After a successful application the drive card's Apply button stays disabled. A failed one changes no button, and no other drive's button changes either way. |
| DrivesPage.DialogIgnoresApplied | frontend/src/pages/student/PlacementDrivesPage.js:631-639 | The details dialog's Apply button consults eligibility only: after a successful application the card's button is disabled while the dialog's stays enabled for an eligible drive. |
| DrivesPage.ColorFollowsLabel | frontend/src/pages/student/PlacementDrivesPage.js:211-222 | `JobFitColor` agrees with `JobFitText`: green goes with Excellent, orange with Good, red with Fair and Poor. |
| DrivesPage.LabelMonotone | frontend/src/pages/student/PlacementDrivesPage.js:217-222 | `JobFitText` never gives a higher score a worse label. |
| ApplicationViews.StatusText | frontend/src/pages/student/ApplicationsPage.js:173-184 | The text is `Pending` exactly for statuses outside the seven the page knows. `applied` reads Applied and `rejected` reads Rejected. |
| ApplicationViews.OtherVocabularyReadsPending | frontend/src/pages/student/ApplicationsPage.js:173-184 | `offer_accepted` and `under_review`, which other parts of the portal use, read as Pending. |
| ApplicationViews.ApplicationSteps | frontend/src/pages/student/ApplicationsPage.js:186-195 | There are five steps. The first is always completed and the second is active only while the status is `applied`. The last three are completed exactly for statuses at or after their milestone, and never active. |
| ApplicationViews.InterviewAfterShortlist | frontend/src/pages/student/ApplicationsPage.js:190-191 | The interview step is never completed before the shortlist step. |
| ApplicationViews.RejectedSkipsShortlist | frontend/src/pages/student/ApplicationsPage.js:189-192 | A rejection completes the review and the final step while the shortlist step stays pending. |
| ApplicationViews.FilterOwn | frontend/src/pages/student/ApplicationsPage.js:197-199 | `all` keeps everything. Any other value keeps, in order, exactly the applications with that status. |
| ApplicationViews.FilterOwnIdempotent | frontend/src/pages/student/ApplicationsPage.js:197-199 | Filtering twice by the same status is filtering once. |
| ApplicationViews.FilterCandidates | frontend/src/components/tpo/StudentApplications.js:190-196 | The kept applications are in order and have the chosen status, CGPA within each bound that is set and parses, and a skill containing the search text ignoring case. Every application passing all four tests is kept. |
| ApplicationViews.DefaultKeepsAll | frontend/src/components/tpo/StudentApplications.js:57-62 | Under the initial filter settings nothing is filtered out. |
| ApplicationViews.UnparsableBoundIgnored | frontend/src/components/tpo/StudentApplications.js:192-193 | A CGPA bound that is not a number filters nothing out. |
| ProfileView.CompleteIff | frontend/src/pages/student/ProfilePage.js:160 | A field counts as complete exactly when it is a non-empty array, a non-zero number or text with a non-space character. |
| ProfileView.EmptyValuesIncomplete | frontend/src/pages/student/ProfilePage.js:160 | A zero CGPA, an empty list and a blank string all count as missing. |
| ProfileView.Flags | frontend/src/pages/student/ProfilePage.js:149-158 | The eight fields the page scores, as completion flags. |
| ProfileView.Percent | frontend/src/pages/student/ProfilePage.js:161 | The rounded percentage for k of eight fields is (25k + 1) div 2. It lies in [0, 100], is 100 exactly for all eight and 0 exactly for none. |
| ProfileView.PercentMonotone | frontend/src/pages/student/ProfilePage.js:161 | More complete fields never show a lower percentage. |
| ProfileView.ProfileCompletion | frontend/src/pages/student/ProfilePage.js:146-162 | The meter shows 0 without a profile and otherwise the rounded percentage of its complete fields, within [0, 100]. It is 100 exactly when all eight fields are complete and 0 exactly when none is. |
| ProfileView.CompletionMonotone | frontend/src/pages/student/ProfilePage.js:160-161 | Completing more fields never lowers the meter. |

## Left out

- Flask routing, JWT identity and SQLAlchemy are replaced by sequences and maps passed in. This covers queries, joins, `flush`, `commit` and request teardown. A failed registration is modelled as leaving every table unchanged, because nothing is committed. The duplicate check and the insert in `apply_to_drive` are modelled sequentially; concurrent requests are out of scope.
- Exceptions and the 500 responses they produce are not modelled, except in these cases. In the image saves, a name without a dot raises, and the service reports it as a failed upload. The confirmation e-mail after an application is modelled as absent when the drive has no company, because the exception it raises is caught. In `approve_student`, a student or HOD without a profile makes the attribute access raise, which is modelled as the 500 `ServerError`. In the basic fit scorer, a zero CGPA floor makes the division raise, which is modelled as the scorer's failure. The three dashboard handlers as written, against the declared models, raise after their first checks and answer 500 (third, fourth and fifth findings).
- OpenAI calls, prompt building and the line-by-line parse of a model's reply (`ai_service.py:75-87`) are left out. The reply arrives already split into subject and content.
- Report export (Excel, PDF) is left out because it is library layout and disk I/O. So is the student report's per-application detail (round results, offer letters).
- SMTP and the e-mail log table are left out; the transport's verdict is a parameter. The same goes for file writes, `os.path.exists`, deletion, copying, thumbnails, `get_file_info` and `os.listdir`: the existence check after a save and the directory listing are parameters.
- Password hashing is not modelled; the stored password stands in for its hash. `uuid4` and `random.choices` are arbitrary inputs of the right shape. `datetime.utcnow` and the 180-day default period are not modelled either, so the report period is a parameter.
- `round(x, 2)` on rates, scores and averages is dropped: results are exact `real` values. The profile page's `Math.round` is modelled, because it decides the shown integer.
- Dates are naive date-times: calendar date plus second of the day. `isoformat` and `%Y-%m` strings are not modelled, and `list_files` sorts by a numeric modification time instead of the ISO string it compares.
- The "recent" lists (`limit(5)`, `limit(10)`, the 7- and 30-day windows) and the TPO's today counters are left out. They depend on the clock and on creation timestamps the model does not carry.
- Case mapping and whitespace are ASCII only. JavaScript `NaN` is not modelled in profile truthiness; the TPO filter's `parseFloat` result is an input that may be absent.
- Text.IsSpace: is the ASCII whitespace that both `str.strip()` and `String.prototype.trim()` remove. Both also remove U+00A0 and the other Unicode space separators, which the model keeps (case mapping and whitespace are ASCII only); Python's `strip` in `NormalizeEmail` also removes the separators `\x1c`-`\x1f`, which the model keeps as well.
- The e-mail format regex of `auth_routes.py:14-16` is modelled as a predicate over its character classes. Only its examples and its split into parts are proved, not the regex engine.
- Analytics.TrendFromAsWritten: bounds the number of entries only between one per month up to the end month and one fewer. The exact count depends on the end's time of day, and the 32-day step to the month end is replaced by the month's last day; both agree for every valid month.
- Analytics.CompanyReport: takes date-time bounds. The source's bounds are strings compared with `applied_at`, which raises `TypeError` whenever a bound is given; that error would be caught and reported as a failed report. No route in the repository calls the company report.
- Analytics.DepartmentAnalytics: reports the trend as the code computes it, so its monthly counts need not add up to the applications covered; the corrected trend is `DepartmentTrendCounts`.
- Counting.MostCommon: does not state how `Counter.most_common` orders equal counts (first-seen order). Only the non-increasing counts and the cut-off are stated.
- Dashboard.GetStudentStats: returns the statistics the handler is meant to compute. Against the declared models the handler answers 500 to every student, because `User` has no `student_profile` relationship, and past that the ordering by the missing `StudentApplication.created_at` would raise; that behaviour is `GetStudentStatsAsWritten`.
- Dashboard.GetHodStats: returns the statistics the handler is meant to compute. Against the declared models the handler answers 500 to every HOD with a profile, because the `hod_profile` list has no `department`, and past that the ordering by the missing `StudentApplication.created_at` would raise; that behaviour is `GetHodStatsAsWritten`.
- Dashboard.GetTpoStats: returns the statistics the handler is meant to compute. As written the handler always answers 500 to a TPO: the three-entity `join` at `dashboard_routes.py:154` and the filter on the missing `StudentApplication.created_at` at lines 155-156 each raise. That behaviour is `GetTpoStatsAsWritten`, and the exception's text is a parameter.
- Dashboard.GetHodStats: treats the approval flag as a boolean, so a NULL `is_approved`, which counts as neither approved nor pending in the code, is not modelled.
- `file_service.py` annotates its methods with `Dict`, `List` and `Any` without importing them from `typing`, so the module would not import as written. The model treats the annotations as absent.
- backend/models.py is used only for record fields and status strings. Three of its relationships differ from what the routes read, and outside the dashboard's `AsWritten` members the model takes each as meant. The application's drive relationship is named `drive`, while `report_service.py` reads `placement_drive`. `StudentProfile` declares no relationship to `User`, so `user.student_profile` does not exist; as written, reading it raises in login (`auth_routes.py:183`), in both profile routes (`auth_routes.py:243`, `:290`) and in `approve_student` (`hod_routes.py:58`), which then answer 500 to a student or to every approval. `HodProfile.user` declares the backref `hod_profile` as a list, so reading a profile's fields from it raises for a HOD with a profile in login and both profile routes (`auth_routes.py:186`, `:246`, `:315`), in `hod_routes.py:24`, `:58` and `:87`. The model reads both as the one-to-one profile the code means.
- Thin CRUD routes (`tpo_routes.py`, `drive_routes.py`, `company_routes.py`, `ai_routes.py`), the remaining React pages, the JS service wrappers and the setup scripts are presentation or plumbing and are not part of this model.

## Findings

| source | as written | input that shows it | evidently intended | confidence | as-written member | corrected member |
|---|---|---|---|---|---|---|
| backend/services/ai_service.py:141-181 | The fallback substitutes `{{key}}`, but every built-in template writes its slots as `{key}`, so no slot is ever filled. | Kind `application_received` with context `student_name = Ana`: the body still opens `Dear {student_name},`. | Each `{key}` slot is replaced by the context's value, so the body opens `Dear Ana,`. | not executed | AiFallback.FallbackGreetingUnfilled | AiFallback.FilledGreetingNamesStudent |
| backend/services/report_service.py:96-122 | The trend cursor is `start_date.replace(day=1)`, which keeps the start's time of day, and each month's window ends on its last day at that same time. An application later in the day on the last day of a month, or earlier on the first day, falls in no month. | Start 15 March 2024 12:00, end 10 April 2024 00:00, one application on 31 March 2024 at 18:00: it is in the period, yet the trend counts no application. | Each application of the period is counted in its calendar month, so the monthly counts add up to the period's applications. | not executed | Analytics.TrendAsWrittenMissesLateApplication | Analytics.TrendCountsEveryApplication |
| backend/routes/dashboard_routes.py:20-34 | `get_student_stats` reads `user.student_profile` (line 20), but `User` has no such relationship: `StudentProfile` (`backend/models.py:63-126`) declares none. Past that, it orders the recent applications by `StudentApplication.created_at` (line 34), a column the application table lacks (it records `applied_at`, `backend/models.py:298-307`). Either lookup raises, and the handler answers 500. | Any logged-in student: the handler answers 500 instead of the statistics or the profile 404. | A student with a profile gets the statistics, with the recent applications ordered by `applied_at`. | not executed | Dashboard.StudentStatsAsWrittenFails | Dashboard.GetStudentStats |
| backend/routes/dashboard_routes.py:75-98 | `get_hod_stats` reads `hod_profile.department` (line 79), but `hod_profile` is a list backref (`backend/models.py:144`), so for a HOD with a profile the read raises. Past that, it orders the department's recent applications by the same missing `StudentApplication.created_at` (line 98). The handler answers 500. | Any HOD with a profile: the handler answers 500 instead of the statistics or the department 404. | A HOD with a profile and a department gets the department's statistics. | not executed | Dashboard.HodStatsAsWrittenFails | Dashboard.GetHodStats |
| backend/routes/dashboard_routes.py:154-156 | `get_tpo_stats` joins the applications to three entities in one `join` call and filters them by the missing `StudentApplication.created_at`. Either raises, so the handler answers 500. | Any logged-in TPO: the handler answers 500 instead of the system-wide statistics. | A TPO gets the system-wide statistics. | not executed | Dashboard.TpoStatsAsWrittenFails | Dashboard.GetTpoStats |

=== FILE: accounts.dfy ===
/** Account gating: registration, login, editing one's own account, and the head of
    department's view of and approval over the students of their department. Tables are
    sequences; a handler that fails after staging changes leaves every table as it was,
    because the request ends without a commit. */
module Accounts {
  import opened Basics
  import opened Text
  import opened Records
  import opened Applications

  predicate ValidPassword(p: string)
  {
    |p| >= 6
  }

  /** `validate_password`. */
  function ValidatePassword(p: string): (ok: bool)
    ensures ok <==> |p| >= 6
    ensures ok ==> p != ""
  {
    |p| >= 6
  }

  predicate IsDigit(c: char)
  {
    '0' <= c <= '9'
  }

  predicate IsLetter(c: char)
  {
    ('a' <= c <= 'z') || ('A' <= c <= 'Z')
  }

  predicate SixDigits(d: string)
  {
    |d| == 6 && forall i :: 0 <= i < 6 ==> IsDigit(d[i])
  }

  /** A generated code: the prefix, then the six random digits drawn for it. */
  predicate CodeShape(prefix: string, code: string)
  {
    |code| == 9 && code[..3] == prefix && forall i :: 3 <= i < 9 ==> IsDigit(code[i])
  }

  /** `generate_student_id` and `generate_employee_id`: the prefix followed by the six random
      digits, which are an input here. */
  function IdCode(prefix: string, digits: string): (r: string)
    requires |prefix| == 3 && SixDigits(digits)
    ensures CodeShape(prefix, r)
    ensures r[3..] == digits
  {
    prefix + digits
  }

  function StudentCode(digits: string): string
    requires SixDigits(digits)
  {
    IdCode("STU", digits)
  }

  function EmployeeCode(digits: string): string
    requires SixDigits(digits)
  {
    IdCode("EMP", digits)
  }

  /** The two prefixes keep student and employee codes apart, and a code determines its digits. */
  lemma CodesDistinct(a: string, b: string)
    requires SixDigits(a) && SixDigits(b)
    ensures StudentCode(a) != EmployeeCode(b)
    ensures StudentCode(a) == StudentCode(b) <==> a == b
    ensures EmployeeCode(a) == EmployeeCode(b) <==> a == b
  {
    assert StudentCode(a)[0] == 'S' && EmployeeCode(b)[0] == 'E';
    if StudentCode(a) == StudentCode(b) {
      assert StudentCode(a)[3..] == StudentCode(b)[3..];
    }
    if EmployeeCode(a) == EmployeeCode(b) {
      assert EmployeeCode(a)[3..] == EmployeeCode(b)[3..];
    }
  }

  predicate LocalChar(c: char)
  {
    IsLetter(c) || IsDigit(c) || c == '.' || c == '_' || c == '%' || c == '+' || c == '-'
  }

  predicate DomainChar(c: char)
  {
    IsLetter(c) || IsDigit(c) || c == '.' || c == '-'
  }

  predicate LocalPart(s: string)
  {
    |s| >= 1 && forall i :: 0 <= i < |s| ==> LocalChar(s[i])
  }

  predicate DomainPart(s: string)
  {
    |s| >= 1 && forall i :: 0 <= i < |s| ==> DomainChar(s[i])
  }

  predicate TopLevelPart(s: string)
  {
    |s| >= 2 && forall i :: 0 <= i < |s| ==> IsLetter(s[i])
  }

  /** `validate_email`: local characters, `@`, domain characters, `.`, two or more letters.
      No class admits `@`, so the `@` is the first one; the final class admits no `.`, so the
      dot is the last one after the `@`. */
  predicate ValidEmail(e: string)
  {
    '@' in e
    && var local := BeforeFirst(e, '@');
    var rest := e[|local| + 1..];
    LocalPart(local) && '.' in rest
    && var k := LastIndexOf(rest, '.');
    DomainPart(rest[..k]) && TopLevelPart(rest[k + 1..])
  }

  /** Every address built from the three parts is accepted. */
  lemma ValidEmailFromParts(local: string, domain: string, tld: string)
    requires LocalPart(local) && DomainPart(domain) && TopLevelPart(tld)
    ensures ValidEmail(local + "@" + domain + "." + tld)
  {
    var rest := domain + "." + tld;
    var e := local + "@" + domain + "." + tld;
    LocalHasNoAt(local);
    assert e == local + ['@'] + rest;
    BeforeFirstOfJoin(local, '@', rest);
    assert e[|local| + 1..] == rest;
    DomainSplits(domain, tld);
  }

  lemma LocalHasNoAt(local: string)
    requires LocalPart(local)
    ensures '@' !in local
  {
    forall i | 0 <= i < |local| ensures local[i] != '@' { assert LocalChar(local[i]); }
  }

  /** The last dot of `domain.tld` is the one before the top-level part. */
  lemma DomainSplits(domain: string, tld: string)
    requires TopLevelPart(tld)
    ensures var rest := domain + "." + tld; var k := LastIndexOf(rest, '.');
      '.' in rest && k == |domain| && rest[..k] == domain && rest[k + 1..] == tld
  {
    var rest := domain + "." + tld;
    assert '.' !in tld by {
      forall i | 0 <= i < |tld| ensures tld[i] != '.' { assert IsLetter(tld[i]); }
    }
    assert rest == domain + ['.'] + tld;
    AfterLastOfJoin(domain, '.', tld);
    assert rest[..|domain|] == domain;
    assert rest[|domain| + 1..] == tld;
  }

  /** And every accepted address has that shape. */
  lemma ValidEmailHasParts(e: string)
    requires ValidEmail(e)
    ensures exists local, domain, tld :: e == local + "@" + domain + "." + tld
              && LocalPart(local) && DomainPart(domain) && TopLevelPart(tld)
  {
    var local := BeforeFirst(e, '@');
    var rest := e[|local| + 1..];
    var k := LastIndexOf(rest, '.');
    assert LocalPart(local) && DomainPart(rest[..k]) && TopLevelPart(rest[k + 1..]);
    JoinParts(e, |local|, rest, k);
  }

  /** Cutting e at the `@` at index a and its remainder at the `.` at index k. */
  lemma JoinParts(e: string, a: int, rest: string, k: int)
    requires 0 <= a < |e| && e[a] == '@' && rest == e[a + 1..]
    requires 0 <= k < |rest| && rest[k] == '.'
    ensures e == e[..a] + "@" + rest[..k] + "." + rest[k + 1..]
  {
    assert rest == rest[..k] + ['.'] + rest[k + 1..];
    assert e == e[..a] + ['@'] + rest;
  }

  lemma ValidEmailExamples()
    ensures ValidEmail("ana@uni.edu")
  {
    ExampleParts();
    ValidEmailFromParts("ana", "uni", "edu");
    assert "ana" + "@" + "uni" + "." + "edu" == "ana@uni.edu";
  }

  lemma ExampleParts()
    ensures LocalPart("ana") && DomainPart("uni") && TopLevelPart("edu")
  {
  }

  /** An address without `@` is refused. */
  lemma InvalidEmailExamples()
    ensures !ValidEmail("ana.uni.edu")
  {
    var bad := "ana.uni.edu";
    assert forall i :: 0 <= i < |bad| ==> bad[i] != '@';
  }

  /** `email.lower().strip()`. */
  function NormalizeEmail(e: string): string
  {
    Strip(Lower(e))
  }

  function WithEmail(email: string): User -> bool
  {
    (u: User) => u.email == email
  }

  function WithId(id: int): User -> bool
  {
    (u: User) => u.id == id
  }

  function FindUserByEmail(users: seq<User>, email: string): Option<User>
  {
    FindFirst(WithEmail(email), users)
  }

  function FindUserById(users: seq<User>, id: int): Option<User>
  {
    FindFirst(WithId(id), users)
  }

  function FindDepartment(ds: seq<Department>, id: int): Option<Department>
  {
    FindFirst((d: Department) => d.id == id, ds)
  }

  function FindStudentOf(students: seq<StudentProfile>, userId: int): Option<StudentProfile>
  {
    FindFirst((s: StudentProfile) => s.userId == userId, students)
  }

  datatype Db = Db(users: seq<User>, students: seq<StudentProfile>, hods: seq<HodProfile>,
                   departments: seq<Department>)

  /** The registration form. Absent keys and falsy values look alike to the handler, so an
      absent text is "" and an absent number is 0. */
  datatype RegisterRequest = RegisterRequest(
    email: string, password: string, role: string,
    firstName: string, lastName: string, departmentId: int, batchYear: int,
    cgpa: Option<real>, phone: string, dateOfBirth: string, gender: string, address: string,
    qualification: string, experienceYears: int)

  datatype RegisterError =
    | Required(field: string)
    | InvalidEmail
    | WeakPassword
    | InvalidRole
    | UserExists
    | RequiredForStudent(field: string)
    | RequiredForHod(field: string)
    | InvalidDepartment

  function RegisterErrorStatus(e: RegisterError): (code: int)
    ensures code == 409 <==> e == UserExists
    ensures code != 409 ==> code == 400
  {
    if e == UserExists then 409 else 400
  }

  datatype RegisterResponse = Registered(user: User, status: string) | RegisterRefused(error: RegisterError)

  datatype RegisterOutcome = RegisterOutcome(db: Db, response: RegisterResponse)

  /** The checks every role passes before the user row is staged. */
  predicate CommonChecksPass(req: RegisterRequest, db: Db)
  {
    req.email != "" && req.password != "" && req.role != ""
    && ValidEmail(NormalizeEmail(req.email)) && ValidPassword(req.password)
    && ParseRole(req.role).Some? && FindUserByEmail(db.users, NormalizeEmail(req.email)).None?
  }

  /** The first of those checks that fails, in the handler's order. */
  function CommonFailure(req: RegisterRequest, db: Db): (r: Option<RegisterError>)
    ensures r.None? <==> CommonChecksPass(req, db)
    ensures req.email == "" ==> r == Some(Required("email"))
    ensures req.email != "" && req.password == "" ==> r == Some(Required("password"))
    ensures req.email != "" && req.password != "" && req.role == "" ==> r == Some(Required("role"))
    ensures r == Some(InvalidEmail) <==>
              req.email != "" && req.password != "" && req.role != "" && !ValidEmail(NormalizeEmail(req.email))
    ensures r == Some(WeakPassword) <==>
              req.email != "" && req.password != "" && req.role != "" && ValidEmail(NormalizeEmail(req.email))
              && !ValidPassword(req.password)
    ensures r == Some(InvalidRole) <==>
              req.email != "" && req.password != "" && req.role != "" && ValidEmail(NormalizeEmail(req.email))
              && ValidPassword(req.password) && ParseRole(req.role).None?
    ensures r == Some(UserExists) <==>
              req.email != "" && req.password != "" && req.role != "" && ValidEmail(NormalizeEmail(req.email))
              && ValidPassword(req.password) && ParseRole(req.role).Some?
              && FindUserByEmail(db.users, NormalizeEmail(req.email)).Some?
  {
    if req.email == "" then Some(Required("email"))
    else if req.password == "" then Some(Required("password"))
    else if req.role == "" then Some(Required("role"))
    else if !ValidEmail(NormalizeEmail(req.email)) then Some(InvalidEmail)
    else if !ValidatePassword(req.password) then Some(WeakPassword)
    else if ParseRole(req.role).None? then Some(InvalidRole)
    else if FindUserByEmail(db.users, NormalizeEmail(req.email)).Some? then Some(UserExists)
    else None
  }

  /** The first missing student field, in the handler's order. */
  function MissingStudentField(req: RegisterRequest): (r: Option<string>)
    ensures r.None? <==> req.firstName != "" && req.lastName != "" && req.departmentId != 0 && req.batchYear != 0
  {
    if req.firstName == "" then Some("first_name")
    else if req.lastName == "" then Some("last_name")
    else if req.departmentId == 0 then Some("department_id")
    else if req.batchYear == 0 then Some("batch_year")
    else None
  }

  function MissingHodField(req: RegisterRequest): (r: Option<string>)
    ensures r.None? <==> req.firstName != "" && req.lastName != "" && req.departmentId != 0
  {
    if req.firstName == "" then Some("first_name")
    else if req.lastName == "" then Some("last_name")
    else if req.departmentId == 0 then Some("department_id")
    else None
  }

  /** The role-specific checks made after the user row is staged. */
  function RoleFailure(req: RegisterRequest, db: Db): (r: Option<RegisterError>)
    ensures req.role == "student" && MissingStudentField(req).Some?
            ==> r == Some(RequiredForStudent(MissingStudentField(req).value))
    ensures req.role == "hod" && MissingHodField(req).Some?
            ==> r == Some(RequiredForHod(MissingHodField(req).value))
    ensures req.role == "student" ==>
              (r.None? <==> MissingStudentField(req).None? && FindDepartment(db.departments, req.departmentId).Some?)
    ensures req.role == "hod" ==>
              (r.None? <==> MissingHodField(req).None? && FindDepartment(db.departments, req.departmentId).Some?)
    ensures req.role != "student" && req.role != "hod" ==> r.None?
    ensures r != Some(UserExists)
  {
    if req.role == "student" then
      if MissingStudentField(req).Some? then Some(RequiredForStudent(MissingStudentField(req).value))
      else if FindDepartment(db.departments, req.departmentId).None? then Some(InvalidDepartment)
      else None
    else if req.role == "hod" then
      if MissingHodField(req).Some? then Some(RequiredForHod(MissingHodField(req).value))
      else if FindDepartment(db.departments, req.departmentId).None? then Some(InvalidDepartment)
      else None
    else None
  }

  function SetHod(ds: seq<Department>, deptId: int, userId: int): (r: seq<Department>)
    ensures |r| == |ds|
    ensures forall i :: 0 <= i < |ds| ==>
              r[i] == if ds[i].id == deptId then ds[i].(hodUserId := Some(userId)) else ds[i]
  {
    if ds == [] then []
    else [if ds[0].id == deptId then ds[0].(hodUserId := Some(userId)) else ds[0]]
         + SetHod(ds[1..], deptId, userId)
  }

  /** The rows a successful registration adds: the user, and the student or head-of-department
      profile with its generated code; a new head of department is also recorded on the
      department. */
  function Commit(req: RegisterRequest, db: Db, user: User, newProfileId: int, digits: string): (r: Db)
    requires SixDigits(digits)
    ensures r.users == db.users + [user]
    ensures req.role == "student" ==>
              r.hods == db.hods && r.departments == db.departments
              && |r.students| == |db.students| + 1 && r.students[..|db.students|] == db.students
              && var s := r.students[|db.students|];
              s.id == newProfileId && s.userId == user.id && s.studentCode == StudentCode(digits)
              && s.firstName == req.firstName && s.lastName == req.lastName
              && s.departmentId == req.departmentId && s.batchYear == req.batchYear && s.isActive
    ensures req.role == "hod" ==>
              r.students == db.students && |r.hods| == |db.hods| + 1 && r.hods[..|db.hods|] == db.hods
              && r.hods[|db.hods|].employeeCode == EmployeeCode(digits)
              && r.hods[|db.hods|].userId == user.id
              && r.hods[|db.hods|].departmentId == req.departmentId
              && r.departments == SetHod(db.departments, req.departmentId, user.id)
    ensures req.role != "student" && req.role != "hod" ==> r == db.(users := db.users + [user])
  {
    if req.role == "student" then
      var profile := StudentProfile(newProfileId, user.id, StudentCode(digits),
                                    req.firstName, req.lastName, req.departmentId, req.batchYear,
                                    req.cgpa, req.phone, req.dateOfBirth, req.gender, req.address,
                                    "", "", None, None, None, true);
      assert (db.students + [profile])[..|db.students|] == db.students;
      db.(users := db.users + [user], students := db.students + [profile])
    else if req.role == "hod" then
      var hod := HodProfile(newProfileId, user.id, EmployeeCode(digits), req.firstName, req.lastName,
                            req.departmentId, req.phone, req.qualification, req.experienceYears, true);
      assert (db.hods + [hod])[..|db.hods|] == db.hods;
      db.(users := db.users + [user], hods := db.hods + [hod],
          departments := SetHod(db.departments, req.departmentId, user.id))
    else db.(users := db.users + [user])
  }

  /** POST /register. `newUserId` and `newProfileId` are the keys the database hands out and
      `digits` the six random digits of the generated code. */
  function Register(req: RegisterRequest, db: Db, newUserId: int, newProfileId: int, digits: string): (r: RegisterOutcome)
    requires SixDigits(digits)
    ensures r.response.RegisterRefused? ==> r.db == db
    ensures CommonFailure(req, db).Some? ==> r.response == RegisterRefused(CommonFailure(req, db).value)
    ensures CommonFailure(req, db).None? && RoleFailure(req, db).Some?
            ==> r.response == RegisterRefused(RoleFailure(req, db).value)
    ensures r.response.Registered? <==> CommonFailure(req, db).None? && RoleFailure(req, db).None?
    ensures r.response.Registered? ==>
            var u := r.response.user;
            u == User(newUserId, NormalizeEmail(req.email), req.password, ParseRole(req.role).value,
                      true, req.role == "tpo")
            && r.db == Commit(req, db, u, newProfileId, digits)
            && (r.response.status == "pending_approval" <==> req.role == "student")
            && (r.response.status != "pending_approval" ==> r.response.status == "approved")
  {
    var common := CommonFailure(req, db);
    if common.Some? then RegisterOutcome(db, RegisterRefused(common.value))
    else
      var specific := RoleFailure(req, db);
      if specific.Some? then RegisterOutcome(db, RegisterRefused(specific.value))
      else
        var role := ParseRole(req.role).value;
        var user := User(newUserId, NormalizeEmail(req.email), req.password, role, true, role == Tpo);
        var status := if role == Student then "pending_approval" else "approved";
        RegisterOutcome(Commit(req, db, user, newProfileId, digits), Registered(user, status))
  }

  /** Only a training and placement officer starts out approved. */
  lemma RegisteredApprovalFollowsRole(req: RegisterRequest, db: Db, newUserId: int, newProfileId: int, digits: string)
    requires SixDigits(digits)
    requires Register(req, db, newUserId, newProfileId, digits).response.Registered?
    ensures var u := Register(req, db, newUserId, newProfileId, digits).response.user;
            u.isApproved <==> u.role == Tpo
  {
  }

  /** Registering twice with the same address (in any letter case) is refused the second time. */
  lemma SecondRegistrationConflicts(req: RegisterRequest, req2: RegisterRequest, db: Db,
                                    id1: int, p1: int, id2: int, p2: int, digits: string)
    requires SixDigits(digits)
    requires Register(req, db, id1, p1, digits).response.Registered?
    requires req2.password != "" && req2.role != "" && ValidPassword(req2.password) && ParseRole(req2.role).Some?
    requires NormalizeEmail(req2.email) == NormalizeEmail(req.email) && req2.email != ""
    ensures var db1 := Register(req, db, id1, p1, digits).db;
            Register(req2, db1, id2, p2, digits).response == RegisterRefused(UserExists)
  {
    var first := Register(req, db, id1, p1, digits);
    var db1 := first.db;
    var u := first.response.user;
    assert CommonChecksPass(req, db);
    assert db1.users == db.users + [u] && u.email == NormalizeEmail(req.email);
    assert db1.users[|db.users|] == u;
    assert FindUserByEmail(db1.users, NormalizeEmail(req2.email)).Some?;
    assert CommonFailure(req2, db1) == Some(UserExists);
  }

  /** The request itself is acceptable: every required key is set, the address and password
      pass validation and the role is known. */
  predicate WellFormedRequest(req: RegisterRequest)
  {
    req.email != "" && req.password != "" && req.role != ""
    && ValidEmail(NormalizeEmail(req.email)) && ValidatePassword(req.password) && ParseRole(req.role).Some?
  }

  /** The code of a refused registration: 409 exactly when an acceptable request names an
      address that is already registered; every other refusal is a 400. */
  lemma RegisterStatusMeaning(req: RegisterRequest, db: Db, newUserId: int, newProfileId: int, digits: string)
    requires SixDigits(digits)
    ensures Register(req, db, newUserId, newProfileId, digits).response.RegisterRefused? ==>
            var code := RegisterErrorStatus(Register(req, db, newUserId, newProfileId, digits).response.error);
            (code == 409 <==> WellFormedRequest(req) && FindUserByEmail(db.users, NormalizeEmail(req.email)).Some?)
            && (code == 400 <==> !WellFormedRequest(req)
                                 || (FindUserByEmail(db.users, NormalizeEmail(req.email)).None?
                                     && RoleFailure(req, db).Some?))
  {
    var response := Register(req, db, newUserId, newProfileId, digits).response;
    var common := CommonFailure(req, db);
    if response.Registered? {
    } else if common.Some? {
      var e := response.error;
      assert e == common.value;
    } else {
      var e := response.error;
      assert CommonChecksPass(req, db);
      assert e == RoleFailure(req, db).value;
    }
  }

  /** A registration never stores a password that `validate_password` refuses. */
  lemma RegisteredPasswordValid(req: RegisterRequest, db: Db, newUserId: int, newProfileId: int, digits: string)
    requires SixDigits(digits)
    ensures Register(req, db, newUserId, newProfileId, digits).response.Registered? ==>
            ValidatePassword(Register(req, db, newUserId, newProfileId, digits).response.user.password)
            && ValidatePassword(Register(req, db, newUserId, newProfileId, digits).db.users[|db.users|].password)
  {
  }

  datatype LoginError = CredentialsRequired | BadCredentials | Deactivated | PendingApproval

  function LoginErrorStatus(e: LoginError): (code: int)
    ensures code == 401 <==> e == BadCredentials
    ensures code == 400 <==> e == CredentialsRequired
    ensures code == 403 <==> e == Deactivated || e == PendingApproval
  {
    match e
    case CredentialsRequired => 400
    case BadCredentials => 401
    case Deactivated => 403
    case PendingApproval => 403
  }

  datatype LoginResponse = LoggedIn(user: User) | LoginRefused(error: LoginError)

  /** POST /login. */
  function Login(email: string, password: string, users: seq<User>): (r: LoginResponse)
    ensures r == LoginRefused(CredentialsRequired) <==> email == "" || password == ""
    ensures email != "" && password != "" ==>
            var u := FindUserByEmail(users, NormalizeEmail(email));
            (r.LoggedIn? <==>
               (u.Some? && u.value.password == password && u.value.isActive
                && (u.value.isApproved || u.value.role != Student)))
            && (r.LoggedIn? ==> r.user == u.value)
    ensures r.LoggedIn? ==>
            r.user in users && r.user.email == NormalizeEmail(email) && r.user.password == password
            && r.user.isActive && (r.user.isApproved || r.user.role != Student)
    ensures email != "" && password != "" ==>
            var u := FindUserByEmail(users, NormalizeEmail(email));
            (r == LoginRefused(BadCredentials) <==> u.None? || u.value.password != password)
            && (r == LoginRefused(Deactivated) <==> u.Some? && u.value.password == password && !u.value.isActive)
            && (r == LoginRefused(PendingApproval) <==>
                  u.Some? && u.value.password == password && u.value.isActive
                  && !u.value.isApproved && u.value.role == Student)
  {
    if email == "" || password == "" then LoginRefused(CredentialsRequired)
    else
      var u := FindUserByEmail(users, NormalizeEmail(email));
      if u.None? || u.value.password != password then LoginRefused(BadCredentials)
      else if !u.value.isActive then LoginRefused(Deactivated)
      else if !u.value.isApproved && u.value.role == Student then LoginRefused(PendingApproval)
      else LoggedIn(u.value)
  }

  /** The code of a refused login: 400 exactly when a credential is blank, 401 exactly when no
      account holds that address and password, 403 exactly when the password matches but the
      account is deactivated or is a student still waiting for approval. */
  lemma LoginStatusMeaning(email: string, password: string, users: seq<User>)
    requires Login(email, password, users).LoginRefused?
    ensures var code := LoginErrorStatus(Login(email, password, users).error);
            var u := FindUserByEmail(users, NormalizeEmail(email));
            (code == 400 <==> email == "" || password == "")
            && (code == 401 <==> email != "" && password != "" && (u.None? || u.value.password != password))
            && (code == 403 <==> email != "" && password != "" && u.Some? && u.value.password == password
                                 && (!u.value.isActive || (!u.value.isApproved && u.value.role == Student)))
  {
  }

  /** Approval gates students only: an unapproved head of department still gets in. */
  lemma UnapprovedHodCanLogIn(u: User, users: seq<User>)
    requires u.role == Hod && u.isActive && !u.isApproved && u.email != "" && u.password != ""
    requires NormalizeEmail(u.email) == u.email
    requires FindUserByEmail(users, u.email) == Some(u)
    ensures Login(u.email, u.password, users) == LoggedIn(u)
  {
  }

  /** The fields of PUT /profile; "" stands for an absent or empty value. */
  datatype AccountPatch = AccountPatch(
    email: string, newPassword: string, currentPassword: string,
    student: StudentPatch,
    hodFirstName: Patch<string>, hodLastName: Patch<string>, hodPhone: Patch<string>,
    hodQualification: Patch<string>, hodExperienceYears: Patch<int>)

  datatype AccountError = UserNotFound | BadEmail | EmailTaken | WrongCurrentPassword | WeakNewPassword

  function AccountErrorStatus(e: AccountError): (code: int)
    ensures code == 404 <==> e == UserNotFound
    ensures code == 409 <==> e == EmailTaken
    ensures code != 404 && code != 409 ==> code == 400
  {
    match e
    case UserNotFound => 404
    case BadEmail => 400
    case EmailTaken => 409
    case WrongCurrentPassword => 400
    case WeakNewPassword => 400
  }

  datatype AccountResponse =
    | AccountSaved(user: User, student: Option<StudentProfile>, hod: Option<HodProfile>)
    | AccountRefused(error: AccountError)

  /** Some user other than `self` already holds the address. */
  predicate TakenByOther(users: seq<User>, email: string, self: int)
  {
    exists i :: 0 <= i < |users| && users[i].email == email && users[i].id != self
  }

  /** The scalar columns a head of department may edit. */
  function PatchHod(h: HodProfile, p: AccountPatch): HodProfile
  {
    h.(firstName := Patched(h.firstName, p.hodFirstName),
       lastName := Patched(h.lastName, p.hodLastName),
       phone := Patched(h.phone, p.hodPhone),
       qualification := Patched(h.qualification, p.hodQualification),
       experienceYears := Patched(h.experienceYears, p.hodExperienceYears))
  }

  /** The checks of PUT /profile in the handler's order: the first that fails, or nothing
      when the edit may be saved. */
  function AccountCheck(user: Option<User>, users: seq<User>, p: AccountPatch): (r: Option<AccountError>)
    ensures r.None? <==> user.Some? && user.value.isActive
                         && (p.email != "" ==>
                               ValidEmail(NormalizeEmail(p.email)) && !TakenByOther(users, NormalizeEmail(p.email), user.value.id))
                         && (p.newPassword != "" ==>
                               p.currentPassword == user.value.password && ValidatePassword(p.newPassword))
  {
    if user.None? || !user.value.isActive then Some(UserNotFound)
    else if p.email != "" && !ValidEmail(NormalizeEmail(p.email)) then Some(BadEmail)
    else if p.email != "" && TakenByOther(users, NormalizeEmail(p.email), user.value.id) then Some(EmailTaken)
    else if p.newPassword != "" && p.currentPassword != user.value.password then Some(WrongCurrentPassword)
    else if p.newPassword != "" && !ValidatePassword(p.newPassword) then Some(WeakNewPassword)
    else None
  }

  /** PUT /profile on the caller's own account. `student` and `hod` are the caller's profiles. */
  function UpdateAccount(user: Option<User>, users: seq<User>, student: Option<StudentProfile>,
                         hod: Option<HodProfile>, p: AccountPatch): (r: AccountResponse)
    ensures user.None? || !user.value.isActive ==> r == AccountRefused(UserNotFound)
    ensures r.AccountRefused? <==> AccountCheck(user, users, p).Some?
    ensures r.AccountRefused? ==> r.error == AccountCheck(user, users, p).value
    ensures r.AccountSaved? ==>
            user.Some? && user.value.isActive
            && r.user.id == user.value.id && r.user.role == user.value.role
            && r.user.isActive == user.value.isActive && r.user.isApproved == user.value.isApproved
            && (p.email == "" ==> r.user.email == user.value.email)
            && (p.email != "" ==> r.user.email == NormalizeEmail(p.email) && ValidEmail(r.user.email)
                                  && !TakenByOther(users, r.user.email, user.value.id))
            && (p.newPassword == "" ==> r.user.password == user.value.password)
            && (p.newPassword != "" ==> r.user.password == p.newPassword && ValidPassword(p.newPassword)
                                        && p.currentPassword == user.value.password)
    ensures user.Some? && user.value.isActive && p.email != "" && !ValidEmail(NormalizeEmail(p.email))
            ==> r == AccountRefused(BadEmail)
    ensures (user.Some? && user.value.isActive && p.email != "" && ValidEmail(NormalizeEmail(p.email))
             && TakenByOther(users, NormalizeEmail(p.email), user.value.id)) ==> r == AccountRefused(EmailTaken)
    ensures (user.Some? && user.value.isActive && p.email == "" && p.newPassword != ""
             && p.currentPassword != user.value.password) ==> r == AccountRefused(WrongCurrentPassword)
    ensures r.AccountSaved? && user.value.role == Student && student.Some? ==>
            r.hod == hod && r.student.Some? && SameProtected(student.value, r.student.value)
            && r.student.value == PatchScalars(student.value, p.student)
            && r.student.value.skills == student.value.skills
            && r.student.value.experience == student.value.experience
            && r.student.value.education == student.value.education
    ensures r.AccountSaved? && user.value.role == Hod && hod.Some? ==>
            r.student == student && r.hod == Some(PatchHod(hod.value, p))
            && r.hod.value.id == hod.value.id && r.hod.value.userId == hod.value.userId
            && r.hod.value.employeeCode == hod.value.employeeCode
            && r.hod.value.departmentId == hod.value.departmentId && r.hod.value.isActive == hod.value.isActive
    ensures r.AccountSaved? && !(user.value.role == Student && student.Some?) && !(user.value.role == Hod && hod.Some?)
            ==> r.student == student && r.hod == hod
  {
    var reason := AccountCheck(user, users, p);
    if reason.Some? then AccountRefused(reason.value)
    else
      var u := user.value;
      var u1 := if p.email != "" then u.(email := NormalizeEmail(p.email)) else u;
      var u2 := if p.newPassword != "" then u1.(password := p.newPassword) else u1;
      SaveProfiles(u2, student, hod, p)
  }

  /** The profile half of a successful PUT /profile: the caller's own profile takes the
      patch, the other is passed through. */
  function SaveProfiles(u: User, student: Option<StudentProfile>, hod: Option<HodProfile>,
                        p: AccountPatch): (r: AccountResponse)
    ensures r.AccountSaved? && r.user == u
    ensures u.role == Student && student.Some? ==>
            r.hod == hod && r.student.Some? && SameProtected(student.value, r.student.value)
            && r.student.value == PatchScalars(student.value, p.student)
            && r.student.value.skills == student.value.skills
            && r.student.value.experience == student.value.experience
            && r.student.value.education == student.value.education
    ensures u.role == Hod && hod.Some? ==>
            r.student == student && r.hod == Some(PatchHod(hod.value, p))
            && r.hod.value.id == hod.value.id && r.hod.value.userId == hod.value.userId
            && r.hod.value.employeeCode == hod.value.employeeCode
            && r.hod.value.departmentId == hod.value.departmentId && r.hod.value.isActive == hod.value.isActive
    ensures !(u.role == Student && student.Some?) && !(u.role == Hod && hod.Some?)
            ==> r.student == student && r.hod == hod
  {
    if u.role == Student && student.Some? then
      AccountSaved(u, Some(PatchScalars(student.value, p.student)), hod)
    else if u.role == Hod && hod.Some? then
      AccountSaved(u, student, Some(PatchHod(hod.value, p)))
    else AccountSaved(u, student, hod)
  }

  /** The code of a refused account edit: 404 exactly when the caller has no active account,
      409 exactly when a valid new address belongs to another user, and 400 for a malformed
      address, a wrong current password or a too-short new one. */
  lemma AccountStatusMeaning(user: Option<User>, users: seq<User>, student: Option<StudentProfile>,
                             hod: Option<HodProfile>, p: AccountPatch)
    requires UpdateAccount(user, users, student, hod, p).AccountRefused?
    ensures var code := AccountErrorStatus(UpdateAccount(user, users, student, hod, p).error);
            (code == 404 <==> user.None? || !user.value.isActive)
            && (code == 409 <==> user.Some? && user.value.isActive && p.email != ""
                                 && ValidEmail(NormalizeEmail(p.email))
                                 && TakenByOther(users, NormalizeEmail(p.email), user.value.id))
            && (code == 400 <==> user.Some? && user.value.isActive
                                 && ((p.email != "" && !ValidEmail(NormalizeEmail(p.email)))
                                     || (!(p.email != "" && TakenByOther(users, NormalizeEmail(p.email), user.value.id))
                                         && p.newPassword != ""
                                         && (p.currentPassword != user.value.password
                                             || !ValidatePassword(p.newPassword)))))
  {
    assert UpdateAccount(user, users, student, hod, p).error == AccountCheck(user, users, p).value;
  }


  /** A password change never stores a password that `validate_password` refuses, and it
      needs the current one. */
  lemma ChangedPasswordValid(user: Option<User>, users: seq<User>, student: Option<StudentProfile>,
                             hod: Option<HodProfile>, p: AccountPatch)
    ensures UpdateAccount(user, users, student, hod, p).AccountSaved?
            && UpdateAccount(user, users, student, hod, p).user.password != user.value.password
            ==> ValidatePassword(UpdateAccount(user, users, student, hod, p).user.password)
                && p.currentPassword == user.value.password
  {
  }

  /** The student whitelist on this endpoint never reaches the JSON list columns, even when
      the body carries them. */
  lemma AccountUpdateIgnoresStudentLists(user: User, users: seq<User>, s: StudentProfile, p: AccountPatch)
    requires user.role == Student && user.isActive
    requires UpdateAccount(Some(user), users, Some(s), None, p).AccountSaved?
    ensures var t := UpdateAccount(Some(user), users, Some(s), None, p).student.value;
            t.skills == s.skills && t.experience == s.experience && t.education == s.education
            && t.firstName == Patched(s.firstName, p.student.firstName)
  {
    var r := UpdateAccount(Some(user), users, Some(s), None, p);
    assert r.student.value == PatchScalars(s, p.student);
  }

  datatype HodError = HodAccessDenied | HodProfileMissing | StudentIdRequired | InvalidStudent
                    | NotInDepartment | ServerError

  function HodErrorStatus(e: HodError): (code: int)
    ensures code == 403 <==> e == HodAccessDenied || e == NotInDepartment
    ensures code == 404 <==> e == HodProfileMissing || e == InvalidStudent
    ensures code == 400 <==> e == StudentIdRequired
    ensures code == 500 <==> e == ServerError
  {
    match e
    case HodAccessDenied => 403
    case HodProfileMissing => 404
    case StudentIdRequired => 400
    case InvalidStudent => 404
    case NotInDepartment => 403
    case ServerError => 500
  }

  predicate IsHod(user: Option<User>)
  {
    user.Some? && user.value.role == Hod
  }

  datatype StudentsResponse = StudentList(students: seq<StudentProfile>) | StudentsRefused(error: HodError)

  /** GET /hod/students. */
  function DepartmentStudents(user: Option<User>, hod: Option<HodProfile>, students: seq<StudentProfile>): (r: StudentsResponse)
    ensures !IsHod(user) ==> r == StudentsRefused(HodAccessDenied)
    ensures IsHod(user) && hod.None? ==> r == StudentsRefused(HodProfileMissing)
    ensures r.StudentList? <==> IsHod(user) && hod.Some?
    ensures r.StudentList? ==>
            IsSubsequence(r.students, students)
            && (forall i :: 0 <= i < |r.students| ==>
                  r.students[i].departmentId == hod.value.departmentId && r.students[i].isActive)
            && (forall i :: 0 <= i < |students| ==>
                  (students[i].departmentId == hod.value.departmentId && students[i].isActive)
                  ==> students[i] in r.students)
  {
    if !IsHod(user) then StudentsRefused(HodAccessDenied)
    else if hod.None? then StudentsRefused(HodProfileMissing)
    else
      var dept := hod.value.departmentId;
      StudentList(Filter((s: StudentProfile) => s.departmentId == dept && s.isActive, students))
  }

  function Approve(users: seq<User>, id: int): (r: seq<User>)
    ensures |r| == |users|
    ensures forall i :: 0 <= i < |users| ==>
              r[i] == if users[i].id == id then users[i].(isApproved := true) else users[i]
  {
    if users == [] then []
    else [if users[0].id == id then users[0].(isApproved := true) else users[0]] + Approve(users[1..], id)
  }

  datatype ApproveResponse = Approved(users: seq<User>) | ApproveRefused(error: HodError)

  /** PUT /hod/approve-student. An id of 0 stands for an absent `student_user_id`; a student
      or caller without a profile makes the handler fail with a server error. */
  function ApproveStudent(user: Option<User>, hod: Option<HodProfile>, studentUserId: int,
                          users: seq<User>, students: seq<StudentProfile>): (r: ApproveResponse)
    ensures !IsHod(user) ==> r == ApproveRefused(HodAccessDenied)
    ensures IsHod(user) && studentUserId == 0 ==> r == ApproveRefused(StudentIdRequired)
    ensures IsHod(user) && studentUserId != 0
            && (FindUserById(users, studentUserId).None? || FindUserById(users, studentUserId).value.role != Student)
            ==> r == ApproveRefused(InvalidStudent)
    ensures IsHod(user) && studentUserId != 0 && hod.Some?
            && FindStudentOf(students, studentUserId).Some?
            && FindStudentOf(students, studentUserId).value.departmentId != hod.value.departmentId
            ==> r.ApproveRefused?
    ensures r.Approved? <==>
            IsHod(user) && studentUserId != 0 && FindUserById(users, studentUserId).Some?
            && FindUserById(users, studentUserId).value.role == Student
            && hod.Some? && FindStudentOf(students, studentUserId).Some?
            && FindStudentOf(students, studentUserId).value.departmentId == hod.value.departmentId
    ensures r.Approved? ==>
            |r.users| == |users|
            && forall i :: 0 <= i < |users| ==>
                 (users[i].id == studentUserId ==> r.users[i] == users[i].(isApproved := true))
                 && (users[i].id != studentUserId ==> r.users[i] == users[i])
  {
    if !IsHod(user) then ApproveRefused(HodAccessDenied)
    else if studentUserId == 0 then ApproveRefused(StudentIdRequired)
    else
      var target := FindUserById(users, studentUserId);
      if target.None? || target.value.role != Student then ApproveRefused(InvalidStudent)
      else
        var profile := FindStudentOf(students, studentUserId);
        if profile.None? || hod.None? then ApproveRefused(ServerError)
        else if profile.value.departmentId != hod.value.departmentId then ApproveRefused(NotInDepartment)
        else Approved(Approve(users, studentUserId))
  }

  /** The code of a refused approval: 400 for a missing id, 404 when the id names no student,
      500 when the student or the caller lacks a profile, and 403 for anyone but a head of
      department or for a student of another department. */
  lemma ApproveStatusMeaning(user: Option<User>, hod: Option<HodProfile>, studentUserId: int,
                             users: seq<User>, students: seq<StudentProfile>)
    requires ApproveStudent(user, hod, studentUserId, users, students).ApproveRefused?
    ensures var code := HodErrorStatus(ApproveStudent(user, hod, studentUserId, users, students).error);
            var target := FindUserById(users, studentUserId);
            var profile := FindStudentOf(students, studentUserId);
            var isStudent := target.Some? && target.value.role == Student;
            (code == 400 <==> IsHod(user) && studentUserId == 0)
            && (code == 404 <==> IsHod(user) && studentUserId != 0 && !isStudent)
            && (code == 500 <==> IsHod(user) && studentUserId != 0 && isStudent && (profile.None? || hod.None?))
            && (code == 403 <==> !IsHod(user)
                                 || (studentUserId != 0 && isStudent && profile.Some? && hod.Some?
                                     && profile.value.departmentId != hod.value.departmentId))
  {
  }

  /** A student of another department keeps their approval flag: the refusal carries no table. */
  lemma ApproveOtherDepartmentRefused(user: User, hod: HodProfile, sid: int, users: seq<User>,
                                      students: seq<StudentProfile>)
    requires user.role == Hod && sid != 0
    requires FindUserById(users, sid).Some? && FindUserById(users, sid).value.role == Student
    requires FindStudentOf(students, sid).Some? && FindStudentOf(students, sid).value.departmentId != hod.departmentId
    ensures ApproveStudent(Some(user), Some(hod), sid, users, students) == ApproveRefused(NotInDepartment)
  {
  }

  /** Approving an already approved student changes nothing further. */
  lemma {:induction false} ApproveIdempotent(users: seq<User>, id: int)
    ensures Approve(Approve(users, id), id) == Approve(users, id)
  {
    var once := Approve(users, id);
    var twice := Approve(once, id);
    assert |twice| == |once|;
    forall i | 0 <= i < |once| ensures twice[i] == once[i] {
      assert once[i] == if users[i].id == id then users[i].(isApproved := true) else users[i];
    }
  }

  /** Approval changes no address, so e-mail lookup finds the approved version of the same row. */
  lemma {:induction false} FindAfterApprove(users: seq<User>, id: int, email: string)
    ensures var f := FindUserByEmail(users, email);
            var g := FindUserByEmail(Approve(users, id), email);
            (f.None? <==> g.None?)
            && (f.Some? ==> g.value == if f.value.id == id then f.value.(isApproved := true) else f.value)
  {
    if users != [] {
      FindAfterApprove(users[1..], id, email);
      assert Approve(users, id)[1..] == Approve(users[1..], id);
    }
  }

  /** A new, unapproved student row is held at the login gate. */
  lemma {:induction false} NewStudentPending(users0: seq<User>, u: User, email: string, password: string)
    requires email != "" && password != "" && u.email == NormalizeEmail(email) && u.password == password
    requires u.role == Student && u.isActive && !u.isApproved
    requires FindUserByEmail(users0, u.email).None?
    ensures Login(email, password, users0 + [u]) == LoginRefused(PendingApproval)
  {
    FindAppended(users0, u);
  }

  /** The head of the student's department may approve the new row. */
  lemma {:induction false} NewStudentApprovable(users0: seq<User>, students0: seq<StudentProfile>, u: User, s: StudentProfile,
                             hodUser: User, hod: HodProfile)
    requires u.role == Student && u.id != 0
    requires forall j :: 0 <= j < |users0| ==> users0[j].id != u.id
    requires forall j :: 0 <= j < |students0| ==> students0[j].userId != u.id
    requires s.userId == u.id && s.departmentId == hod.departmentId && hodUser.role == Hod
    ensures ApproveStudent(Some(hodUser), Some(hod), u.id, users0 + [u], students0 + [s])
            == Approved(Approve(users0 + [u], u.id))
  {
    FindIdAppended(users0, u);
    FindStudentAppended(students0, s);
  }

  /** Once approved, the same credentials log the student in. */
  lemma {:induction false} ApprovedStudentLogsIn(users0: seq<User>, u: User, email: string, password: string)
    requires email != "" && password != "" && u.email == NormalizeEmail(email) && u.password == password
    requires u.role == Student && u.isActive
    requires FindUserByEmail(users0, u.email).None?
    requires forall j :: 0 <= j < |users0| ==> users0[j].id != u.id
    ensures Login(email, password, Approve(users0 + [u], u.id)) == LoggedIn(u.(isApproved := true))
  {
    FindAppended(users0, u);
    FindAfterApprove(users0 + [u], u.id, u.email);
  }

  /** The whole gate for a new student: registration leaves them pending at login; once the
      head of their department approves them, login succeeds. */
  lemma StudentOnboarding(req: RegisterRequest, db: Db, uid: int, pid: int, digits: string,
                          hodUser: User, hod: HodProfile)
    requires SixDigits(digits)
    requires req.role == "student" && uid != 0
    requires Register(req, db, uid, pid, digits).response.Registered?
    requires forall j :: 0 <= j < |db.users| ==> db.users[j].id != uid
    requires forall j :: 0 <= j < |db.students| ==> db.students[j].userId != uid
    requires hodUser.role == Hod && hod.departmentId == req.departmentId
    ensures var db1 := Register(req, db, uid, pid, digits).db;
            Login(req.email, req.password, db1.users) == LoginRefused(PendingApproval)
            && ApproveStudent(Some(hodUser), Some(hod), uid, db1.users, db1.students).Approved?
            && Login(req.email, req.password,
                     ApproveStudent(Some(hodUser), Some(hod), uid, db1.users, db1.students).users).LoggedIn?
  {
    var r := Register(req, db, uid, pid, digits);
    var u := r.response.user;
    var db1 := Commit(req, db, u, pid, digits);
    assert r.db == db1;
    assert CommonChecksPass(req, db);
    var s := db1.students[|db.students|];
    assert db1.students == db.students + [s];
    NewStudentPending(db.users, u, req.email, req.password);
    NewStudentApprovable(db.users, db.students, u, s, hodUser, hod);
    ApprovedStudentLogsIn(db.users, u, req.email, req.password);
  }

  lemma FindAppended(users: seq<User>, u: User)
    requires FindUserByEmail(users, u.email).None?
    ensures FindUserByEmail(users + [u], u.email) == Some(u)
  {
    FindFirstAppended(WithEmail(u.email), users, u);
  }

  lemma FindIdAppended(users: seq<User>, u: User)
    requires forall j :: 0 <= j < |users| ==> users[j].id != u.id
    ensures FindUserById(users + [u], u.id) == Some(u)
  {
    FindFirstAppended(WithId(u.id), users, u);
  }

  lemma FindStudentAppended(students: seq<StudentProfile>, s: StudentProfile)
    requires forall j :: 0 <= j < |students| ==> students[j].userId != s.userId
    ensures FindStudentOf(students + [s], s.userId) == Some(s)
  {
    FindFirstAppended((t: StudentProfile) => t.userId == s.userId, students, s);
  }
}

=== FILE: ai_fallback.dfy ===
/** The deterministic paths of the AI service: the job-fit score it computes when no
    language model answers, the keyword scan of a resume's text, and the built-in e-mail
    templates it falls back on. */
module AiFallback {
  import opened Basics
  import opened Text
  import opened Pieces
  import opened Templating
  import opened BuiltinTemplates
  import Applications

  /** Every string of xs lower-cased. */
  function LowerAll(xs: seq<string>): (r: seq<string>)
    ensures |r| == |xs|
    ensures forall i :: 0 <= i < |xs| ==> r[i] == Lower(xs[i])
  {
    seq(|xs|, i requires 0 <= i < |xs| => Lower(xs[i]))
  }

  /** A requirement is held when its lower-cased form equals some lower-cased skill. */
  predicate Held(skills: seq<string>, req: string)
  {
    Lower(req) in LowerAll(skills)
  }

  /** `matched_skills`: the lower-cased requirements the student holds, in requirement order. */
  function MatchedSkills(skills: seq<string>, reqs: seq<string>): (r: seq<string>)
    ensures IsSubsequence(r, LowerAll(reqs))
    ensures forall i :: 0 <= i < |r| ==> r[i] in LowerAll(skills)
    ensures forall i :: 0 <= i < |reqs| && Held(skills, reqs[i]) ==> Lower(reqs[i]) in r
  {
    var low := LowerAll(skills);
    Filter((x: string) => x in low, LowerAll(reqs))
  }

  /** `missing_skills`: the requirements, as written, that the student does not hold. */
  function MissingSkills(skills: seq<string>, reqs: seq<string>): (r: seq<string>)
    ensures IsSubsequence(r, reqs)
    ensures forall i :: 0 <= i < |r| ==> !Held(skills, r[i])
    ensures forall i :: 0 <= i < |reqs| && !Held(skills, reqs[i]) ==> reqs[i] in r
  {
    Filter((q: string) => !Held(skills, q), reqs)
  }

  /** Filtering the lower-cased list keeps as many entries as filtering the original list on
      the lower-cased test. */
  lemma {:induction false} FilterLowerCount(p: string -> bool, reqs: seq<string>)
    ensures |Filter(p, LowerAll(reqs))| == |Filter((q: string) => p(Lower(q)), reqs)|
  {
    if reqs != [] {
      assert LowerAll(reqs)[1..] == LowerAll(reqs[1..]);
      FilterLowerCount(p, reqs[1..]);
    }
  }

  /** Matched and missing skills split the requirement list between them. */
  lemma MatchedMissingPartition(skills: seq<string>, reqs: seq<string>)
    ensures |MatchedSkills(skills, reqs)| + |MissingSkills(skills, reqs)| == |reqs|
  {
    var low := LowerAll(skills);
    var held := (q: string) => Held(skills, q);
    var notHeld := (q: string) => !Held(skills, q);
    var any := (q: string) => true;
    FilterLowerCount((x: string) => x in low, reqs);
    assert Filter((q: string) => (x => x in low)(Lower(q)), reqs) == Filter(held, reqs) by {
      FilterAgreeing((q: string) => (x => x in low)(Lower(q)), held, reqs);
    }
    FilterDisjointCount(held, notHeld, any, reqs);
    assert Filter(any, reqs) == reqs;
  }

  /** Every requirement is held exactly when none is missing. */
  lemma AllHeldIffNoneMissing(skills: seq<string>, reqs: seq<string>)
    ensures (forall i :: 0 <= i < |reqs| ==> Held(skills, reqs[i])) <==> MissingSkills(skills, reqs) == []
  {
  }

  /** Matching ignores the case of both lists. */
  lemma MatchingIgnoresCase(skills: seq<string>, reqs: seq<string>)
    ensures MatchedSkills(LowerAll(skills), LowerAll(reqs)) == MatchedSkills(skills, reqs)
    ensures |MissingSkills(LowerAll(skills), reqs)| == |MissingSkills(skills, reqs)|
  {
    LowerAllIdempotent(skills);
    LowerAllIdempotent(reqs);
    MatchedMissingPartition(LowerAll(skills), reqs);
    MatchedMissingPartition(skills, reqs);
  }

  lemma LowerAllIdempotent(xs: seq<string>)
    ensures LowerAll(LowerAll(xs)) == LowerAll(xs)
  {
    forall i | 0 <= i < |xs| ensures LowerAll(LowerAll(xs))[i] == LowerAll(xs)[i] {
      LowerIdempotent(xs[i]);
    }
  }

  /** `skill_match_score`: the percentage of requirements held, or 0 with no requirements. */
  function SkillMatchScore(skills: seq<string>, reqs: seq<string>): (r: real)
    ensures reqs == [] ==> r == 0.0
    ensures 0.0 <= r <= 100.0
    ensures r == 0.0 <==> MatchedSkills(skills, reqs) == []
    ensures r == Rate(|MatchedSkills(skills, reqs)|, |reqs|)
  {
    var m := |MatchedSkills(skills, reqs)|;
    FullMatchIffAllHeld(skills, reqs);
    Rate(m, |reqs|)
  }

  /** Full marks for skills exactly when there are requirements and every one is held. */
  lemma SkillMatchFull(skills: seq<string>, reqs: seq<string>)
    ensures SkillMatchScore(skills, reqs) == 100.0
            <==> reqs != [] && forall i :: 0 <= i < |reqs| ==> Held(skills, reqs[i])
  {
    FullMatchIffAllHeld(skills, reqs);
    var m := |MatchedSkills(skills, reqs)|;
    assert SkillMatchScore(skills, reqs) == Rate(m, |reqs|);
  }

  /** Every requirement matches exactly when the matched list is as long as the requirements. */
  lemma FullMatchIffAllHeld(skills: seq<string>, reqs: seq<string>)
    ensures |MatchedSkills(skills, reqs)| <= |reqs|
    ensures |MatchedSkills(skills, reqs)| == |reqs| <==> forall i :: 0 <= i < |reqs| ==> Held(skills, reqs[i])
  {
    MatchedMissingPartition(skills, reqs);
    AllHeldIffNoneMissing(skills, reqs);
  }

  /** `cgpa_score`: full marks at or above the floor, otherwise the percentage of the floor
      reached; None where Python divides by a zero floor and the scorer reports failure. */
  function CgpaScore(cgpa: real, floor: real): (r: Option<real>)
    ensures r.None? <==> cgpa < floor && floor == 0.0
    ensures r.Some? ==> (r.value == 100.0 <==> cgpa >= floor)
    ensures r.Some? && cgpa < floor ==> r.value * floor == cgpa * 100.0
    ensures 0.0 <= cgpa < floor ==> r.Some? && 0.0 <= r.value < 100.0
  {
    if cgpa >= floor then Some(100.0)
    else if floor == 0.0 then None
    else Some(cgpa / floor * 100.0)
  }

  /** `total_score`: skills weigh 0.6 and CGPA 0.4. */
  function TotalScore(skill: real, cgpa: real): real
  {
    skill * 0.6 + cgpa * 0.4
  }

  /** The weighting keeps a total inside the range its parts lie in, and only two perfect
      parts make a perfect total. */
  lemma TotalScoreBounds(skill: real, cgpa: real)
    requires 0.0 <= skill <= 100.0 && 0.0 <= cgpa <= 100.0
    ensures 0.0 <= TotalScore(skill, cgpa) <= 100.0
    ensures TotalScore(skill, cgpa) == 100.0 <==> skill == 100.0 && cgpa == 100.0
    ensures TotalScore(skill, cgpa) <= 40.0 + skill * 0.6
  {
  }

  /** The three recommendation bands. */
  function Recommendation(total: real): (r: string)
    ensures r == "Recommended" <==> total >= 70.0
    ensures r == "Not Recommended" <==> total < 50.0
    ensures r == "Consider" <==> 50.0 <= total < 70.0
  {
    if total >= 70.0 then "Recommended" else if total < 50.0 then "Not Recommended" else "Consider"
  }

  /** How favourable a recommendation is: 0, 1 or 2. */
  function Favour(r: string): nat
  {
    if r == "Recommended" then 2 else if r == "Consider" then 1 else 0
  }

  /** Each total gets one of the three verdicts, and a higher total never gets a less
      favourable one; only the thresholds 50 and 70 change the verdict. */
  lemma RecommendationMonotone(a: real, b: real)
    requires a <= b
    ensures Recommendation(a) in ["Recommended", "Consider", "Not Recommended"]
    ensures Favour(Recommendation(a)) <= Favour(Recommendation(b))
    ensures Recommendation(a) != Recommendation(b) ==> a < 50.0 <= b || a < 70.0 <= b
  {
  }

  /** The score record `_calculate_basic_fit_score` returns, without its rounding to two
      decimals and its free-text reasoning. */
  datatype FitScore = FitScore(total: real, skillMatch: real, cgpaScore: real, additional: real,
                               recommendation: string, missing: seq<string>, matched: seq<string>)

  datatype FitResult = FitSucceeded(score: FitScore) | FitFailed

  /** Whether a CGPA score lies in [0, 100]: the floor is met, or a non-negative CGPA falls
      short of a positive floor. */
  predicate CgpaInRange(cgpa: real, floor: real)
  {
    cgpa >= floor || (0.0 <= cgpa && 0.0 < floor)
  }

  function BasicFitScore(skills: seq<string>, reqs: seq<string>, cgpa: real, floor: real): (r: FitResult)
    ensures r.FitFailed? <==> cgpa < floor && floor == 0.0
    ensures r.FitSucceeded? ==>
              var f := r.score;
              f.matched == MatchedSkills(skills, reqs) && f.missing == MissingSkills(skills, reqs)
              && |f.matched| + |f.missing| == |reqs|
              && 0.0 <= f.skillMatch <= 100.0
              && f.skillMatch == SkillMatchScore(skills, reqs)
              && Some(f.cgpaScore) == CgpaScore(cgpa, floor)
              && f.total == TotalScore(f.skillMatch, f.cgpaScore)
              && f.additional == 0.0
              && f.recommendation == Recommendation(f.total)
              && (CgpaInRange(cgpa, floor) ==> 0.0 <= f.total <= 100.0)
  {
    var c := CgpaScore(cgpa, floor);
    if c.None? then FitFailed
    else
      var skill := SkillMatchScore(skills, reqs);
      var total := TotalScore(skill, c.value);
      MatchedMissingPartition(skills, reqs);
      assert CgpaInRange(cgpa, floor) ==> 0.0 <= total <= 100.0 by {
        if CgpaInRange(cgpa, floor) {
          TotalScoreBounds(skill, c.value);
        }
      }
      FitSucceeded(FitScore(total, skill, c.value, 0.0, Recommendation(total),
                            MissingSkills(skills, reqs), MatchedSkills(skills, reqs)))
  }

  /** Holding every requirement while meeting the floor is a perfect, recommended fit. */
  lemma PerfectFit(skills: seq<string>, reqs: seq<string>, cgpa: real, floor: real)
    requires reqs != [] && forall i :: 0 <= i < |reqs| ==> Held(skills, reqs[i])
    requires cgpa >= floor
    ensures BasicFitScore(skills, reqs, cgpa, floor).FitSucceeded?
    ensures BasicFitScore(skills, reqs, cgpa, floor).score.total == 100.0
    ensures BasicFitScore(skills, reqs, cgpa, floor).score.recommendation == "Recommended"
    ensures BasicFitScore(skills, reqs, cgpa, floor).score.missing == []
  {
    AllHeldIffNoneMissing(skills, reqs);
    SkillMatchFull(skills, reqs);
  }

  /** With no listed requirements the skill part is zero, so a drive without requirements
      never gets a better verdict than "Not Recommended" when the CGPA score is in range. */
  lemma NoRequirementsNeverRecommended(skills: seq<string>, cgpa: real, floor: real)
    requires CgpaInRange(cgpa, floor)
    ensures BasicFitScore(skills, [], cgpa, floor).FitSucceeded?
    ensures BasicFitScore(skills, [], cgpa, floor).score.total <= 40.0
    ensures BasicFitScore(skills, [], cgpa, floor).score.recommendation == "Not Recommended"
  {
    var c := CgpaScore(cgpa, floor);
    assert 0.0 <= c.value <= 100.0;
    TotalScoreBounds(0.0, c.value);
  }

  /** The basic score in the shape the apply handler reads: its total on success. */
  function BasicScorer(skills: seq<string>, reqs: seq<string>, cgpa: real, floor: real): (r: Applications.ScoreResult)
    ensures r.ScoreFailed? <==> cgpa < floor && floor == 0.0
    ensures r.ScoreSucceeded? ==> r.total == BasicFitScore(skills, reqs, cgpa, floor).score.total
  {
    match BasicFitScore(skills, reqs, cgpa, floor)
    case FitSucceeded(f) => Applications.ScoreSucceeded(f.total)
    case FitFailed => Applications.ScoreFailed
  }

  /** The keywords the basic resume scan looks for, in its order. */
  const SkillKeywords: seq<string> := ["python", "java", "javascript", "react", "node.js", "mysql",
    "html", "css", "machine learning", "data science", "web development", "android", "ios"]

  /** The skills part of `_extract_basic_resume_data`: each keyword, in list order, whose
      lower-cased form occurs in the lower-cased text. */
  function ExtractSkills(text: string): (r: seq<string>)
    ensures IsSubsequence(r, SkillKeywords)
    ensures forall i :: 0 <= i < |r| ==> IsInfix(Lower(r[i]), Lower(text))
    ensures forall i :: 0 <= i < |SkillKeywords| && IsInfix(Lower(SkillKeywords[i]), Lower(text))
              ==> SkillKeywords[i] in r
  {
    var low := Lower(text);
    Filter((k: string) => IsInfix(Lower(k), low), SkillKeywords)
  }

  /** The scan does not depend on the case of the text. */
  lemma ExtractSkillsIgnoresCase(text: string)
    ensures ExtractSkills(Lower(text)) == ExtractSkills(text)
  {
    LowerIdempotent(text);
  }

  /** A keyword is found inside a longer one: "JavaScript" yields both "java" and "javascript". */
  lemma NestedKeywordsBothFound()
    ensures "java" in ExtractSkills("JavaScript") && "javascript" in ExtractSkills("JavaScript")
  {
    var low := Lower("JavaScript");
    assert low == "javascript";
    assert Lower("java") == "java" && Lower("javascript") == "javascript";
    assert OccursAt("java", low, 0);
    assert OccursAt("javascript", low, 0);
    assert SkillKeywords[1] == "java" && SkillKeywords[2] == "javascript";
  }

  /** What `generate_email_template` returns. */
  datatype GeneratedEmail = GeneratedEmail(subject: string, content: string, isAiGenerated: bool)

  /** `_get_fallback_template`: the chosen template with every `{{key}}` of the context
      replaced. The built-in texts contain no `{{`, so whatever the context holds, subject
      and body come back exactly as written, slots included. */
  function FallbackEmail(kind: string, context: seq<(string, string)>): (r: GeneratedEmail)
    ensures r.subject == Render(FallbackTemplate(kind).subject)
    ensures r.content == Render(FallbackTemplate(kind).content)
    ensures !r.isAiGenerated
  {
    var t := FallbackTemplate(kind);
    SubstituteRenderedVerbatim(t.subject, context);
    SubstituteRenderedVerbatim(t.content, context);
    GeneratedEmail(Substitute(Render(t.subject), context), Substitute(Render(t.content), context), false)
  }

  /** As written, the placeholders the fallback substitutes are never in its templates: a
      student's name in the context does not reach the greeting. */
  lemma FallbackGreetingUnfilled()
    ensures var r := FallbackEmail("application_received", [("student_name", "Asha")]);
      |r.content| >= 19 && r.content[..19] == "Dear {student_name}"
  {
    RenderedOpening(FallbackTemplate("application_received").content);
  }

  /** A text that opens with the greeting renders with its unfilled slot in front. */
  lemma RenderedOpening(c: seq<Piece>)
    requires OpensWithGreeting(c)
    ensures |Render(c)| >= 19 && Render(c)[..19] == "Dear {student_name}"
  {
    var n := |Greeting|;
    assert c == c[..n] + c[n..];
    RenderConcat(c[..n], c[n..]);
    GreetingText();
  }

  /** The evidently intended fallback: each context value replaces its single-brace slot. */
  function FilledFallbackEmail(kind: string, context: seq<(string, string)>): (r: GeneratedEmail)
    ensures SlotSafe(context) ==> r.subject == Render(FillAll(FallbackTemplate(kind).subject, context))
    ensures SlotSafe(context) ==> r.content == Render(FillAll(FallbackTemplate(kind).content, context))
    ensures !r.isAiGenerated
  {
    var t := FallbackTemplate(kind);
    assert SlotSafe(context) ==>
      (FillSlots(Render(t.subject), context) == Render(FillAll(t.subject, context))
       && FillSlots(Render(t.content), context) == Render(FillAll(t.content, context))) by {
      if SlotSafe(context) {
        FillSlotsRendered(t.subject, context);
        FillSlotsRendered(t.content, context);
      }
    }
    GeneratedEmail(FillSlots(Render(t.subject), context), FillSlots(Render(t.content), context), false)
  }

  /** A value the context gives a slot is brace-free. */
  lemma LookupPlain(context: seq<(string, string)>, key: string, v: string)
    requires SlotSafe(context) && Lookup(context, key) == Some(v)
    ensures '{' !in v
  {
    var i :| 0 <= i < |context| && context[i] == (key, v);
  }

  /** Filling a body that opens with the greeting fills the student's name into it. */
  lemma FillGreeting(c: seq<Piece>, context: seq<(string, string)>, name: Plain)
    requires OpensWithGreeting(c)
    requires SlotSafe(context) && Lookup(context, "student_name") == Some(name)
    ensures var f := FillAll(c, context);
      |f| >= 3 && f[..3] == [Lit("Dear "), Lit(name), Lit(",\n\n")]
  {
    assert c[..|Greeting|] == Greeting;
    assert c[0] == Lit("Dear ") && c[1] == Slot("student_name") && c[2] == Lit(",\n\n");
  }

  lemma FilledOpening(c: seq<Piece>, context: seq<(string, string)>, name: string)
    requires OpensWithGreeting(c)
    requires SlotSafe(context) && Lookup(context, "student_name") == Some(name)
    ensures var r := Render(FillAll(c, context));
      |r| >= |name| + 7 && r[..|name| + 7] == "Dear " + name + ",\n"
  {
    LookupPlain(context, "student_name", name);
    var f := FillAll(c, context);
    FillGreeting(c, context, name);
    var g: seq<Piece> := [Lit("Dear "), Lit(name), Lit(",\n\n")];
    assert f == g + f[3..];
    RenderConcat(g, f[3..]);
    GreetingRendered(name);
  }

  /** The filled greeting renders as the three texts side by side. */
  lemma GreetingRendered(name: Plain)
    ensures Render([Lit("Dear "), Lit(name), Lit(",\n\n")]) == "Dear " + name + ",\n\n"
  {
    var g: seq<Piece> := [Lit("Dear "), Lit(name), Lit(",\n\n")];
    assert g[1..][1..] == [Lit(",\n\n")] && Render(g[1..][1..]) == ",\n\n";
    assert Render(g[1..]) == name + ",\n\n";
  }

  /** Every built-in body opens with the greeting, so with the student's name in the context
      the corrected fallback addresses the student by name. */
  lemma FilledGreetingNamesStudent(kind: string, context: seq<(string, string)>, name: string)
    requires SlotSafe(context) && Lookup(context, "student_name") == Some(name)
    ensures var c := FilledFallbackEmail(kind, context).content;
      |c| >= |name| + 7 && c[..|name| + 7] == "Dear " + name + ",\n"
  {
    FilledOpening(FallbackTemplate(kind).content, context, name);
  }

  /** What a language model's reply yields once parsed: the subject and content lines found
      in it, "" when absent, and the raw reply. */
  datatype ModelReply = ModelReply(subject: string, content: string, raw: string)

  /** `generate_email_template`: without the service, or when the call fails, the fallback as
      written;
      otherwise the parsed reply, with the default subject when none was found and the raw
      reply when no content was found. */
  function GenerateEmailTemplate(aiEnabled: bool, reply: Option<ModelReply>, kind: string,
                                 context: seq<(string, string)>): (r: GeneratedEmail)
    ensures !aiEnabled || reply.None? ==> r == FallbackEmail(kind, context)
    ensures r.isAiGenerated <==> aiEnabled && reply.Some?
    ensures aiEnabled && reply.Some? ==>
      r.subject == (if reply.value.subject == "" then DefaultSubject(kind) else reply.value.subject)
      && r.content == (if reply.value.content == "" then reply.value.raw else reply.value.content)
  {
    if aiEnabled && reply.Some? then
      var m := reply.value;
      GeneratedEmail(if m.subject != "" then m.subject else DefaultSubject(kind),
                     if m.content != "" then m.content else m.raw, true)
    else FallbackEmail(kind, context)
  }

  /** As written, the context never shows in the generated e-mail: a model's reply is used as
      it comes, and the fallback returns its template untouched. Without a reply the result
      is the built-in template rendered with its slots. */
  lemma GeneratedEmailIgnoresContext(aiEnabled: bool, reply: Option<ModelReply>, kind: string,
                                     c1: seq<(string, string)>, c2: seq<(string, string)>)
    ensures GenerateEmailTemplate(aiEnabled, reply, kind, c1) == GenerateEmailTemplate(aiEnabled, reply, kind, c2)
    ensures !aiEnabled || reply.None? ==>
              GenerateEmailTemplate(aiEnabled, reply, kind, c1)
              == GeneratedEmail(Render(FallbackTemplate(kind).subject), Render(FallbackTemplate(kind).content), false)
  {
  }
}

=== FILE: analytics.dfy ===
/** The report service's aggregations: the department analytics (status counts, disjoint
    status groups, distinct companies, zero-guarded rates, the monthly trend and the top-10
    company ranking), the per-student status summary and the company recruitment report.
    The database is replaced by sequences of rows already joined to what the code reads
    through relationships. */
module Analytics {
  import opened Basics
  import opened Records
  import opened Counting

  /** An application as the department report reads it: the drive it belongs to, if that row
      still exists, with the drive's company id and the company's name when the company row
      exists, and the applicant's CGPA. */
  datatype AppRow = AppRow(app: Application, drive: Option<DriveRef>, studentCgpa: Option<real>)

  datatype DriveRef = DriveRef(companyId: int, companyName: Option<string>)

  datatype Company = Company(id: int, name: string)

  /** A report, or the error dictionary the service returns instead. */
  datatype Report<T> = Report(value: T) | ReportError(message: string)

  // ---------------------------------------------------------------------------------------
  // Status groups

  /** Applications still in progress. */
  predicate IsActive(a: Application)
  {
    a.status == Applied || a.status == UnderReview || a.status == Shortlisted
  }

  /** Applications that ended in a placement. */
  predicate IsSuccessful(a: Application)
  {
    a.status == Selected || a.status == OfferAccepted
  }

  /** A row whose application ended in a placement. */
  predicate SuccessfulRow(row: AppRow)
  {
    IsSuccessful(row.app)
  }

  function Apps(rows: seq<AppRow>): (r: seq<Application>)
    ensures |r| == |rows| && forall i :: 0 <= i < |rows| ==> r[i] == rows[i].app
  {
    seq(|rows|, i requires 0 <= i < |rows| => rows[i].app)
  }

  /** No application is both active and successful, so the two groups together never number
      more than all applications. */
  lemma ActiveSuccessfulBound(apps: seq<Application>)
    ensures |Filter(IsActive, apps)| + |Filter(IsSuccessful, apps)| <= |apps|
  {
    FilterDisjointBound(IsActive, IsSuccessful, apps);
  }

  // ---------------------------------------------------------------------------------------
  // Department selection

  /** The ids of the department's active students. */
  function DepartmentStudentIds(students: seq<StudentProfile>, dept: int): (r: seq<int>)
    ensures forall x :: x in r <==> exists i :: 0 <= i < |students| && students[i].id == x
                                                 && students[i].departmentId == dept && students[i].isActive
  {
    var ds := Filter((s: StudentProfile) => s.departmentId == dept && s.isActive, students);
    var r := seq(|ds|, i requires 0 <= i < |ds| => ds[i].id);
    IdsOfSelected(students, dept, ds, r);
    r
  }

  lemma IdsOfSelected(students: seq<StudentProfile>, dept: int, ds: seq<StudentProfile>, r: seq<int>)
    requires ds == Filter((s: StudentProfile) => s.departmentId == dept && s.isActive, students)
    requires |r| == |ds| && forall j :: 0 <= j < |ds| ==> r[j] == ds[j].id
    ensures forall x :: x in r <==> exists i :: 0 <= i < |students| && students[i].id == x
                                              && students[i].departmentId == dept && students[i].isActive
  {
    forall x | x in r
      ensures exists i :: 0 <= i < |students| && students[i].id == x
                          && students[i].departmentId == dept && students[i].isActive
    {
      var j :| 0 <= j < |r| && r[j] == x;
      assert ds[j] in students;
      var i :| 0 <= i < |students| && students[i] == ds[j];
    }
    forall i | 0 <= i < |students| && students[i].departmentId == dept && students[i].isActive
      ensures students[i].id in r
    {
      assert students[i] in ds;
      var j :| 0 <= j < |ds| && ds[j] == students[i];
      assert r[j] == students[i].id;
    }
  }

  /** An application of one of those students made within [start, end]. */
  function InDepartmentRange(ids: seq<int>, start: DateTime, end: DateTime): AppRow -> bool
  {
    (row: AppRow) => row.app.studentId in ids && NotAfter(start, row.app.appliedAt) && NotAfter(row.app.appliedAt, end)
  }

  /** The applications the department report covers, in their stored order. */
  function DepartmentRows(students: seq<StudentProfile>, dept: int, rows: seq<AppRow>,
                          start: DateTime, end: DateTime): (r: seq<AppRow>)
    ensures IsSubsequence(r, rows)
    ensures forall row :: row in r <==>
      (row in rows && row.app.studentId in DepartmentStudentIds(students, dept)
       && NotAfter(start, row.app.appliedAt) && NotAfter(row.app.appliedAt, end))
  {
    Filter(InDepartmentRange(DepartmentStudentIds(students, dept), start, end), rows)
  }

  // ---------------------------------------------------------------------------------------
  // Distinct companies

  function SetOf(xs: seq<int>): set<int>
  {
    set x | x in xs
  }

  predicate NoDuplicates(xs: seq<int>)
  {
    forall i, j :: 0 <= i < j < |xs| ==> xs[i] != xs[j]
  }

  /** A set drawn from a sequence is no larger than it, and exactly as large when the
      sequence repeats nothing. */
  lemma {:induction false} SetOfSize(xs: seq<int>)
    ensures |SetOf(xs)| <= |xs|
    ensures NoDuplicates(xs) ==> |SetOf(xs)| == |xs|
  {
    if xs != [] {
      SetOfSize(xs[1..]);
      assert SetOf(xs) == {xs[0]} + SetOf(xs[1..]);
      if NoDuplicates(xs) {
        assert NoDuplicates(xs[1..]);
        assert xs[0] !in SetOf(xs[1..]);
      }
    }
  }

  /** The first occurrence of every element, in order. */
  function Distinct(xs: seq<int>): (r: seq<int>)
    ensures NoDuplicates(r)
    ensures forall x :: x in r <==> x in xs
    decreases |xs|
  {
    if xs == [] then []
    else
      var rest := Distinct(xs[1..]);
      if xs[0] in rest then
        assert forall x :: x in xs <==> x == xs[0] || x in xs[1..];
        rest
      else
        var r := [xs[0]] + rest;
        assert forall i :: 0 < i < |r| ==> r[i] == rest[i - 1];
        r
  }

  /** The company ids of the applications whose drive still exists. */
  function CompanyIds(rows: seq<AppRow>): (r: seq<int>)
    ensures |r| <= |rows|
    ensures forall c :: c in r <==> exists i :: 0 <= i < |rows| && rows[i].drive.Some? && rows[i].drive.value.companyId == c
    decreases |rows|
  {
    if rows == [] then []
    else
      var rest := CompanyIds(rows[1..]);
      assert forall i :: 0 < i < |rows| ==> rows[i] == rows[1..][i - 1];
      if rows[0].drive.Some? then [rows[0].drive.value.companyId] + rest else rest
  }

  /** `companies_visited`: the size of the set of company ids. */
  function CompaniesVisited(rows: seq<AppRow>): (r: nat)
    ensures r <= |rows|
    ensures r == 0 <==> forall i :: 0 <= i < |rows| ==> rows[i].drive.None?
  {
    SetOfSize(CompanyIds(rows));
    CompanyIdsEmpty(rows);
    |SetOf(CompanyIds(rows))|
  }

  lemma CompanyIdsEmpty(rows: seq<AppRow>)
    ensures |SetOf(CompanyIds(rows))| == 0 <==> forall i :: 0 <= i < |rows| ==> rows[i].drive.None?
  {
    if exists i :: 0 <= i < |rows| && rows[i].drive.Some? {
      var i :| 0 <= i < |rows| && rows[i].drive.Some?;
      assert rows[i].drive.value.companyId in SetOf(CompanyIds(rows));
    }
  }

  /** Counting the set is counting the distinct ids one by one. */
  lemma CompaniesVisitedCountsDistinct(rows: seq<AppRow>)
    ensures CompaniesVisited(rows) == |Distinct(CompanyIds(rows))|
  {
    var ids := CompanyIds(rows);
    SetOfSize(Distinct(ids));
    assert SetOf(Distinct(ids)) == SetOf(ids);
  }

  // ---------------------------------------------------------------------------------------
  // Averages over truthy values

  /** The sum of the truthy values (NULL and zero add nothing). */
  function SumTruthy(xs: seq<Option<real>>): real
    decreases |xs|
  {
    if xs == [] then 0.0 else (if TruthyNumber(xs[0]) then xs[0].value else 0.0) + SumTruthy(xs[1..])
  }

  function CountTruthy(xs: seq<Option<real>>): (r: nat)
    ensures r <= |xs|
    ensures r == 0 <==> forall i :: 0 <= i < |xs| ==> !TruthyNumber(xs[i])
    decreases |xs|
  {
    if xs == [] then 0
    else
      assert forall i :: 0 < i < |xs| ==> xs[i] == xs[1..][i - 1];
      (if TruthyNumber(xs[0]) then 1 else 0) + CountTruthy(xs[1..])
  }

  /** The sum of the truthy values counts each value once: it is the head's value, when truthy,
      plus the sum of the rest. */
  lemma TruthyStep(xs: seq<Option<real>>)
    requires xs != []
    ensures SumTruthy(xs) == (if TruthyNumber(xs[0]) then xs[0].value else 0.0) + SumTruthy(xs[1..])
    ensures CountTruthy(xs) == (if TruthyNumber(xs[0]) then 1 else 0) + CountTruthy(xs[1..])
  {
  }

  /** hi added up n times. */
  function Repeated(hi: real, n: nat): real
  {
    if n == 0 then 0.0 else hi + Repeated(hi, n - 1)
  }

  lemma {:induction false} RepeatedIsProduct(hi: real, n: nat)
    ensures Repeated(hi, n) == hi * (n as real)
  {
    if n > 0 {
      RepeatedIsProduct(hi, n - 1);
      MulStep(hi, (n - 1) as real);
    }
  }

  lemma {:induction false} RepeatedMonotone(hi: real, c: nat, n: nat)
    requires 0.0 <= hi && c <= n
    ensures Repeated(hi, c) <= Repeated(hi, n)
    decreases n
  {
    if c < n {
      RepeatedMonotone(hi, c, n - 1);
    }
  }

  lemma MulStep(hi: real, c: real)
    ensures hi * (c + 1.0) == hi * c + hi
  {
  }

  /** Truthy values all at most hi sum to at most hi once per truthy value. */
  lemma {:induction false} SumTruthyAtMost(xs: seq<Option<real>>, hi: real)
    requires forall i :: 0 <= i < |xs| && TruthyNumber(xs[i]) ==> xs[i].value <= hi
    ensures SumTruthy(xs) <= Repeated(hi, CountTruthy(xs))
    decreases |xs|
  {
    if xs != [] {
      var tail := xs[1..];
      assert forall i :: 0 <= i < |tail| ==> tail[i] == xs[i + 1];
      SumTruthyAtMost(tail, hi);
      TruthyStep(xs);
    }
  }

  /** A value in [0, hi added up n times] divided by n lies in [0, hi]. */
  lemma QuotientOfRepeated(sum: real, hi: real, n: nat)
    requires n > 0 && 0.0 <= sum <= Repeated(hi, n)
    ensures 0.0 <= sum / (n as real) <= hi
  {
    RepeatedIsProduct(hi, n);
    QuotientBetween(sum, n as real, hi);
  }

  /** Non-negative truthy values have a non-negative sum. */
  lemma {:induction false} SumTruthyNonNegative(xs: seq<Option<real>>)
    requires forall i :: 0 <= i < |xs| && TruthyNumber(xs[i]) ==> 0.0 <= xs[i].value
    ensures 0.0 <= SumTruthy(xs)
    decreases |xs|
  {
    if xs != [] {
      var tail := xs[1..];
      assert forall i :: 0 <= i < |tail| ==> tail[i] == xs[i + 1];
      SumTruthyNonNegative(tail);
    }
  }

  /** A non-negative sum bounded by hi times a positive count has a quotient in [0, hi]. */
  lemma QuotientBetween(sum: real, count: real, hi: real)
    requires count > 0.0 && 0.0 <= sum <= hi * count
    ensures 0.0 <= sum / count <= hi
  {
    assert sum / count * count == sum;
  }

  /** The mean of the truthy values, 0 when there are none: the company report's average
      AI score. */
  function MeanTruthy(xs: seq<Option<real>>): (r: real)
    ensures CountTruthy(xs) == 0 ==> r == 0.0
    ensures CountTruthy(xs) > 0 ==> r * (CountTruthy(xs) as real) == SumTruthy(xs)
  {
    if CountTruthy(xs) > 0 then SumTruthy(xs) / (CountTruthy(xs) as real) else 0.0
  }

  /** When every truthy value lies in [0, hi], so does the mean. */
  lemma MeanTruthyBetween(xs: seq<Option<real>>, hi: real)
    requires 0.0 <= hi
    requires forall i :: 0 <= i < |xs| && TruthyNumber(xs[i]) ==> 0.0 <= xs[i].value <= hi
    ensures 0.0 <= MeanTruthy(xs) <= hi
  {
    if CountTruthy(xs) > 0 {
      SumOverBetween(xs, hi, CountTruthy(xs));
    }
  }

  function Cgpas(rows: seq<AppRow>): (r: seq<Option<real>>)
    ensures |r| == |rows| && forall i :: 0 <= i < |rows| ==> r[i] == rows[i].studentCgpa
  {
    seq(|rows|, i requires 0 <= i < |rows| => rows[i].studentCgpa)
  }

  /** `avg_cgpa`: the truthy CGPAs of the successful applications' students, summed and divided
      by the number of successful applications, 0 when there are none. A student without a
      CGPA adds nothing but still counts in the divisor. */
  function AverageCgpa(successful: seq<AppRow>): (r: real)
    ensures successful == [] ==> r == 0.0
    ensures successful != [] ==> r * (|successful| as real) == SumTruthy(Cgpas(successful))
  {
    if successful != [] then SumTruthy(Cgpas(successful)) / (|successful| as real) else 0.0
  }

  /** Truthy values within [0, hi], summed and divided by at least their number, give a
      quotient within [0, hi]. */
  lemma SumOverBetween(xs: seq<Option<real>>, hi: real, n: nat)
    requires 0.0 <= hi && CountTruthy(xs) <= n && n > 0
    requires forall i :: 0 <= i < |xs| && TruthyNumber(xs[i]) ==> 0.0 <= xs[i].value <= hi
    ensures 0.0 <= SumTruthy(xs) / (n as real) <= hi
  {
    SumTruthyAtMost(xs, hi);
    SumTruthyNonNegative(xs);
    RepeatedMonotone(hi, CountTruthy(xs), n);
    QuotientOfRepeated(SumTruthy(xs), hi, n);
  }

  /** CGPAs within [0, hi] give an average within [0, hi]. */
  lemma AverageCgpaBetween(successful: seq<AppRow>, hi: real)
    requires 0.0 <= hi
    requires forall i :: 0 <= i < |successful| && TruthyNumber(successful[i].studentCgpa) ==>
      0.0 <= successful[i].studentCgpa.value <= hi
    ensures 0.0 <= AverageCgpa(successful) <= hi
  {
    var xs := Cgpas(successful);
    if successful != [] {
      assert forall i :: 0 <= i < |xs| && TruthyNumber(xs[i]) ==> 0.0 <= xs[i].value <= hi;
      SumOverBetween(xs, hi, |successful|);
    }
  }

  /** One placed student with CGPA 8 and one whose CGPA is missing average 4. */
  lemma AverageCgpaCountsMissing(a: Application, b: Application)
    ensures AverageCgpa([AppRow(a, None, Some(8.0)), AppRow(b, None, None)]) == 4.0
  {
    var rows := [AppRow(a, None, Some(8.0)), AppRow(b, None, None)];
    assert Cgpas(rows) == [Some(8.0), None];
    assert SumTruthy([None]) == 0.0;
  }

  // ---------------------------------------------------------------------------------------
  // Top companies

  /** The company names of the applications whose drive and company both exist. */
  function CompanyNames(rows: seq<AppRow>): seq<string>
    decreases |rows|
  {
    if rows == [] then []
    else
      var rest := CompanyNames(rows[1..]);
      if rows[0].drive.Some? && rows[0].drive.value.companyName.Some? then
        [rows[0].drive.value.companyName.value] + rest
      else rest
  }

  /** `_get_top_companies`: at most ten companies, most applications first, each with its true
      application count; a company left out has no more applications than the last one
      listed. */
  function TopCompanies(rows: seq<AppRow>): (r: Counts)
    ensures |r| <= 10 && Descending(r) && DistinctKeys(r)
    ensures forall i :: 0 <= i < |r| ==> r[i].1 == Occurrences(CompanyNames(rows), r[i].0) && r[i].1 > 0
    ensures forall c :: c in CompanyNames(rows) && (forall i :: 0 <= i < |r| ==> r[i].0 != c) ==>
      |r| == 10 && Occurrences(CompanyNames(rows), c) <= r[9].1
  {
    var names := CompanyNames(rows);
    var t := Tally(names);
    var r := MostCommon(t, 10);
    forall i | 0 <= i < |r| ensures r[i].1 == Occurrences(names, r[i].0) && r[i].1 > 0 {
      var j :| 0 <= j < |t| && t[j] == r[i];
      CountOfEntry(t, j);
    }
    forall c | c in names && (forall i :: 0 <= i < |r| ==> r[i].0 != c)
      ensures |r| == 10 && Occurrences(names, c) <= r[9].1
    {
      TallyCoversElements(names, c);
      var j :| 0 <= j < |t| && t[j].0 == c;
      CountOfEntry(t, j);
      assert t[j] !in r;
    }
    r
  }

  // ---------------------------------------------------------------------------------------
  // Monthly trend

  /** A calendar month as a single number, counted from January of year 0. */
  function MonthIndex(y: int, m: int): int
  {
    y * 12 + (m - 1)
  }

  /** The trend cursor's step: the next month of the same year, or January of the next year
      after December. */
  function NextMonth(y: int, m: int): (r: (int, int))
    requires 1 <= m <= 12
    ensures 1 <= r.1 <= 12
    ensures MonthIndex(r.0, r.1) == MonthIndex(y, m) + 1
    ensures r.1 == 1 <==> m == 12
  {
    if m == 12 then (y + 1, 1) else (y, m + 1)
  }

  /** Distinct valid months have distinct indices. */
  lemma MonthIndexInjective(y1: int, m1: int, y2: int, m2: int)
    requires 1 <= m1 <= 12 && 1 <= m2 <= 12
    ensures MonthIndex(y1, m1) == MonthIndex(y2, m2) <==> y1 == y2 && m1 == m2
  {
  }

  /** A date no later than another lies in the same or an earlier month. */
  lemma NotAfterMonth(a: DateTime, b: DateTime)
    requires 1 <= a.month <= 12 && 1 <= b.month <= 12
    ensures NotAfter(a, b) ==> MonthIndex(a.year, a.month) <= MonthIndex(b.year, b.month)
  {
  }

  datatype TrendEntry = TrendEntry(year: int, month: int, applications: nat, successful: nat, successRate: real)

  /** One trend entry from the applications counted in its month. */
  function Entry(y: int, m: int, monthApps: seq<Application>): (e: TrendEntry)
    ensures e.year == y && e.month == m && e.applications == |monthApps|
    ensures e.successful == |Filter(IsSuccessful, monthApps)|
    ensures e.successRate == Rate(e.successful, e.applications)
    ensures e.successful <= e.applications
    ensures e.applications == 0 ==> e.successRate == 0.0
    ensures 0.0 <= e.successRate <= 100.0
    ensures e.successRate == 100.0 <==> e.applications > 0 && forall i :: 0 <= i < |monthApps| ==> IsSuccessful(monthApps[i])
  {
    var s := |Filter(IsSuccessful, monthApps)|;
    FilterKeepsAll(IsSuccessful, monthApps);
    TrendEntry(y, m, |monthApps|, s, Rate(s, |monthApps|))
  }

  function SumApplications(es: seq<TrendEntry>): nat
    decreases |es|
  {
    if es == [] then 0 else es[0].applications + SumApplications(es[1..])
  }

  /** The window the code gives month (y, m) when the start date's time of day is t0: from the
      first of the month at t0 to the last day of the month at t0. */
  function InWindowAsWritten(y: int, m: int, t0: int): Application -> bool
    requires 1 <= m <= 12
  {
    (a: Application) => NotAfter(DateTime(y, m, 1, t0), a.appliedAt)
                        && NotAfter(a.appliedAt, DateTime(y, m, DaysInMonth(y, m), t0))
  }

  /** `_generate_trend_data` as written, from the cursor (y, m, day 1, t0): one entry per
      month while the cursor is not after end. */
  function TrendFromAsWritten(apps: seq<Application>, y: int, m: int, t0: int, end: DateTime): (r: seq<TrendEntry>)
    requires 1 <= m <= 12 && 1 <= end.month <= 12
    ensures forall i :: 0 <= i < |r| ==>
      (1 <= r[i].month <= 12 && MonthIndex(r[i].year, r[i].month) == MonthIndex(y, m) + i
       && NotAfter(DateTime(r[i].year, r[i].month, 1, t0), end)
       && r[i].applications == |Filter(InWindowAsWritten(r[i].year, r[i].month, t0), apps)|
       && r[i] == Entry(r[i].year, r[i].month, Filter(InWindowAsWritten(r[i].year, r[i].month, t0), apps)))
    ensures MonthIndex(end.year, end.month) - MonthIndex(y, m) <= |r| <= MonthIndex(end.year, end.month) - MonthIndex(y, m) + 1
            || (r == [] && MonthIndex(end.year, end.month) < MonthIndex(y, m))
    decreases MonthIndex(end.year, end.month) - MonthIndex(y, m)
  {
    if !NotAfter(DateTime(y, m, 1, t0), end) then []
    else
      var n := NextMonth(y, m);
      var rest := TrendFromAsWritten(apps, n.0, n.1, t0, end);
      var r := [Entry(y, m, Filter(InWindowAsWritten(y, m, t0), apps))] + rest;
      assert forall i :: 0 < i < |r| ==> r[i] == rest[i - 1];
      r
  }

  /** The trend as written: the cursor starts at the first of the start month, keeping the
      start's time of day. */
  function TrendAsWritten(apps: seq<Application>, start: DateTime, end: DateTime): (r: seq<TrendEntry>)
    requires ValidDateTime(start) && ValidDateTime(end)
    ensures r != [] ==> r[0].year == start.year && r[0].month == start.month
    ensures forall i :: 0 <= i < |r| ==>
      (1 <= r[i].month <= 12
       && MonthIndex(r[i].year, r[i].month) == MonthIndex(start.year, start.month) + i
       && r[i].applications == |Filter(InWindowAsWritten(r[i].year, r[i].month, start.second), apps)|
       && r[i] == Entry(r[i].year, r[i].month, Filter(InWindowAsWritten(r[i].year, r[i].month, start.second), apps)))
  {
    TrendFromAsWritten(apps, start.year, start.month, start.second, end)
  }

  /** A report from noon on 15 March 2024 to 10 April 2024 does not count an application made
      at 18:00 on 31 March: March's window ends at noon on the 31st. */
  lemma TrendAsWrittenMissesLateApplication(a: Application)
    requires a.appliedAt == DateTime(2024, 3, 31, 64800)
    ensures var start := DateTime(2024, 3, 15, 43200);
            var end := DateTime(2024, 4, 10, 0);
            NotAfter(start, a.appliedAt) && NotAfter(a.appliedAt, end)
            && SumApplications(TrendAsWritten([a], start, end)) == 0
  {
    var r := TrendFromAsWritten([a], 2024, 3, 43200, DateTime(2024, 4, 10, 0));
    var r1 := TrendFromAsWritten([a], 2024, 4, 43200, DateTime(2024, 4, 10, 0));
    assert TrendFromAsWritten([a], 2024, 5, 43200, DateTime(2024, 4, 10, 0)) == [];
    assert !InWindowAsWritten(2024, 3, 43200)(a) && Filter(InWindowAsWritten(2024, 3, 43200), [a]) == [];
    assert !InWindowAsWritten(2024, 4, 43200)(a) && Filter(InWindowAsWritten(2024, 4, 43200), [a]) == [];
    assert r1 == [Entry(2024, 4, [])];
    assert r == [Entry(2024, 3, [])] + r1;
    assert TrendAsWritten([a], DateTime(2024, 3, 15, 43200), DateTime(2024, 4, 10, 0)) == r;
    assert r[1..] == r1 && r1[1..] == [];
    assert SumApplications(r1) == 0;
  }

  /** Calendar month (y, m). */
  function InMonth(y: int, m: int): Application -> bool
  {
    (a: Application) => a.appliedAt.year == y && a.appliedAt.month == m
  }

  /** The monthly trend from month (y, m) through end's month, each application counted in
      its own calendar month. */
  function TrendFrom(apps: seq<Application>, y: int, m: int, end: DateTime): (r: seq<TrendEntry>)
    requires 1 <= m <= 12 && 1 <= end.month <= 12
    ensures |r| == if MonthIndex(y, m) <= MonthIndex(end.year, end.month)
                   then MonthIndex(end.year, end.month) - MonthIndex(y, m) + 1 else 0
    ensures forall i :: 0 <= i < |r| ==> 1 <= r[i].month <= 12 && MonthIndex(r[i].year, r[i].month) == MonthIndex(y, m) + i
    ensures forall i :: 0 <= i < |r| ==> r[i] == Entry(r[i].year, r[i].month, Filter(InMonth(r[i].year, r[i].month), apps))
    ensures r != [] ==> r[0].year == y && r[0].month == m
    ensures forall i :: 0 <= i < |r| - 1 ==>
      1 <= r[i].month <= 12 && (r[i + 1].year, r[i + 1].month) == NextMonth(r[i].year, r[i].month)
    decreases MonthIndex(end.year, end.month) - MonthIndex(y, m)
  {
    if MonthIndex(end.year, end.month) < MonthIndex(y, m) then []
    else
      var n := NextMonth(y, m);
      var rest := TrendFrom(apps, n.0, n.1, end);
      var r := [Entry(y, m, Filter(InMonth(y, m), apps))] + rest;
      assert forall i :: 0 < i < |r| ==> r[i] == rest[i - 1];
      r
  }

  /** The monthly trend over the report period: one entry per calendar month from the start
      month through the end month. */
  function Trend(apps: seq<Application>, start: DateTime, end: DateTime): (r: seq<TrendEntry>)
    requires ValidDateTime(start) && ValidDateTime(end)
    ensures NotAfter(start, end) ==> |r| == MonthIndex(end.year, end.month) - MonthIndex(start.year, start.month) + 1
    ensures r != [] ==> r[0].year == start.year && r[0].month == start.month
    ensures forall i :: 0 <= i < |r| - 1 ==>
      1 <= r[i].month <= 12 && (r[i + 1].year, r[i + 1].month) == NextMonth(r[i].year, r[i].month)
    ensures forall i :: 0 <= i < |r| ==>
      MonthIndex(r[i].year, r[i].month) == MonthIndex(start.year, start.month) + i
      && r[i] == Entry(r[i].year, r[i].month, Filter(InMonth(r[i].year, r[i].month), apps))
  {
    NotAfterMonth(start, end);
    TrendFrom(apps, start.year, start.month, end)
  }

  function AppMonth(a: Application): int
  {
    MonthIndex(a.appliedAt.year, a.appliedAt.month)
  }

  function InMonthSpan(lo: int, hi: int): Application -> bool
  {
    (a: Application) => lo <= AppMonth(a) <= hi
  }

  predicate ValidMonths(apps: seq<Application>)
  {
    forall i :: 0 <= i < |apps| ==> 1 <= apps[i].appliedAt.month <= 12
  }

  /** A non-empty trend is its first month's entry followed by the trend from the next month. */
  lemma TrendFromHead(apps: seq<Application>, y: int, m: int, end: DateTime)
    requires 1 <= m <= 12 && 1 <= end.month <= 12
    requires MonthIndex(y, m) <= MonthIndex(end.year, end.month)
    ensures SumApplications(TrendFrom(apps, y, m, end))
            == |Filter(InMonth(y, m), apps)| + SumApplications(TrendFrom(apps, NextMonth(y, m).0, NextMonth(y, m).1, end))
  {
    var r := TrendFrom(apps, y, m, end);
    assert r[1..] == TrendFrom(apps, NextMonth(y, m).0, NextMonth(y, m).1, end);
  }

  /** Calendar month (y, m) is the one-month span at its index. */
  lemma MonthIsSpan(apps: seq<Application>, y: int, m: int)
    requires 1 <= m <= 12 && ValidMonths(apps)
    ensures |Filter(InMonth(y, m), apps)| == |Filter(InMonthSpan(MonthIndex(y, m), MonthIndex(y, m)), apps)|
  {
    var lo := MonthIndex(y, m);
    forall i | 0 <= i < |apps| ensures InMonth(y, m)(apps[i]) == InMonthSpan(lo, lo)(apps[i]) {
      MonthIndexInjective(apps[i].appliedAt.year, apps[i].appliedAt.month, y, m);
    }
    FilterAgreeing(InMonth(y, m), InMonthSpan(lo, lo), apps);
  }

  /** A span of months is its first month and the rest. */
  lemma SpanSplits(apps: seq<Application>, lo: int, hi: int)
    requires lo <= hi
    ensures |Filter(InMonthSpan(lo, lo), apps)| + |Filter(InMonthSpan(lo + 1, hi), apps)|
            == |Filter(InMonthSpan(lo, hi), apps)|
  {
    FilterDisjointCount(InMonthSpan(lo, lo), InMonthSpan(lo + 1, hi), InMonthSpan(lo, hi), apps);
  }

  /** The trend from (y, m) counts exactly the applications made from that month through the
      end month. */
  lemma {:induction false} TrendFromCounts(apps: seq<Application>, y: int, m: int, end: DateTime)
    requires 1 <= m <= 12 && 1 <= end.month <= 12 && ValidMonths(apps)
    ensures SumApplications(TrendFrom(apps, y, m, end))
            == |Filter(InMonthSpan(MonthIndex(y, m), MonthIndex(end.year, end.month)), apps)|
    decreases MonthIndex(end.year, end.month) - MonthIndex(y, m)
  {
    var lo := MonthIndex(y, m);
    var hi := MonthIndex(end.year, end.month);
    if hi < lo {
      FilterNone(InMonthSpan(lo, hi), apps);
      assert TrendFrom(apps, y, m, end) == [];
    } else {
      var n := NextMonth(y, m);
      assert MonthIndex(n.0, n.1) == lo + 1;
      TrendFromCounts(apps, n.0, n.1, end);
      TrendFromHead(apps, y, m, end);
      MonthIsSpan(apps, y, m);
      SpanSplits(apps, lo, hi);
    }
  }

  /** The trend accounts for every application of the period exactly once: the monthly
      counts add up to the number of applications. */
  lemma TrendCountsEveryApplication(apps: seq<Application>, start: DateTime, end: DateTime)
    requires ValidDateTime(start) && ValidDateTime(end) && ValidMonths(apps)
    requires forall i :: 0 <= i < |apps| ==> NotAfter(start, apps[i].appliedAt) && NotAfter(apps[i].appliedAt, end)
    ensures SumApplications(Trend(apps, start, end)) == |apps|
  {
    var lo := MonthIndex(start.year, start.month);
    var hi := MonthIndex(end.year, end.month);
    TrendFromCounts(apps, start.year, start.month, end);
    forall i | 0 <= i < |apps| ensures InMonthSpan(lo, hi)(apps[i]) {
      NotAfterMonth(start, apps[i].appliedAt);
      NotAfterMonth(apps[i].appliedAt, end);
    }
  }

  // ---------------------------------------------------------------------------------------
  // Department analytics

  function Statuses(apps: seq<Application>): (r: seq<string>)
    ensures |r| == |apps| && forall i :: 0 <= i < |apps| ==> r[i] == apps[i].status
  {
    seq(|apps|, i requires 0 <= i < |apps| => apps[i].status)
  }

  datatype DepartmentSummary = DepartmentSummary(
    totalStudents: nat, totalApplications: nat, activeApplications: nat,
    successfulPlacements: nat, companiesVisited: nat, successRate: real, averageCgpa: real,
    statusDistribution: Counts, trend: seq<TrendEntry>, topCompanies: Counts)

  /** `generate_department_analytics` over the period [start, end], with the monthly trend as
      the code computes it. */
  function DepartmentAnalytics(students: seq<StudentProfile>, dept: int, rows: seq<AppRow>,
                               start: DateTime, end: DateTime): (r: DepartmentSummary)
    requires ValidDateTime(start) && ValidDateTime(end)
    ensures r.totalStudents == |Filter((s: StudentProfile) => s.departmentId == dept && s.isActive, students)|
    ensures r.totalApplications == |DepartmentRows(students, dept, rows, start, end)|
    ensures var dr := DepartmentRows(students, dept, rows, start, end);
            && r.activeApplications == |Filter(IsActive, Apps(dr))|
            && r.successfulPlacements == |Filter(IsSuccessful, Apps(dr))|
            && r.companiesVisited == CompaniesVisited(dr)
            && r.averageCgpa == AverageCgpa(Filter(SuccessfulRow, dr))
            && r.topCompanies == TopCompanies(dr)
            && r.trend == TrendAsWritten(Apps(dr), start, end)
    ensures r.successRate == Rate(r.successfulPlacements, r.totalApplications)
    ensures r.activeApplications + r.successfulPlacements <= r.totalApplications
    ensures r.companiesVisited <= r.totalApplications
    ensures r.totalApplications == 0 ==> r.successRate == 0.0
    ensures 0.0 <= r.successRate <= 100.0
    ensures DistinctKeys(r.statusDistribution) && Positive(r.statusDistribution)
    ensures Total(r.statusDistribution) == r.totalApplications
    ensures forall s :: CountOf(r.statusDistribution, s)
                        == Occurrences(Statuses(Apps(DepartmentRows(students, dept, rows, start, end))), s)
    ensures |r.topCompanies| <= 10 && Descending(r.topCompanies)
  {
    var dr := DepartmentRows(students, dept, rows, start, end);
    var apps := Apps(dr);
    var active := |Filter(IsActive, apps)|;
    var successful := Filter(SuccessfulRow, dr);
    ActiveSuccessfulBound(apps);
    SuccessfulCount(dr);
    DepartmentSummary(
      |Filter((s: StudentProfile) => s.departmentId == dept && s.isActive, students)|,
      |dr|, active, |successful|, CompaniesVisited(dr),
      Rate(|successful|, |dr|), AverageCgpa(successful),
      Tally(Statuses(apps)), TrendAsWritten(apps, start, end), TopCompanies(dr))
  }

  /** The corrected trend of the department report: with valid months, counting each
      application in its own calendar month accounts for every application of the period
      once. */
  lemma DepartmentTrendCounts(students: seq<StudentProfile>, dept: int, rows: seq<AppRow>,
                              start: DateTime, end: DateTime)
    requires ValidDateTime(start) && ValidDateTime(end)
    requires forall i :: 0 <= i < |rows| ==> 1 <= rows[i].app.appliedAt.month <= 12
    ensures SumApplications(Trend(Apps(DepartmentRows(students, dept, rows, start, end)), start, end))
            == |DepartmentRows(students, dept, rows, start, end)|
  {
    var dr := DepartmentRows(students, dept, rows, start, end);
    var apps := Apps(dr);
    forall i | 0 <= i < |apps|
      ensures 1 <= apps[i].appliedAt.month <= 12
      ensures NotAfter(start, apps[i].appliedAt) && NotAfter(apps[i].appliedAt, end)
    {
      assert dr[i] in dr;
    }
    TrendCountsEveryApplication(apps, start, end);
  }

  /** A status occurs in the status list as often as applications have it. */
  lemma {:induction false} OccurrencesOfStatus(apps: seq<Application>, s: string)
    ensures Occurrences(Statuses(apps), s) == CountStatus(apps, s)
    decreases |apps|
  {
    if apps != [] {
      assert Statuses(apps)[1..] == Statuses(apps[1..]);
      OccurrencesOfStatus(apps[1..], s);
    }
  }

  /** The active and successful counts of the department report are the sums of the status
      distribution over the statuses of each group. */
  lemma DepartmentGroupsFromDistribution(students: seq<StudentProfile>, dept: int, rows: seq<AppRow>,
                                         start: DateTime, end: DateTime)
    requires ValidDateTime(start) && ValidDateTime(end)
    ensures var r := DepartmentAnalytics(students, dept, rows, start, end);
            var d := r.statusDistribution;
            && r.activeApplications == CountOf(d, Applied) + CountOf(d, UnderReview) + CountOf(d, Shortlisted)
            && r.successfulPlacements == CountOf(d, Selected) + CountOf(d, OfferAccepted)
  {
    var apps := Apps(DepartmentRows(students, dept, rows, start, end));
    OccurrencesOfStatus(apps, Applied);
    OccurrencesOfStatus(apps, UnderReview);
    OccurrencesOfStatus(apps, Shortlisted);
    OccurrencesOfStatus(apps, Selected);
    OccurrencesOfStatus(apps, OfferAccepted);
    assert |Applied| == 7 && |UnderReview| == 12 && |Shortlisted| == 11 && |OfferAccepted| == 14 && |Selected| == 8;
    var early := (a: Application) => a.status == Applied || a.status == UnderReview;
    FilterDisjointCount(HasStatus(Applied), HasStatus(UnderReview), early, apps);
    FilterDisjointCount(early, HasStatus(Shortlisted), IsActive, apps);
    FilterDisjointCount(HasStatus(Selected), HasStatus(OfferAccepted), IsSuccessful, apps);
  }

  /** Selecting the successful rows selects as many as selecting the successful applications. */
  lemma {:induction false} SuccessfulCount(rows: seq<AppRow>)
    ensures |Filter(SuccessfulRow, rows)| == |Filter(IsSuccessful, Apps(rows))|
    decreases |rows|
  {
    if rows != [] {
      SuccessfulCount(rows[1..]);
      assert Apps(rows)[1..] == Apps(rows[1..]);
    }
  }

  // ---------------------------------------------------------------------------------------
  // Student report

  function HasStatus(s: string): Application -> bool
  {
    (a: Application) => a.status == s
  }

  function CountStatus(apps: seq<Application>, s: string): nat
  {
    |Filter(HasStatus(s), apps)|
  }

  lemma CountStatusStep(apps: seq<Application>, s: string)
    requires apps != []
    ensures CountStatus(apps, s) == Indicator(apps[0].status == s) + CountStatus(apps[1..], s)
  {
  }

  lemma SummarisedStep(apps: seq<Application>)
    requires apps != []
    ensures |Filter(Summarised, apps)| == Indicator(Summarised(apps[0])) + |Filter(Summarised, apps[1..])|
  {
  }

  datatype StatusSummary = StatusSummary(
    total: nat, applied: nat, underReview: nat, shortlisted: nat,
    rejected: nat, selected: nat, offerAccepted: nat)

  function SixSum(s: StatusSummary): nat
  {
    s.applied + s.underReview + s.shortlisted + s.rejected + s.selected + s.offerAccepted
  }

  /** The six statuses the student summary counts. */
  predicate Summarised(a: Application)
  {
    a.status in [Applied, UnderReview, Shortlisted, Rejected, Selected, OfferAccepted]
  }

  function Summary(apps: seq<Application>): (r: StatusSummary)
  {
    StatusSummary(|apps|, CountStatus(apps, Applied), CountStatus(apps, UnderReview),
                  CountStatus(apps, Shortlisted), CountStatus(apps, Rejected),
                  CountStatus(apps, Selected), CountStatus(apps, OfferAccepted))
  }

  function Indicator(b: bool): nat
  {
    if b then 1 else 0
  }

  /** A status is at most one of the six, and one of them exactly when it is summarised. */
  lemma SixIndicators(st: string)
    ensures Indicator(st == Applied) + Indicator(st == UnderReview) + Indicator(st == Shortlisted)
            + Indicator(st == Rejected) + Indicator(st == Selected) + Indicator(st == OfferAccepted)
            == Indicator(st in [Applied, UnderReview, Shortlisted, Rejected, Selected, OfferAccepted])
  {
    assert |Applied| == 7 && |UnderReview| == 12 && |Shortlisted| == 11 && |OfferAccepted| == 14;
    assert |Rejected| == 8 && |Selected| == 8 && Rejected[0] != Selected[0];
  }

  /** The six counts add up to the applications whose status is one of the six. */
  lemma {:induction false} SummaryCountsSummarised(apps: seq<Application>)
    ensures SixSum(Summary(apps)) == |Filter(Summarised, apps)|
    decreases |apps|
  {
    if apps != [] {
      SummaryCountsSummarised(apps[1..]);
      CountStatusStep(apps, Applied);
      CountStatusStep(apps, UnderReview);
      CountStatusStep(apps, Shortlisted);
      CountStatusStep(apps, Rejected);
      CountStatusStep(apps, Selected);
      CountStatusStep(apps, OfferAccepted);
      SummarisedStep(apps);
      SixIndicators(apps[0].status);
    }
  }

  function OfStudent(id: int): Application -> bool
  {
    (a: Application) => a.studentId == id
  }

  /** `generate_student_report`'s summary: an unknown student is an error; otherwise the six
      counts never exceed the total, and reach it exactly when every application of the
      student has one of the six statuses (an `offer_sent` application is counted nowhere). */
  function StudentReport(profiles: seq<StudentProfile>, studentId: int, apps: seq<Application>): (r: Report<StatusSummary>)
    ensures r.ReportError? <==> forall i :: 0 <= i < |profiles| ==> profiles[i].id != studentId
    ensures r.ReportError? ==> r.message == "Student not found"
    ensures r.Report? ==> r.value.total == |Filter(OfStudent(studentId), apps)|
    ensures r.Report? ==>
      var mine := Filter(OfStudent(studentId), apps);
      && r.value.applied == |Filter(HasStatus(Applied), mine)|
      && r.value.underReview == |Filter(HasStatus(UnderReview), mine)|
      && r.value.shortlisted == |Filter(HasStatus(Shortlisted), mine)|
      && r.value.rejected == |Filter(HasStatus(Rejected), mine)|
      && r.value.selected == |Filter(HasStatus(Selected), mine)|
      && r.value.offerAccepted == |Filter(HasStatus(OfferAccepted), mine)|
    ensures r.Report? ==> SixSum(r.value) <= r.value.total
    ensures r.Report? ==> (SixSum(r.value) == r.value.total <==>
      forall i :: 0 <= i < |apps| && apps[i].studentId == studentId ==> Summarised(apps[i]))
  {
    if forall i :: 0 <= i < |profiles| ==> profiles[i].id != studentId then ReportError("Student not found")
    else
      var mine := Filter(OfStudent(studentId), apps);
      SummaryCountsSummarised(mine);
      FilterKeepsAll(Summarised, mine);
      FilterAllOf(OfStudent(studentId), Summarised, apps);
      Report(Summary(mine))
  }

  // ---------------------------------------------------------------------------------------
  // Company report

  datatype DriveRow = DriveRow(driveId: int, applications: nat, selected: nat, successRate: real)

  function ForDrive(id: int): Application -> bool
  {
    (a: Application) => a.driveId == id
  }

  /** The drive-wise breakdown: one row per drive, in drive order. */
  function Breakdown(drives: seq<Drive>, apps: seq<Application>): (r: seq<DriveRow>)
    ensures |r| == |drives|
    ensures forall i :: 0 <= i < |drives| ==>
      (r[i].driveId == drives[i].id
       && r[i].applications == |Filter(ForDrive(drives[i].id), apps)|
       && r[i].selected == |Filter(IsSuccessful, Filter(ForDrive(drives[i].id), apps))|
       && r[i].successRate == Rate(r[i].selected, r[i].applications)
       && r[i].selected <= r[i].applications
       && (r[i].applications == 0 ==> r[i].successRate == 0.0)
       && 0.0 <= r[i].successRate <= 100.0)
    decreases |drives|
  {
    if drives == [] then []
    else
      var da := Filter(ForDrive(drives[0].id), apps);
      var s := |Filter(IsSuccessful, da)|;
      var rest := Breakdown(drives[1..], apps);
      var r := [DriveRow(drives[0].id, |da|, s, Rate(s, |da|))] + rest;
      assert forall i :: 0 < i < |r| ==> r[i] == rest[i - 1] && drives[i] == drives[1..][i - 1];
      r
  }

  function SumDriveApplications(rs: seq<DriveRow>): nat
    decreases |rs|
  {
    if rs == [] then 0 else rs[0].applications + SumDriveApplications(rs[1..])
  }

  function DriveIds(drives: seq<Drive>): (r: seq<int>)
    ensures |r| == |drives| && forall i :: 0 <= i < |drives| ==> r[i] == drives[i].id
  {
    seq(|drives|, i requires 0 <= i < |drives| => drives[i].id)
  }

  function ForDrives(ids: seq<int>): Application -> bool
  {
    (a: Application) => a.driveId in ids
  }

  /** With distinct drive ids the breakdown counts every application of those drives once. */
  lemma {:induction false} BreakdownCounts(drives: seq<Drive>, apps: seq<Application>)
    requires NoDuplicates(DriveIds(drives))
    ensures SumDriveApplications(Breakdown(drives, apps)) == |Filter(ForDrives(DriveIds(drives)), apps)|
    decreases |drives|
  {
    var ids := DriveIds(drives);
    if drives == [] {
      FilterNone(ForDrives(ids), apps);
    } else {
      var tail := DriveIds(drives[1..]);
      assert tail == ids[1..];
      assert NoDuplicates(tail);
      BreakdownCounts(drives[1..], apps);
      assert Breakdown(drives, apps)[1..] == Breakdown(drives[1..], apps);
      assert forall x :: ForDrives(ids)(x) == (ForDrive(drives[0].id)(x) || ForDrives(tail)(x)) by {
        assert forall x :: x in ids <==> x == ids[0] || x in ids[1..];
      }
      assert drives[0].id !in tail;
      FilterDisjointCount(ForDrive(drives[0].id), ForDrives(tail), ForDrives(ids), apps);
    }
  }

  /** Every application of the drives is counted once in their breakdown. */
  lemma BreakdownCountsAll(drives: seq<Drive>, apps: seq<Application>)
    requires NoDuplicates(DriveIds(drives))
    requires forall i :: 0 <= i < |apps| ==> apps[i].driveId in DriveIds(drives)
    ensures SumDriveApplications(Breakdown(drives, apps)) == |apps|
  {
    BreakdownCounts(drives, apps);
  }

  function AiScores(apps: seq<Application>): (r: seq<Option<real>>)
    ensures |r| == |apps| && forall i :: 0 <= i < |apps| ==> r[i] == apps[i].aiScore
  {
    seq(|apps|, i requires 0 <= i < |apps| => apps[i].aiScore)
  }

  datatype CompanySummary = CompanySummary(
    totalDrives: nat, totalApplications: nat, successfulHires: nat, overallSuccessRate: real,
    averageAiScore: real, breakdown: seq<DriveRow>)

  /** The optional date bounds of the company report. */
  function WithinBounds(start: Option<DateTime>, end: Option<DateTime>): Application -> bool
  {
    (a: Application) => (start.None? || NotAfter(start.value, a.appliedAt))
                        && (end.None? || NotAfter(a.appliedAt, end.value))
  }

  /** The applications the company report counts: those of the company's drives, within the
      bounds given. */
  function CompanyApplications(drives: seq<Drive>, apps: seq<Application>,
                               start: Option<DateTime>, end: Option<DateTime>): (r: seq<Application>)
    ensures IsSubsequence(r, apps)
    ensures forall a :: a in r <==> a in apps && a.driveId in DriveIds(drives) && WithinBounds(start, end)(a)
  {
    var ofDrives := Filter(ForDrives(DriveIds(drives)), apps);
    var r := Filter(WithinBounds(start, end), ofDrives);
    SubsequenceTransitive(r, ofDrives, apps);
    r
  }

  /** `generate_company_report`: an unknown company is an error; otherwise the totals over the
      company's drives, the zero-guarded overall rate, the average of the truthy AI scores and
      the drive-wise breakdown, whose counts add up to the total when drive ids are distinct. */
  function CompanyReport(companies: seq<Company>, companyId: int, drives: seq<Drive>, apps: seq<Application>,
                         start: Option<DateTime>, end: Option<DateTime>): (r: Report<CompanySummary>)
    ensures r.ReportError? <==> forall i :: 0 <= i < |companies| ==> companies[i].id != companyId
    ensures r.ReportError? ==> r.message == "Company not found"
    ensures r.Report? ==>
      var mine := Filter((d: Drive) => d.companyId == companyId, drives);
      var s := r.value;
      && s.totalDrives == |mine| && |s.breakdown| == |mine|
      && s.totalApplications == |CompanyApplications(mine, apps, start, end)|
      && s.successfulHires == |Filter(IsSuccessful, CompanyApplications(mine, apps, start, end))|
      && s.overallSuccessRate == Rate(s.successfulHires, s.totalApplications)
      && s.averageAiScore == MeanTruthy(AiScores(CompanyApplications(mine, apps, start, end)))
      && s.breakdown == Breakdown(mine, CompanyApplications(mine, apps, start, end))
      && s.successfulHires <= s.totalApplications
      && (s.totalApplications == 0 ==> s.overallSuccessRate == 0.0)
      && 0.0 <= s.overallSuccessRate <= 100.0
      && (NoDuplicates(DriveIds(mine)) ==> SumDriveApplications(s.breakdown) == s.totalApplications)
  {
    if forall i :: 0 <= i < |companies| ==> companies[i].id != companyId then ReportError("Company not found")
    else
      var mine := Filter((d: Drive) => d.companyId == companyId, drives);
      var ca := CompanyApplications(mine, apps, start, end);
      var hires := |Filter(IsSuccessful, ca)|;
      var b := if NoDuplicates(DriveIds(mine)) then BreakdownCountsAll(mine, ca); Breakdown(mine, ca)
               else Breakdown(mine, ca);
      Report(CompanySummary(|mine|, |ca|, hires, Rate(hires, |ca|), MeanTruthy(AiScores(ca)), b))
  }

  /** AI scores within [0, 100] give an average AI score within [0, 100]. */
  lemma CompanyAverageScoreBetween(companies: seq<Company>, companyId: int, drives: seq<Drive>,
                                   apps: seq<Application>, start: Option<DateTime>, end: Option<DateTime>)
    requires forall i :: 0 <= i < |apps| && TruthyNumber(apps[i].aiScore) ==> 0.0 <= apps[i].aiScore.value <= 100.0
    ensures var r := CompanyReport(companies, companyId, drives, apps, start, end);
            r.Report? ==> 0.0 <= r.value.averageAiScore <= 100.0
  {
    var r := CompanyReport(companies, companyId, drives, apps, start, end);
    if r.Report? {
      var mine := Filter((d: Drive) => d.companyId == companyId, drives);
      var ca := CompanyApplications(mine, apps, start, end);
      MeanTruthyBetween(AiScores(ca), 100.0);
    }
  }
}

=== FILE: applications.dfy ===
/** The student side of the placement workflow: applying to a drive, listing the drives a
    student may still apply to, and editing the student's own profile. The database is a
    sequence of drives and a map of applications keyed by (student profile id, drive id). */
module Applications {
  import opened Basics
  import opened Records

  type Store = map<(int, int), Application>

  /** Every stored application sits under its own (student, drive) key. */
  predicate WellKeyed(store: Store)
  {
    forall k :: k in store ==> store[k].studentId == k.0 && store[k].driveId == k.1
  }

  predicate IsStudent(user: Option<User>)
  {
    user.Some? && user.value.role == Student
  }

  /** The CGPA floor applies only when both numbers are present and non-zero. */
  predicate CgpaBlocks(minCgpa: Option<real>, cgpa: Option<real>)
  {
    TruthyNumber(minCgpa) && TruthyNumber(cgpa) && cgpa.value < minCgpa.value
  }

  lemma CgpaBlocksOnlyBelowFloor(minCgpa: Option<real>, cgpa: Option<real>)
    ensures CgpaBlocks(minCgpa, cgpa) ==> cgpa.Some? && minCgpa.Some? && cgpa.value < minCgpa.value
    ensures minCgpa.None? || minCgpa == Some(0.0) || cgpa.None? || cgpa == Some(0.0) ==> !CgpaBlocks(minCgpa, cgpa)
    ensures cgpa.Some? && minCgpa.Some? && cgpa.value >= minCgpa.value ==> !CgpaBlocks(minCgpa, cgpa)
  {
  }

  predicate UniqueIds(drives: seq<Drive>)
  {
    forall i, j :: 0 <= i < |drives| && 0 <= j < |drives| && drives[i].id == drives[j].id ==> i == j
  }

  /** Primary-key lookup: the first drive with the id. */
  function FindDrive(drives: seq<Drive>, id: int): Option<Drive>
  {
    FindFirst((d: Drive) => d.id == id, drives)
  }

  lemma {:induction false} FindDriveUnique(drives: seq<Drive>, i: int)
    requires UniqueIds(drives)
    requires 0 <= i < |drives|
    ensures FindDrive(drives, drives[i].id) == Some(drives[i])
  {
    if i > 0 {
      assert drives[0].id != drives[i].id;
      assert UniqueIds(drives[1..]) by {
        forall a, b | 0 <= a < |drives[1..]| && 0 <= b < |drives[1..]| && drives[1..][a].id == drives[1..][b].id
          ensures a == b
        {
          assert drives[a + 1].id == drives[b + 1].id;
        }
      }
      assert drives[1..][i - 1] == drives[i];
      FindDriveUnique(drives[1..], i - 1);
    }
  }

  datatype ApplyError =
    | AccessDenied
    | ProfileNotFound
    | DriveIdRequired
    | DriveUnavailable
    | CgpaBelowMinimum
    | AlreadyApplied

  function ApplyErrorStatus(e: ApplyError): (code: int)
    ensures code in {400, 403, 404, 409}
    ensures code == 409 <==> e == AlreadyApplied
    ensures code == 403 <==> e == AccessDenied
    ensures code == 404 <==> e == ProfileNotFound || e == DriveUnavailable
    ensures code == 400 <==> e == DriveIdRequired || e == CgpaBelowMinimum
  {
    match e
    case AccessDenied => 403
    case ProfileNotFound => 404
    case DriveIdRequired => 400
    case DriveUnavailable => 404
    case CgpaBelowMinimum => 400
    case AlreadyApplied => 409
  }

  /** What the (possibly remote) fit-score service reports back. */
  datatype ScoreResult = ScoreSucceeded(total: real) | ScoreFailed

  /** Student skills, required skills, student CGPA, minimum CGPA. */
  type FitScorer = (seq<string>, seq<string>, real, real) -> ScoreResult

  /** `float(x) if x else 0` for the CGPA arguments of the scorer. */
  function CgpaArgument(x: Option<real>): (r: real)
    ensures TruthyNumber(x) ==> r == x.value
    ensures !TruthyNumber(x) ==> r == 0.0
  {
    if TruthyNumber(x) then x.value else 0.0
  }

  /** Scoring is attempted only when the service is on and both skill columns are set, and
      its total is kept only when it reports success. */
  function FitScoreFor(aiEnabled: bool, profile: StudentProfile, drive: Drive, scorer: FitScorer): (r: Option<real>)
    ensures r.Some? <==> aiEnabled && profile.skills.Some? && drive.requiredSkills.Some?
                         && scorer(profile.skills.value, drive.requiredSkills.value,
                                   CgpaArgument(profile.cgpa), CgpaArgument(drive.minCgpa)).ScoreSucceeded?
    ensures r.Some? ==> scorer(profile.skills.value, drive.requiredSkills.value,
                               CgpaArgument(profile.cgpa), CgpaArgument(drive.minCgpa)) == ScoreSucceeded(r.value)
  {
    if aiEnabled && profile.skills.Some? && drive.requiredSkills.Some? then
      match scorer(ListOrEmpty(profile.skills), ListOrEmpty(drive.requiredSkills),
                   CgpaArgument(profile.cgpa), CgpaArgument(drive.minCgpa))
      case ScoreSucceeded(t) => Some(t)
      case ScoreFailed => None
    else None
  }

  /** The confirmation e-mail the handler tries to send after committing. */
  datatype Confirmation = Confirmation(recipient: string, studentName: string, companyName: string,
                                       position: string, driveTitle: string)

  datatype ApplyResponse = Created(app: Application) | Refused(error: ApplyError)

  datatype ApplyOutcome = ApplyOutcome(store: Store, response: ApplyResponse, confirmation: Option<Confirmation>)

  /** The drive exists and accepts applications. */
  predicate DriveOpen(drives: seq<Drive>, driveId: int)
  {
    FindDrive(drives, driveId).Some? && FindDrive(drives, driveId).value.status == ActiveDrive
  }

  /** POST /apply-drive. A drive id of 0 stands for an absent or falsy `drive_id`. */
  function ApplyToDrive(user: Option<User>, profile: Option<StudentProfile>, driveId: int,
                        drives: seq<Drive>, store: Store, aiEnabled: bool, scorer: FitScorer,
                        now: DateTime): (r: ApplyOutcome)
    ensures r.response.Refused? ==> r.store == store && r.confirmation.None?
    ensures !IsStudent(user) ==> r.response == Refused(AccessDenied)
    ensures IsStudent(user) && profile.None? ==> r.response == Refused(ProfileNotFound)
    ensures IsStudent(user) && profile.Some? && driveId == 0 ==> r.response == Refused(DriveIdRequired)
    ensures IsStudent(user) && profile.Some? && driveId != 0 && !DriveOpen(drives, driveId)
            ==> r.response == Refused(DriveUnavailable)
    ensures IsStudent(user) && profile.Some? && driveId != 0 && DriveOpen(drives, driveId)
            && CgpaBlocks(FindDrive(drives, driveId).value.minCgpa, profile.value.cgpa)
            ==> r.response == Refused(CgpaBelowMinimum)
    ensures IsStudent(user) && profile.Some? && driveId != 0 && DriveOpen(drives, driveId)
            && !CgpaBlocks(FindDrive(drives, driveId).value.minCgpa, profile.value.cgpa)
            && (profile.value.id, driveId) in store
            ==> r.response == Refused(AlreadyApplied)
    ensures r.response.Created? <==>
            IsStudent(user) && profile.Some? && driveId != 0 && DriveOpen(drives, driveId)
            && !CgpaBlocks(FindDrive(drives, driveId).value.minCgpa, profile.value.cgpa)
            && (profile.value.id, driveId) !in store
    ensures r.response.Created? ==>
            var key := (profile.value.id, driveId);
            var app := r.response.app;
            key !in store && r.store == store[key := app]
            && app.studentId == profile.value.id && app.driveId == driveId
            && app.status == Applied && app.appliedAt == now
            && app.aiScore == FitScoreFor(aiEnabled, profile.value, FindDrive(drives, driveId).value, scorer)
  {
    if !IsStudent(user) then ApplyOutcome(store, Refused(AccessDenied), None)
    else if profile.None? then ApplyOutcome(store, Refused(ProfileNotFound), None)
    else if driveId == 0 then ApplyOutcome(store, Refused(DriveIdRequired), None)
    else if !DriveOpen(drives, driveId) then ApplyOutcome(store, Refused(DriveUnavailable), None)
    else
      var p := profile.value;
      var d := FindDrive(drives, driveId).value;
      if CgpaBlocks(d.minCgpa, p.cgpa) then ApplyOutcome(store, Refused(CgpaBelowMinimum), None)
      else if (p.id, driveId) in store then ApplyOutcome(store, Refused(AlreadyApplied), None)
      else
        var app := Application(p.id, driveId, Applied, FitScoreFor(aiEnabled, p, d, scorer), now);
        var mail := if d.companyName.Some? then
                      Some(Confirmation(user.value.email, p.firstName + " " + p.lastName,
                                        d.companyName.value, d.jobRole, d.title))
                    else None;
        ApplyOutcome(store[(p.id, driveId) := app], Created(app), mail)
  }

  /** The code of a refused application, read off the request: 403 for anyone but a student,
      404 for a missing profile or a drive that is unknown or closed, 400 for a missing drive
      id or a CGPA below the floor, 409 for a repeat. */
  lemma ApplyStatusMeaning(user: Option<User>, profile: Option<StudentProfile>, driveId: int,
                           drives: seq<Drive>, store: Store, aiEnabled: bool, scorer: FitScorer,
                           now: DateTime)
    requires ApplyToDrive(user, profile, driveId, drives, store, aiEnabled, scorer, now).response.Refused?
    ensures var code := ApplyErrorStatus(ApplyToDrive(user, profile, driveId, drives, store, aiEnabled, scorer, now).response.error);
            (code == 403 <==> !IsStudent(user))
            && (code == 404 <==> IsStudent(user) && (profile.None? || (driveId != 0 && !DriveOpen(drives, driveId))))
            && (code == 400 <==> IsStudent(user) && profile.Some?
                                 && (driveId == 0 || (DriveOpen(drives, driveId)
                                     && CgpaBlocks(FindDrive(drives, driveId).value.minCgpa, profile.value.cgpa))))
            && (code == 409 <==> IsStudent(user) && profile.Some? && driveId != 0 && DriveOpen(drives, driveId)
                                 && !CgpaBlocks(FindDrive(drives, driveId).value.minCgpa, profile.value.cgpa)
                                 && (profile.value.id, driveId) in store)
  {
  }

  /** A successful application adds exactly one entry and leaves every other entry alone. */
  lemma ApplyAddsExactlyOne(user: Option<User>, profile: Option<StudentProfile>, driveId: int,
                            drives: seq<Drive>, store: Store, aiEnabled: bool, scorer: FitScorer,
                            now: DateTime)
    requires ApplyToDrive(user, profile, driveId, drives, store, aiEnabled, scorer, now).response.Created?
    ensures var r := ApplyToDrive(user, profile, driveId, drives, store, aiEnabled, scorer, now);
            |r.store.Keys| == |store.Keys| + 1
            && r.store.Keys == store.Keys + {(profile.value.id, driveId)}
            && (forall k :: k in store ==> k in r.store && r.store[k] == store[k])
  {
    var r := ApplyToDrive(user, profile, driveId, drives, store, aiEnabled, scorer, now);
    var key := (profile.value.id, driveId);
    assert r.store.Keys == store.Keys + {key};
  }

  /** Applying stores a well-keyed entry, so the store stays well keyed. */
  lemma ApplyPreservesWellKeyed(user: Option<User>, profile: Option<StudentProfile>, driveId: int,
                                drives: seq<Drive>, store: Store, aiEnabled: bool, scorer: FitScorer,
                                now: DateTime)
    requires WellKeyed(store)
    ensures WellKeyed(ApplyToDrive(user, profile, driveId, drives, store, aiEnabled, scorer, now).store)
  {
  }

  /** Re-sending the same successful application is a conflict and changes nothing. */
  lemma SecondApplicationConflicts(user: Option<User>, profile: Option<StudentProfile>, driveId: int,
                                   drives: seq<Drive>, store: Store, aiEnabled: bool, scorer: FitScorer,
                                   now: DateTime, later: DateTime)
    requires ApplyToDrive(user, profile, driveId, drives, store, aiEnabled, scorer, now).response.Created?
    ensures var s1 := ApplyToDrive(user, profile, driveId, drives, store, aiEnabled, scorer, now).store;
            var r2 := ApplyToDrive(user, profile, driveId, drives, s1, aiEnabled, scorer, later);
            r2.response == Refused(AlreadyApplied) && r2.store == s1
  {
  }

  /** The CGPA floor is checked before the duplicate test: a blocked student who already has
      an application for the drive is told about the CGPA, not about the duplicate. */
  lemma CgpaCheckedBeforeDuplicate(user: User, profile: StudentProfile, drive: Drive,
                                   drives: seq<Drive>, store: Store, aiEnabled: bool, scorer: FitScorer,
                                   now: DateTime)
    requires user.role == Student
    requires drive in drives && UniqueIds(drives) && drive.id != 0 && drive.status == ActiveDrive
    requires CgpaBlocks(drive.minCgpa, profile.cgpa)
    requires (profile.id, drive.id) in store
    ensures ApplyToDrive(Some(user), Some(profile), drive.id, drives, store, aiEnabled, scorer, now).response
            == Refused(CgpaBelowMinimum)
  {
    var i :| 0 <= i < |drives| && drives[i] == drive;
    FindDriveUnique(drives, i);
  }

  /** Whatever the scorer does, it decides neither whether the application is created nor
      what the store holds besides the new entry's score. */
  lemma ScoringNeverBlocks(user: Option<User>, profile: Option<StudentProfile>, driveId: int,
                           drives: seq<Drive>, store: Store, ai1: bool, scorer1: FitScorer,
                           ai2: bool, scorer2: FitScorer, now: DateTime)
    ensures var r1 := ApplyToDrive(user, profile, driveId, drives, store, ai1, scorer1, now);
            var r2 := ApplyToDrive(user, profile, driveId, drives, store, ai2, scorer2, now);
            r1.response.Created? == r2.response.Created?
            && r1.store.Keys == r2.store.Keys
            && r1.confirmation == r2.confirmation
            && (r1.response.Refused? ==> r1.response == r2.response)
            && (r1.response.Created? ==> r1.response.app.(aiScore := None) == r2.response.app.(aiScore := None))
  {
  }

  /** One row of GET /available-drives. */
  datatype Listing = Listing(drive: Drive, eligible: bool, reason: Option<string>)

  const CgpaReason := "CGPA below minimum requirement"

  /** `[app.drive_id for app in profile.applications]`. */
  function AppliedDriveIds(store: Store, studentId: int): (r: set<int>)
    ensures forall d :: d in r <==> exists k :: k in store && store[k].studentId == studentId && store[k].driveId == d
  {
    set k | k in store && store[k].studentId == studentId :: store[k].driveId
  }

  predicate Available(d: Drive, applied: set<int>)
  {
    d.status == ActiveDrive && d.id !in applied
  }

  function ListingFor(d: Drive, profile: StudentProfile): (r: Listing)
    ensures r.drive == d
    ensures r.eligible <==> !CgpaBlocks(d.minCgpa, profile.cgpa)
    ensures r.reason.None? <==> r.eligible
    ensures !r.eligible ==> r.reason == Some(CgpaReason)
  {
    if CgpaBlocks(d.minCgpa, profile.cgpa) then Listing(d, false, Some(CgpaReason))
    else Listing(d, true, None)
  }

  function ListAll(ds: seq<Drive>, profile: StudentProfile): (r: seq<Listing>)
    ensures |r| == |ds|
    ensures forall i :: 0 <= i < |ds| ==> r[i] == ListingFor(ds[i], profile)
  {
    if ds == [] then [] else [ListingFor(ds[0], profile)] + ListAll(ds[1..], profile)
  }

  datatype ListingResponse = Drives(rows: seq<Listing>) | ListingRefused(error: ApplyError)

  /** GET /available-drives, with the drives in the order the query returns them. */
  function AvailableDrives(user: Option<User>, profile: Option<StudentProfile>, drives: seq<Drive>,
                           store: Store): (r: ListingResponse)
    ensures !IsStudent(user) ==> r == ListingRefused(AccessDenied)
    ensures IsStudent(user) && profile.None? ==> r == ListingRefused(ProfileNotFound)
    ensures r.Drives? <==> IsStudent(user) && profile.Some?
    ensures r.Drives? ==>
            var applied := AppliedDriveIds(store, profile.value.id);
            var shown := Filter((d: Drive) => Available(d, applied), drives);
            |r.rows| == |shown|
            && (forall i :: 0 <= i < |r.rows| ==> r.rows[i] == ListingFor(shown[i], profile.value))
  {
    if !IsStudent(user) then ListingRefused(AccessDenied)
    else if profile.None? then ListingRefused(ProfileNotFound)
    else
      var applied := AppliedDriveIds(store, profile.value.id);
      Drives(ListAll(Filter((d: Drive) => Available(d, applied), drives), profile.value))
  }

  /** The listed drives are exactly the active drives the student has not applied to. */
  lemma AvailableDrivesExactly(user: User, profile: StudentProfile, drives: seq<Drive>, store: Store, d: Drive)
    requires user.role == Student
    requires d in drives
    ensures var r := AvailableDrives(Some(user), Some(profile), drives, store);
            (exists i :: 0 <= i < |r.rows| && r.rows[i].drive == d)
            <==> d.status == ActiveDrive && d.id !in AppliedDriveIds(store, profile.id)
  {
    var applied := AppliedDriveIds(store, profile.id);
    var p := (x: Drive) => Available(x, applied);
    var shown := Filter(p, drives);
    var r := AvailableDrives(Some(user), Some(profile), drives, store);
    if d.status == ActiveDrive && d.id !in applied {
      var j :| 0 <= j < |drives| && drives[j] == d;
      assert p(drives[j]);
      var i :| 0 <= i < |shown| && shown[i] == d;
      assert r.rows[i].drive == d;
    }
    if exists i :: 0 <= i < |r.rows| && r.rows[i].drive == d {
      var i :| 0 <= i < |r.rows| && r.rows[i].drive == d;
      assert shown[i] == d;
      assert p(shown[i]);
    }
  }

  /** A drive the listing marks eligible is accepted by the apply handler: both use the same
      CGPA test, and a listed drive is open and not yet applied to. */
  lemma ListedEligibleIsAccepted(user: User, profile: StudentProfile, drives: seq<Drive>, store: Store,
                                 i: int, aiEnabled: bool, scorer: FitScorer, now: DateTime)
    requires user.role == Student
    requires UniqueIds(drives) && WellKeyed(store)
    requires AvailableDrives(Some(user), Some(profile), drives, store).Drives?
    requires 0 <= i < |AvailableDrives(Some(user), Some(profile), drives, store).rows|
    requires AvailableDrives(Some(user), Some(profile), drives, store).rows[i].eligible
    requires AvailableDrives(Some(user), Some(profile), drives, store).rows[i].drive.id != 0
    ensures var d := AvailableDrives(Some(user), Some(profile), drives, store).rows[i].drive;
            ApplyToDrive(Some(user), Some(profile), d.id, drives, store, aiEnabled, scorer, now).response.Created?
  {
    var applied := AppliedDriveIds(store, profile.id);
    var p := (x: Drive) => Available(x, applied);
    var shown := Filter(p, drives);
    var d := shown[i];
    assert p(d);
    assert d in drives;
    var j :| 0 <= j < |drives| && drives[j] == d;
    FindDriveUnique(drives, j);
  }

  /** A field of a PUT body: absent keys leave the column alone. */
  datatype Patch<T> = Keep | Put(value: T)

  function Patched<T>(old_: T, p: Patch<T>): (r: T)
    ensures p.Keep? ==> r == old_
    ensures p.Put? ==> r == p.value
  {
    if p.Put? then p.value else old_
  }

  /** The seven scalar columns a student may edit, then the three JSON list columns. */
  datatype StudentPatch = StudentPatch(
    firstName: Patch<string>, lastName: Patch<string>, cgpa: Patch<Option<real>>,
    phone: Patch<string>, dateOfBirth: Patch<string>, gender: Patch<string>, address: Patch<string>,
    skills: Patch<seq<string>>, experience: Patch<seq<string>>, education: Patch<seq<string>>)

  function ListPatch(p: Patch<seq<string>>): Patch<Option<seq<string>>>
  {
    if p.Put? then Put(Some(p.value)) else Keep
  }

  /** The whitelisted scalar columns, shared by both profile endpoints. */
  function PatchScalars(s: StudentProfile, p: StudentPatch): StudentProfile
  {
    s.(firstName := Patched(s.firstName, p.firstName),
       lastName := Patched(s.lastName, p.lastName),
       cgpa := Patched(s.cgpa, p.cgpa),
       phone := Patched(s.phone, p.phone),
       dateOfBirth := Patched(s.dateOfBirth, p.dateOfBirth),
       gender := Patched(s.gender, p.gender),
       address := Patched(s.address, p.address))
  }

  /** The columns no profile edit may touch. */
  predicate SameProtected(a: StudentProfile, b: StudentProfile)
  {
    a.id == b.id && a.userId == b.userId && a.studentCode == b.studentCode
    && a.departmentId == b.departmentId && a.batchYear == b.batchYear
    && a.profileImage == b.profileImage && a.resumeFile == b.resumeFile && a.isActive == b.isActive
  }

  datatype ProfileResponse = ProfileSaved(profile: StudentProfile) | ProfileRefused(error: ApplyError)

  /** PUT /student/profile. */
  function UpdateStudentProfile(user: Option<User>, profile: Option<StudentProfile>, p: StudentPatch): (r: ProfileResponse)
    ensures !IsStudent(user) ==> r == ProfileRefused(AccessDenied)
    ensures IsStudent(user) && profile.None? ==> r == ProfileRefused(ProfileNotFound)
    ensures r.ProfileSaved? <==> IsStudent(user) && profile.Some?
    ensures r.ProfileSaved? ==>
            var s := profile.value;
            var t := r.profile;
            SameProtected(s, t)
            && (p.firstName.Keep? ==> t.firstName == s.firstName) && (p.firstName.Put? ==> t.firstName == p.firstName.value)
            && (p.lastName.Keep? ==> t.lastName == s.lastName) && (p.lastName.Put? ==> t.lastName == p.lastName.value)
            && (p.cgpa.Keep? ==> t.cgpa == s.cgpa) && (p.cgpa.Put? ==> t.cgpa == p.cgpa.value)
            && (p.phone.Keep? ==> t.phone == s.phone) && (p.phone.Put? ==> t.phone == p.phone.value)
            && (p.dateOfBirth.Keep? ==> t.dateOfBirth == s.dateOfBirth) && (p.dateOfBirth.Put? ==> t.dateOfBirth == p.dateOfBirth.value)
            && (p.gender.Keep? ==> t.gender == s.gender) && (p.gender.Put? ==> t.gender == p.gender.value)
            && (p.address.Keep? ==> t.address == s.address) && (p.address.Put? ==> t.address == p.address.value)
            && (p.skills.Keep? ==> t.skills == s.skills) && (p.skills.Put? ==> t.skills == Some(p.skills.value))
            && (p.experience.Keep? ==> t.experience == s.experience) && (p.experience.Put? ==> t.experience == Some(p.experience.value))
            && (p.education.Keep? ==> t.education == s.education) && (p.education.Put? ==> t.education == Some(p.education.value))
  {
    if !IsStudent(user) then ProfileRefused(AccessDenied)
    else if profile.None? then ProfileRefused(ProfileNotFound)
    else
      var s := PatchScalars(profile.value, p);
      ProfileSaved(s.(skills := Patched(s.skills, ListPatch(p.skills)),
                      experience := Patched(s.experience, ListPatch(p.experience)),
                      education := Patched(s.education, ListPatch(p.education))))
  }

  /** Sending the same edit twice leaves the profile as the first edit did. */
  lemma UpdateStudentProfileIdempotent(user: User, profile: StudentProfile, p: StudentPatch)
    requires user.role == Student
    ensures var once := UpdateStudentProfile(Some(user), Some(profile), p).profile;
            UpdateStudentProfile(Some(user), Some(once), p) == ProfileSaved(once)
  {
  }

  /** An empty body changes nothing. */
  lemma UpdateStudentProfileEmpty(user: User, profile: StudentProfile)
    requires user.role == Student
    ensures UpdateStudentProfile(Some(user), Some(profile),
              StudentPatch(Keep, Keep, Keep, Keep, Keep, Keep, Keep, Keep, Keep, Keep))
            == ProfileSaved(profile)
  {
  }
}

=== FILE: applicationsview.dfy ===
/** The application lists of the front end: the student's own applications page (status
    text, the five-step progress bar, the status filter) and the TPO's filter over students'
    applications by status, CGPA range and skill. */
module ApplicationViews {
  import opened Basics
  import opened Text
  import opened Records

  /** The statuses the student page has a text for. */
  const KnownStatuses: set<string> :=
    {Applied, Shortlisted, InterviewScheduled, InterviewCompleted, Selected, Rejected, Placed}

  /** `getStatusText`: every status outside the known seven reads as Pending. */
  function StatusText(status: string): (r: string)
    ensures r == "Pending" <==> status !in KnownStatuses
    ensures status == Applied ==> r == "Applied"
    ensures status == Rejected ==> r == "Rejected"
  {
    if status == Applied then "Applied"
    else if status == Shortlisted then "Shortlisted"
    else if status == InterviewScheduled then "Interview Scheduled"
    else if status == InterviewCompleted then "Interview Completed"
    else if status == Selected then "Selected"
    else if status == Rejected then "Rejected"
    else if status == Placed then "Placed"
    else "Pending"
  }

  /** The spellings the other pages use are not known here: an offer accepted or an
      application under review both read as Pending. */
  lemma OtherVocabularyReadsPending()
    ensures StatusText(OfferAccepted) == "Pending"
    ensures StatusText(UnderReview) == "Pending"
  {
    assert |OfferAccepted| == 14 && |UnderReview| == 12;
    assert |Applied| == 7 && |Shortlisted| == 11 && |InterviewScheduled| == 19 && |InterviewCompleted| == 19;
    assert |Selected| == 8 && |Rejected| == 8 && |Placed| == 6;
  }

  datatype StepState = Completed | Active | Pending

  datatype Step = Step(title: string, state: StepState)

  /** The statuses at or after each milestone, as the page lists them. */
  const ShortlistedOrLater: set<string> := {Shortlisted, InterviewScheduled, InterviewCompleted, Selected, Placed}
  const InterviewOrLater: set<string> := {InterviewScheduled, InterviewCompleted, Selected, Placed}
  const Decided: set<string> := {Selected, Placed, Rejected}

  function Reached(b: bool): StepState
  {
    if b then Completed else Pending
  }

  /** `getApplicationSteps`: five steps; the first is always done, the second is the active
      one while the application is still `applied`, the last three are done or pending. */
  function ApplicationSteps(status: string): (r: seq<Step>)
    ensures |r| == 5
    ensures r[0].state == Completed
    ensures r[1].state == (if status == Applied then Active else Completed)
    ensures r[2].state == Completed <==> status in ShortlistedOrLater
    ensures r[3].state == Completed <==> status in InterviewOrLater
    ensures r[4].state == Completed <==> status in Decided
    ensures forall i :: 2 <= i < 5 ==> r[i].state != Active
    ensures r[0].title == "Application Submitted" && r[4].title == "Final Result"
  {
    [Step("Application Submitted", Completed),
     Step("Application Reviewed", if status != Applied then Completed else Active),
     Step("Shortlisted", Reached(status in ShortlistedOrLater)),
     Step("Interview Process", Reached(status in InterviewOrLater)),
     Step("Final Result", Reached(status in Decided))]
  }

  /** The progress bar never shows the interview done before the shortlist. */
  lemma InterviewAfterShortlist(status: string)
    ensures ApplicationSteps(status)[3].state == Completed ==> ApplicationSteps(status)[2].state == Completed
  {
  }

  /** A rejection completes the final step while the shortlist step stays pending. */
  lemma RejectedSkipsShortlist()
    ensures ApplicationSteps(Rejected)[4].state == Completed
    ensures ApplicationSteps(Rejected)[2].state == Pending
    ensures ApplicationSteps(Rejected)[1].state == Completed
  {
    assert |Rejected| == 8 && |Shortlisted| == 11 && |InterviewScheduled| == 19 && |InterviewCompleted| == 19;
    assert Rejected != Selected && Rejected != Placed by { assert |Placed| == 6 && Rejected[0] != Selected[0]; }
  }

  /** An application of the student's page. */
  datatype OwnApplication = OwnApplication(id: int, driveTitle: string, status: string)

  function HasOwnStatus(status: string): OwnApplication -> bool
  {
    (a: OwnApplication) => a.status == status
  }

  /** `filteredApplications` of the student page: "all" keeps everything, any other value the
      applications with exactly that status. */
  function FilterOwn(apps: seq<OwnApplication>, filterStatus: string): (r: seq<OwnApplication>)
    ensures IsSubsequence(r, apps)
    ensures filterStatus == "all" ==> r == apps
    ensures filterStatus != "all" ==> forall a :: a in r <==> a in apps && a.status == filterStatus
  {
    if filterStatus == "all" then SubsequenceReflexive(apps); apps
    else Filter(HasOwnStatus(filterStatus), apps)
  }

  /** Filtering by one status and then by the same status again changes nothing. */
  lemma FilterOwnIdempotent(apps: seq<OwnApplication>, filterStatus: string)
    ensures FilterOwn(FilterOwn(apps, filterStatus), filterStatus) == FilterOwn(apps, filterStatus)
  {
  }

  /** An application as the TPO's view receives it. */
  datatype CandidateApplication = CandidateApplication(id: int, status: string, cgpa: real, skills: seq<string>)

  /** A numeric filter field: its text and `parseFloat` of it, None when that is NaN. */
  datatype BoundField = BoundField(text: string, parsed: Option<real>)

  /** The TPO view's filter settings. */
  datatype Filters = Filters(status: string, cgpaMin: BoundField, cgpaMax: BoundField, skill: string)

  const DefaultFilters := Filters("all", BoundField("", None), BoundField("", None), "")

  /** A bound excludes only when its text is set and compares: NaN never excludes. */
  predicate BelowMin(a: CandidateApplication, f: BoundField)
  {
    f.text != "" && f.parsed.Some? && a.cgpa < f.parsed.value
  }

  predicate AboveMax(a: CandidateApplication, f: BoundField)
  {
    f.text != "" && f.parsed.Some? && a.cgpa > f.parsed.value
  }

  predicate HasSkillLike(a: CandidateApplication, skill: string)
  {
    exists i :: 0 <= i < |a.skills| && IsInfix(Lower(skill), Lower(a.skills[i]))
  }

  /** The TPO view's per-application test, in the order the handler checks. */
  function Passes(f: Filters): CandidateApplication -> bool
  {
    (a: CandidateApplication) =>
      !(f.status != "all" && a.status != f.status)
      && !BelowMin(a, f.cgpaMin)
      && !AboveMax(a, f.cgpaMax)
      && !(f.skill != "" && !HasSkillLike(a, f.skill))
  }

  /** `filteredApplications` of the TPO view. */
  function FilterCandidates(apps: seq<CandidateApplication>, f: Filters): (r: seq<CandidateApplication>)
    ensures IsSubsequence(r, apps)
    ensures f.status != "all" ==> forall i :: 0 <= i < |r| ==> r[i].status == f.status
    ensures f.cgpaMin.text != "" && f.cgpaMin.parsed.Some? ==>
      forall i :: 0 <= i < |r| ==> f.cgpaMin.parsed.value <= r[i].cgpa
    ensures f.cgpaMax.text != "" && f.cgpaMax.parsed.Some? ==>
      forall i :: 0 <= i < |r| ==> r[i].cgpa <= f.cgpaMax.parsed.value
    ensures f.skill != "" ==> forall i :: 0 <= i < |r| ==> HasSkillLike(r[i], f.skill)
    ensures forall i :: 0 <= i < |apps| && Passes(f)(apps[i]) ==> apps[i] in r
  {
    var r := Filter(Passes(f), apps);
    assert forall i :: 0 <= i < |r| ==> Passes(f)(r[i]);
    r
  }

  /** Under the default settings nothing is filtered out. */
  lemma DefaultKeepsAll(apps: seq<CandidateApplication>)
    ensures FilterCandidates(apps, DefaultFilters) == apps
  {
    assert forall i :: 0 <= i < |apps| ==> Passes(DefaultFilters)(apps[i]);
  }

  /** A CGPA bound that is not a number filters nothing out. */
  lemma UnparsableBoundIgnored(apps: seq<CandidateApplication>, text: string)
    ensures FilterCandidates(apps, Filters("all", BoundField(text, None), BoundField(text, None), ""))
            == apps
  {
    var f := Filters("all", BoundField(text, None), BoundField(text, None), "");
    assert forall i :: 0 <= i < |apps| ==> Passes(f)(apps[i]);
  }
}

=== FILE: basics.dfy ===
/** Shared building blocks: an optional value, order-preserving filtering, and the
    sub-sequence relation that every list filter of the portal satisfies. */
module Basics {

  datatype Option<+T> = None | Some(value: T)

  /** True when xs is obtained from ys by deleting elements, keeping the order of the rest. */
  predicate IsSubsequence<T(==)>(xs: seq<T>, ys: seq<T>)
    decreases |ys|
  {
    if xs == [] then true
    else if ys == [] then false
    else (xs[0] == ys[0] && IsSubsequence(xs[1..], ys[1..])) || IsSubsequence(xs, ys[1..])
  }

  lemma {:induction false} SubsequenceReflexive<T>(s: seq<T>)
    ensures IsSubsequence(s, s)
  {
    if s != [] {
      SubsequenceReflexive(s[1..]);
    }
  }

  lemma {:induction false} SubsequenceLength<T>(xs: seq<T>, ys: seq<T>)
    requires IsSubsequence(xs, ys)
    ensures |xs| <= |ys|
    decreases |ys|
  {
    if xs != [] {
      if xs[0] == ys[0] && IsSubsequence(xs[1..], ys[1..]) {
        SubsequenceLength(xs[1..], ys[1..]);
      } else {
        SubsequenceLength(xs, ys[1..]);
      }
    }
  }

  lemma {:induction false} SubsequenceTransitive<T>(xs: seq<T>, ys: seq<T>, zs: seq<T>)
    requires IsSubsequence(xs, ys) && IsSubsequence(ys, zs)
    ensures IsSubsequence(xs, zs)
    decreases |zs|
  {
    if xs != [] {
      if ys[0] == zs[0] && IsSubsequence(ys[1..], zs[1..]) {
        if xs[0] == ys[0] && IsSubsequence(xs[1..], ys[1..]) {
          SubsequenceTransitive(xs[1..], ys[1..], zs[1..]);
        } else {
          SubsequenceTransitive(xs, ys[1..], zs[1..]);
        }
      } else {
        SubsequenceTransitive(xs, ys, zs[1..]);
      }
    }
  }

  /** The elements of s that satisfy p, in their original order. */
  function Filter<T>(p: T -> bool, s: seq<T>): (r: seq<T>)
    ensures |r| <= |s|
    ensures forall i :: 0 <= i < |r| ==> p(r[i])
    ensures forall i :: 0 <= i < |r| ==> r[i] in s
    ensures forall i :: 0 <= i < |s| && p(s[i]) ==> s[i] in r
    ensures IsSubsequence(r, s)
    ensures (forall i :: 0 <= i < |s| ==> p(s[i])) ==> r == s
  {
    if s == [] then []
    else if p(s[0]) then [s[0]] + Filter(p, s[1..])
    else Filter(p, s[1..])
  }

  /** Two predicates that agree on every element select the same elements. */
  lemma {:induction false} FilterAgreeing<T>(p: T -> bool, q: T -> bool, s: seq<T>)
    requires forall i :: 0 <= i < |s| ==> p(s[i]) == q(s[i])
    ensures Filter(p, s) == Filter(q, s)
  {
    if s != [] {
      FilterAgreeing(p, q, s[1..]);
    }
  }

  /** Filtering keeps the whole sequence only when every element satisfies the predicate. */
  lemma {:induction false} FilterKeepsAll<T>(p: T -> bool, s: seq<T>)
    ensures |Filter(p, s)| == |s| <==> forall i :: 0 <= i < |s| ==> p(s[i])
  {
    if s != [] {
      FilterKeepsAll(p, s[1..]);
      assert forall i :: 0 < i < |s| ==> s[i] == s[1..][i - 1];
    }
  }

  /** Everything p selects satisfies q exactly when every element satisfying p does. */
  lemma FilterAllOf<T>(p: T -> bool, q: T -> bool, s: seq<T>)
    ensures (forall i :: 0 <= i < |Filter(p, s)| ==> q(Filter(p, s)[i])) <==>
            (forall i :: 0 <= i < |s| && p(s[i]) ==> q(s[i]))
  {
    var r := Filter(p, s);
    if forall i :: 0 <= i < |r| ==> q(r[i]) {
      forall i | 0 <= i < |s| && p(s[i]) ensures q(s[i]) {
        assert s[i] in r;
        var j :| 0 <= j < |r| && r[j] == s[i];
        assert q(r[j]);
      }
    }
    if forall i :: 0 <= i < |s| && p(s[i]) ==> q(s[i]) {
      forall i | 0 <= i < |r| ensures q(r[i]) {
        assert r[i] in s && p(r[i]);
        var j :| 0 <= j < |s| && s[j] == r[i];
        assert q(s[j]);
      }
    }
  }

  /** A predicate no element satisfies selects nothing. */
  lemma {:induction false} FilterNone<T>(p: T -> bool, s: seq<T>)
    requires forall i :: 0 <= i < |s| ==> !p(s[i])
    ensures Filter(p, s) == []
  {
    if s != [] {
      assert forall i :: 0 <= i < |s[1..]| ==> s[1..][i] == s[i + 1];
      FilterNone(p, s[1..]);
    }
  }

  /** Selecting nothing means no element satisfies the predicate. */
  lemma FilterNoneIff<T>(p: T -> bool, s: seq<T>)
    requires |Filter(p, s)| == 0
    ensures forall i :: 0 <= i < |s| ==> !p(s[i])
  {
    assert Filter(p, s) == [];
  }

  /** The first element of s that satisfies p: the `.first()` of a filtered query, or a
      primary-key `get`. */
  function FindFirst<T>(p: T -> bool, s: seq<T>): (r: Option<T>)
    ensures r.None? <==> forall i :: 0 <= i < |s| ==> !p(s[i])
    ensures r.Some? ==> r.value in s && p(r.value)
    ensures r.Some? ==> exists k :: 0 <= k < |s| && s[k] == r.value && forall j :: 0 <= j < k ==> !p(s[j])
    decreases |s|
  {
    if s == [] then None
    else if p(s[0]) then Some(s[0])
    else
      var r := FindFirst(p, s[1..]);
      if r.Some? then FirstAfterHead(p, s, r.value); r else r
  }

  /** A first match in the tail of s is a first match in s when the head does not match. */
  lemma FirstAfterHead<T>(p: T -> bool, s: seq<T>, v: T)
    requires s != [] && !p(s[0])
    requires exists k :: 0 <= k < |s[1..]| && s[1..][k] == v && forall j :: 0 <= j < k ==> !p(s[1..][j])
    ensures exists k :: 0 <= k < |s| && s[k] == v && forall j :: 0 <= j < k ==> !p(s[j])
  {
    var k :| 0 <= k < |s[1..]| && s[1..][k] == v && forall j :: 0 <= j < k ==> !p(s[1..][j]);
    forall j | 0 <= j < k + 1 ensures !p(s[j]) {
      if j > 0 { assert s[j] == s[1..][j - 1]; }
    }
    assert s[k + 1] == v;
  }

  /** An element appended to a sequence with no match is the one found. */
  lemma {:induction false} FindFirstAppended<T>(p: T -> bool, s: seq<T>, x: T)
    requires forall i :: 0 <= i < |s| ==> !p(s[i])
    requires p(x)
    ensures FindFirst(p, s + [x]) == Some(x)
    decreases |s|
  {
    if s != [] {
      assert (s + [x])[1..] == s[1..] + [x];
      FindFirstAppended(p, s[1..], x);
    }
  }

  /** Counting the elements of two disjoint classes separately adds up to counting their union. */
  lemma {:induction false} FilterDisjointCount<T>(p: T -> bool, q: T -> bool, u: T -> bool, s: seq<T>)
    requires forall x :: u(x) == (p(x) || q(x))
    requires forall x :: !(p(x) && q(x))
    ensures |Filter(p, s)| + |Filter(q, s)| == |Filter(u, s)|
  {
    if s != [] {
      FilterDisjointCount(p, q, u, s[1..]);
    }
  }

  /** Two disjoint classes together never number more than the whole sequence. */
  lemma FilterDisjointBound<T>(p: T -> bool, q: T -> bool, s: seq<T>)
    requires forall x :: !(p(x) && q(x))
    ensures |Filter(p, s)| + |Filter(q, s)| <= |s|
  {
    FilterDisjointCount(p, q, x => p(x) || q(x), s);
  }

  /** A class that implies another is never larger than it. */
  lemma {:induction false} FilterImpliesCount<T>(p: T -> bool, q: T -> bool, s: seq<T>)
    requires forall x :: p(x) ==> q(x)
    ensures |Filter(p, s)| <= |Filter(q, s)|
  {
    if s != [] {
      FilterImpliesCount(p, q, s[1..]);
    }
  }

  /** How many flags are set. */
  function CountSet(fs: seq<bool>): (r: nat)
    ensures r <= |fs|
    ensures r == |fs| <==> forall i :: 0 <= i < |fs| ==> fs[i]
    ensures r == 0 <==> forall i :: 0 <= i < |fs| ==> !fs[i]
    decreases |fs|
  {
    if fs == [] then 0
    else
      assert forall i :: 0 < i < |fs| ==> fs[i] == fs[1..][i - 1];
      (if fs[0] then 1 else 0) + CountSet(fs[1..])
  }

  /** Setting more flags never lowers the count. */
  lemma {:induction false} CountSetMonotone(fs: seq<bool>, gs: seq<bool>)
    requires |fs| == |gs| && forall i :: 0 <= i < |fs| ==> fs[i] ==> gs[i]
    ensures CountSet(fs) <= CountSet(gs)
    decreases |fs|
  {
    if fs != [] {
      assert forall i :: 0 <= i < |fs[1..]| ==> fs[1..][i] == fs[i + 1] && gs[1..][i] == gs[i + 1];
      CountSetMonotone(fs[1..], gs[1..]);
    }
  }

  /** `part / whole * 100 if whole > 0 else 0`: the zero-guarded percentage behind every
      rate and score the portal reports. */
  function Rate(part: nat, whole: nat): (r: real)
    ensures whole == 0 ==> r == 0.0
    ensures part <= whole ==> 0.0 <= r <= 100.0
    ensures part <= whole && whole > 0 ==> (r == 100.0 <==> part == whole)
    ensures r == 0.0 <==> whole == 0 || part == 0
  {
    if whole > 0 then part as real / whole as real * 100.0 else 0.0
  }

  /** A rate is the part's share of the whole, scaled to 100. */
  lemma RateScales(part: nat, whole: nat)
    requires whole > 0
    ensures Rate(part, whole) * (whole as real) == 100.0 * (part as real)
  {
  }

  /** A larger part of the same whole has a rate at least as high. */
  lemma RateMonotone(part1: nat, part2: nat, whole: nat)
    requires part1 <= part2
    ensures Rate(part1, whole) <= Rate(part2, whole)
  {
    if whole > 0 {
      var w := whole as real;
      assert part1 as real / w <= part2 as real / w;
    }
  }

  /** The rates of the two sides of a split add up to 100. */
  lemma RateComplement(a: nat, b: nat)
    requires a + b > 0
    ensures Rate(a, a + b) + Rate(b, a + b) == 100.0
  {
    var w := (a + b) as real;
    assert a as real / w + b as real / w == 1.0;
  }
}

=== FILE: builtin_templates.dfy ===
/** The e-mail templates built into the AI service for use when no language model answers,
    and the default subjects it puts on a generated e-mail that lacks one. */
module BuiltinTemplates {
  import opened Pieces

  /** A built-in template: subject and body written as literal text and single-brace slots.
      The literal text below is cut into one `Lit` per word. A `Lit` must hold no `{`, and
      the verifier checks this character by character, so a long run of text in one `Lit`
      exceeds its budget; `Render` joins the words back into the source's text. */
  datatype Template = Template(subject: seq<Piece>, content: seq<Piece>)

  /** The salutation every built-in body opens with. */
  const Greeting: seq<Piece> := [Lit("Dear "), Slot("student_name"), Lit(",\n\n")]

  /** The closing of every built-in body but the offer letter's. */
  const TpoSignOff: seq<Piece> := [Lit("\n\nBest "), Lit("regards,\n"), Lit("TPO "), Lit("Office")]

  const ApplicationReceivedSubject: seq<Piece> := [Lit("Application "), Lit("Received "), Lit("- "), Slot("company_name")]

  const ApplicationReceivedBody: seq<Piece> := [
    Lit("Thank "), Lit("you "), Lit("for "), Lit("applying "), Lit("for "), Lit("the "),
    Lit("position "), Lit("of "), Slot("position"), Lit(" at "), Slot("company_name"),
    Lit(".\n\n"), Lit("Your "), Lit("application "), Lit("has "), Lit("been "),
    Lit("received "), Lit("and "), Lit("is "), Lit("under "), Lit("review. "), Lit("We "),
    Lit("will "), Lit("contact "), Lit("you "), Lit("with "), Lit("further "), Lit("updates "),
    Lit("soon.")]

  const ApplicationReceivedContent: seq<Piece> := Greeting + ApplicationReceivedBody + TpoSignOff

  const RoundScheduledSubject: seq<Piece> := [Lit("Interview "), Lit("Round "), Lit("Scheduled "), Lit("- "), Slot("company_name")]

  const RoundScheduledBody: seq<Piece> := [
    Lit("You "), Lit("have "), Lit("been "), Lit("shortlisted "), Lit("for "),
    Slot("round_name"), Lit(" at "), Slot("company_name"), Lit(".\n\n"), Lit("Scheduled "),
    Lit("Date: "), Slot("scheduled_date"), Lit("\nVenue: "), Slot("venue"), Lit("\n\nPlease "),
    Lit("be "), Lit("prepared "), Lit("and "), Lit("arrive "), Lit("15 "), Lit("minutes "),
    Lit("early.")]

  const RoundScheduledContent: seq<Piece> := Greeting + RoundScheduledBody + TpoSignOff

  const ResultAnnouncedSubject: seq<Piece> := [Lit("Interview "), Lit("Results "), Lit("- "), Slot("company_name")]

  const ResultAnnouncedBody: seq<Piece> := [
    Lit("We "), Lit("are "), Lit("pleased "), Lit("to "), Lit("inform "), Lit("you "),
    Lit("that "), Lit("you "), Lit("have "), Slot("result"), Lit(" the "), Slot("round_name"),
    Lit(" for "), Slot("position"), Lit(" at "), Slot("company_name"), Lit(".\n\n"),
    Slot("result_message")]

  const ResultAnnouncedContent: seq<Piece> := Greeting + ResultAnnouncedBody + TpoSignOff

  const OfferSentSubject: seq<Piece> := [Lit("Job "), Lit("Offer "), Lit("- "), Slot("company_name")]

  const OfferSentBody: seq<Piece> := [
    Lit("Congratulations! "), Lit("We "), Lit("are "), Lit("delighted "), Lit("to "),
    Lit("offer "), Lit("you "), Lit("the "), Lit("position "), Lit("of "), Slot("position"),
    Lit(" at "), Slot("company_name"), Lit(".\n\n"), Lit("Please "), Lit("find "), Lit("the "),
    Lit("attached "), Lit("offer "), Lit("letter "), Lit("with "), Lit("detailed "),
    Lit("terms "), Lit("and "), Lit("conditions.\n\n"), Lit("Looking "), Lit("forward "),
    Lit("to "), Lit("working "), Lit("with "), Lit("you.\n\n"), Lit("Best "),
    Lit("regards,\n"), Slot("company_name"), Lit(" HR "), Lit("Team")]

  const OfferSentContent: seq<Piece> := Greeting + OfferSentBody

  const RejectionSubject: seq<Piece> := [Lit("Application "), Lit("Update "), Lit("- "), Slot("company_name")]

  const RejectionBody: seq<Piece> := [
    Lit("Thank "), Lit("you "), Lit("for "), Lit("your "), Lit("interest "), Lit("in "),
    Lit("the "), Lit("position "), Lit("of "), Slot("position"), Lit(" at "),
    Slot("company_name"), Lit(".\n\n"), Lit("After "), Lit("careful "), Lit("consideration, "),
    Lit("we "), Lit("regret "), Lit("to "), Lit("inform "), Lit("you "), Lit("that "),
    Lit("you "), Lit("have "), Lit("not "), Lit("been "), Lit("selected "), Lit("for "),
    Lit("this "), Lit("round.\n\n"), Lit("We "), Lit("appreciate "), Lit("your "),
    Lit("interest "), Lit("in "), Lit("our "), Lit("company "), Lit("and "), Lit("wish "),
    Lit("you "), Lit("all "), Lit("the "), Lit("best "), Lit("for "), Lit("your "),
    Lit("future "), Lit("endeavors.")]

  const RejectionContent: seq<Piece> := Greeting + RejectionBody + TpoSignOff

  /** The template types that have a built-in template. */
  const TemplateKinds: seq<string> := ["application_received", "round_scheduled", "result_announced",
    "offer_sent", "rejection"]

  const ApplicationReceived := Template(ApplicationReceivedSubject, ApplicationReceivedContent)

  /** The body opens with the salutation. */
  predicate OpensWithGreeting(ps: seq<Piece>)
  {
    |ps| >= |Greeting| && ps[..|Greeting|] == Greeting
  }

  lemma GreetingText()
    ensures Render(Greeting) == "Dear {student_name},\n\n"
  {
  }

  /** `templates.get(template_type, templates['application_received'])`. */
  function FallbackTemplate(kind: string): (t: Template)
    ensures kind !in TemplateKinds ==> t == ApplicationReceived
    ensures OpensWithGreeting(t.content)
  {
    if kind == "round_scheduled" then Template(RoundScheduledSubject, RoundScheduledContent)
    else if kind == "result_announced" then Template(ResultAnnouncedSubject, ResultAnnouncedContent)
    else if kind == "offer_sent" then Template(OfferSentSubject, OfferSentContent)
    else if kind == "rejection" then Template(RejectionSubject, RejectionContent)
    else ApplicationReceived
  }

  /** The template types `_get_default_subject` knows: the built-in ones and `offer_accepted`. */
  const SubjectKinds: seq<string> := TemplateKinds + ["offer_accepted"]

  /** `_get_default_subject`: a subject naming the company for a known type, a generic one
      otherwise. */
  function DefaultSubject(kind: string): (r: string)
    ensures r == "Placement Update" <==> kind !in SubjectKinds
    ensures r != [] && (r[|r| - 1] == '}' <==> kind in SubjectKinds)
  {
    if kind == "application_received" then "Application Received - {company_name}"
    else if kind == "round_scheduled" then "Interview Round Scheduled - {company_name}"
    else if kind == "result_announced" then "Interview Results - {company_name}"
    else if kind == "offer_sent" then "Job Offer - {company_name}"
    else if kind == "offer_accepted" then "Offer Accepted - {company_name}"
    else if kind == "rejection" then "Application Update - {company_name}"
    else "Placement Update"
  }

  /** `offer_accepted` has a default subject of its own but no built-in template: its
      fallback is the application-received e-mail. */
  lemma OfferAcceptedHasNoTemplate()
    ensures FallbackTemplate("offer_accepted") == ApplicationReceived
    ensures DefaultSubject("offer_accepted") == "Offer Accepted - {company_name}"
    ensures DefaultSubject("offer_accepted") != Render(FallbackTemplate("offer_accepted").subject)
  {
    assert Render(ApplicationReceivedSubject)[0] == 'A';
  }
}

=== FILE: counting.dfy ===
/** Python's `defaultdict(int)` / `Counter` tallies over string keys and
    `Counter.most_common(n)`: the counts kept in first-occurrence order, and the n largest
    counts, largest first, ties in first-occurrence order. */
module Counting {

  /** A tally: each key with its count, in the order the keys were first seen. */
  type Counts = seq<(string, nat)>

  predicate DistinctKeys(t: Counts)
  {
    forall i, j :: 0 <= i < j < |t| ==> t[i].0 != t[j].0
  }

  predicate Positive(t: Counts)
  {
    forall i :: 0 <= i < |t| ==> t[i].1 > 0
  }

  /** How many times k occurs in xs. */
  function Occurrences(xs: seq<string>, k: string): nat
    decreases |xs|
  {
    if xs == [] then 0 else (if xs[0] == k then 1 else 0) + Occurrences(xs[1..], k)
  }

  /** The count a tally holds for k, 0 when k is absent. */
  function CountOf(t: Counts, k: string): nat
    decreases |t|
  {
    if t == [] then 0 else if t[0].0 == k then t[0].1 else CountOf(t[1..], k)
  }

  /** Only a key of the tally has a count. */
  lemma {:induction false} CountOfKey(t: Counts, k: string)
    requires CountOf(t, k) > 0
    ensures exists i :: 0 <= i < |t| && t[i].0 == k
    decreases |t|
  {
    if t[0].0 != k {
      CountOfKey(t[1..], k);
      var i :| 0 <= i < |t[1..]| && t[1..][i].0 == k;
      assert t[i + 1].0 == k;
    }
  }

  /** The sum of the counts. */
  function Total(t: Counts): nat
    decreases |t|
  {
    if t == [] then 0 else t[0].1 + Total(t[1..])
  }

  /** What `tally[k] += 1` promises: keys stay distinct and keep their places, k's count
      grows by one and no other count changes, and no key comes from elsewhere. */
  ghost predicate BumpedFrom(t: Counts, k: string, r: Counts)
  {
    && DistinctKeys(r)
    && (forall x :: CountOf(r, x) == CountOf(t, x) + (if x == k then 1 else 0))
    && Total(r) == Total(t) + 1
    && |t| <= |r| && (forall i :: 0 <= i < |t| ==> r[i].0 == t[i].0)
    && (Positive(t) ==> Positive(r))
    && (forall i :: 0 <= i < |r| ==> r[i].0 == k || exists j :: 0 <= j < |t| && t[j].0 == r[i].0)
  }

  /** `tally[k] += 1`: an existing entry grows in place, a new key is appended. */
  function Bump(t: Counts, k: string): (r: Counts)
    requires DistinctKeys(t)
    ensures BumpedFrom(t, k, r)
    decreases |t|
  {
    if t == [] then [(k, 1)]
    else if t[0].0 == k then
      BumpHere(t, k);
      [(k, t[0].1 + 1)] + t[1..]
    else
      var rest := Bump(t[1..], k);
      BumpLater(t, k, rest);
      [t[0]] + rest
  }

  lemma BumpHere(t: Counts, k: string)
    requires DistinctKeys(t) && t != [] && t[0].0 == k
    ensures BumpedFrom(t, k, [(k, t[0].1 + 1)] + t[1..])
  {
    var r := [(k, t[0].1 + 1)] + t[1..];
    assert r[1..] == t[1..];
    NotInTailCounts(t);
  }

  lemma BumpLater(t: Counts, k: string, rest: Counts)
    requires DistinctKeys(t) && t != [] && t[0].0 != k
    requires BumpedFrom(t[1..], k, rest)
    ensures BumpedFrom(t, k, [t[0]] + rest)
  {
    ConsKeys(t, rest, k);
    ConsCounts(t, k, rest);
    ConsPositive(t, rest);
    ConsPrefix(t, rest);
  }

  lemma ConsCounts(t: Counts, k: string, rest: Counts)
    requires t != [] && t[0].0 != k
    requires forall x :: CountOf(rest, x) == CountOf(t[1..], x) + (if x == k then 1 else 0)
    requires Total(rest) == Total(t[1..]) + 1
    ensures forall x :: CountOf([t[0]] + rest, x) == CountOf(t, x) + (if x == k then 1 else 0)
    ensures Total([t[0]] + rest) == Total(t) + 1
  {
    var r := [t[0]] + rest;
    assert r[1..] == rest;
    forall x ensures CountOf(r, x) == CountOf(t, x) + (if x == k then 1 else 0) {
      if x != t[0].0 {
        assert CountOf(r, x) == CountOf(rest, x);
      }
    }
  }

  lemma ConsPositive(t: Counts, rest: Counts)
    requires t != []
    requires Positive(t[1..]) ==> Positive(rest)
    ensures Positive(t) ==> Positive([t[0]] + rest)
  {
    var r := [t[0]] + rest;
    if Positive(t) {
      assert Positive(t[1..]) by {
        forall i | 0 <= i < |t[1..]| ensures t[1..][i].1 > 0 { assert t[1..][i] == t[i + 1]; }
      }
      forall i | 0 <= i < |r| ensures r[i].1 > 0 { if i > 0 { assert r[i] == rest[i - 1]; } }
    }
  }

  lemma ConsPrefix(t: Counts, rest: Counts)
    requires t != []
    requires |t[1..]| <= |rest| && forall i :: 0 <= i < |t[1..]| ==> rest[i].0 == t[1..][i].0
    ensures |t| <= |[t[0]] + rest|
    ensures forall i :: 0 <= i < |t| ==> ([t[0]] + rest)[i].0 == t[i].0
  {
    var r := [t[0]] + rest;
    forall i | 0 <= i < |t| ensures r[i].0 == t[i].0 {
      if i > 0 { assert r[i] == rest[i - 1] && t[1..][i - 1] == t[i]; }
    }
  }

  /** Putting back an entry whose key is neither the bumped key nor in the rest of the tally
      keeps the keys distinct and accounted for. */
  lemma ConsKeys(t: Counts, rest: Counts, k: string)
    requires t != [] && t[0].0 != k && DistinctKeys(t) && DistinctKeys(rest)
    requires forall i :: 0 <= i < |rest| ==> rest[i].0 == k || exists j :: 0 <= j < |t[1..]| && t[1..][j].0 == rest[i].0
    ensures DistinctKeys([t[0]] + rest)
    ensures forall i :: 0 <= i < |[t[0]] + rest| ==>
      ([t[0]] + rest)[i].0 == k || exists j :: 0 <= j < |t| && t[j].0 == ([t[0]] + rest)[i].0
  {
    var r := [t[0]] + rest;
    forall i, j | 0 <= i < j < |r| ensures r[i].0 != r[j].0 {
      if i == 0 && rest[j - 1].0 != k {
        var m :| 0 <= m < |t[1..]| && t[1..][m].0 == rest[j - 1].0;
        assert t[m + 1].0 == rest[j - 1].0;
      }
    }
    forall i | 0 <= i < |r| && r[i].0 != k ensures exists j :: 0 <= j < |t| && t[j].0 == r[i].0 {
      if i == 0 {
        assert t[0].0 == r[i].0;
      } else {
        var m :| 0 <= m < |t[1..]| && t[1..][m].0 == r[i].0;
        assert t[m + 1].0 == r[i].0;
      }
    }
  }

  /** With distinct keys, the head's key has no count in the tail. */
  lemma NotInTailCounts(t: Counts)
    requires t != [] && DistinctKeys(t)
    ensures CountOf(t[1..], t[0].0) == 0
  {
    if CountOf(t[1..], t[0].0) > 0 {
      CountOfKey(t[1..], t[0].0);
    }
  }

  /** Folding `Bump` over xs, starting from t. */
  function BumpAll(t: Counts, xs: seq<string>): (r: Counts)
    requires DistinctKeys(t)
    ensures DistinctKeys(r)
    ensures forall x :: CountOf(r, x) == CountOf(t, x) + Occurrences(xs, x)
    ensures Total(r) == Total(t) + |xs|
    ensures Positive(t) ==> Positive(r)
    ensures forall i :: 0 <= i < |r| ==> r[i].0 in xs || exists j :: 0 <= j < |t| && t[j].0 == r[i].0
    decreases |xs|
  {
    if xs == [] then t
    else
      var b := Bump(t, xs[0]);
      var r := BumpAll(b, xs[1..]);
      assert forall i :: 0 <= i < |r| ==> r[i].0 in xs || exists j :: 0 <= j < |t| && t[j].0 == r[i].0 by {
        forall i | 0 <= i < |r| && r[i].0 !in xs ensures exists j :: 0 <= j < |t| && t[j].0 == r[i].0 {
          assert r[i].0 !in xs[1..];
          var m :| 0 <= m < |b| && b[m].0 == r[i].0;
          assert b[m].0 != xs[0];
        }
      }
      r
  }

  /** The tally of xs: one entry per distinct element, counting its occurrences, the counts
      adding up to the length of xs. */
  function Tally(xs: seq<string>): (r: Counts)
    ensures DistinctKeys(r) && Positive(r)
    ensures forall x :: CountOf(r, x) == Occurrences(xs, x)
    ensures Total(r) == |xs|
    ensures forall i :: 0 <= i < |r| ==> r[i].0 in xs
  {
    BumpAll([], xs)
  }

  /** A tally with distinct keys counts each of its entries. */
  lemma {:induction false} CountOfEntry(t: Counts, i: int)
    requires DistinctKeys(t) && 0 <= i < |t|
    ensures CountOf(t, t[i].0) == t[i].1
    decreases |t|
  {
    if i > 0 {
      assert t[0].0 != t[i].0;
      assert t[1..][i - 1] == t[i];
      CountOfEntry(t[1..], i - 1);
    }
  }

  /** Every element of xs appears as a key of its tally. */
  lemma TallyCoversElements(xs: seq<string>, x: string)
    requires x in xs
    ensures exists i :: 0 <= i < |Tally(xs)| && Tally(xs)[i].0 == x
  {
    OccursPositive(xs, x);
    CountOfKey(Tally(xs), x);
  }

  lemma {:induction false} OccursPositive(xs: seq<string>, x: string)
    requires x in xs
    ensures Occurrences(xs, x) > 0
    decreases |xs|
  {
    if xs[0] != x {
      assert x in xs[1..];
      OccursPositive(xs[1..], x);
    }
  }

  /** Entries in non-increasing order of count. */
  predicate Descending(t: Counts)
  {
    forall i, j :: 0 <= i < j < |t| ==> t[i].1 >= t[j].1
  }

  /** Place e before the first entry whose count is not larger, keeping the order descending. */
  function Insert(e: (string, nat), t: Counts): (r: Counts)
    requires Descending(t)
    ensures Descending(r)
    ensures multiset(r) == multiset(t) + multiset{e}
    ensures |r| == |t| + 1
    decreases |t|
  {
    if t == [] || t[0].1 <= e.1 then
      ConsDescending(e, t);
      [e] + t
    else
      var rest := Insert(e, t[1..]);
      assert t == [t[0]] + t[1..];
      assert multiset(rest) == multiset(t[1..] + [e]);
      AllAtMost(rest, t[1..] + [e], t[0].1);
      ConsDescending(t[0], rest);
      [t[0]] + rest
  }

  /** An entry no smaller than every count of a descending tally can go in front. */
  lemma ConsDescending(x: (string, nat), t: Counts)
    requires Descending(t)
    requires t != [] ==> t[0].1 <= x.1
    ensures Descending([x] + t)
  {
    var r := [x] + t;
    forall i, j | 0 <= i < j < |r| ensures r[i].1 >= r[j].1 {
      assert r[j] == t[j - 1];
      if i > 0 { assert r[i] == t[i - 1]; }
      else if j > 1 { assert t[0].1 >= t[j - 1].1; }
    }
  }

  /** A rearrangement keeps a common upper bound on the counts. */
  lemma AllAtMost(xs: Counts, ys: Counts, c: nat)
    requires multiset(xs) == multiset(ys)
    requires forall i :: 0 <= i < |ys| ==> ys[i].1 <= c
    ensures forall j :: 0 <= j < |xs| ==> xs[j].1 <= c
  {
    forall j | 0 <= j < |xs| ensures xs[j].1 <= c {
      assert xs[j] in multiset(ys);
      var m :| 0 <= m < |ys| && ys[m] == xs[j];
    }
  }

  /** A stable sort by count, largest first. */
  function SortDescending(t: Counts): (r: Counts)
    ensures Descending(r)
    ensures multiset(r) == multiset(t)
    ensures |r| == |t|
    decreases |t|
  {
    if t == [] then []
    else
      assert t == [t[0]] + t[1..];
      Insert(t[0], SortDescending(t[1..]))
  }

  /** `Counter.most_common(n)`: at most n entries, largest counts first, and every entry left
      out has a count no larger than the last one kept. */
  function MostCommon(t: Counts, n: nat): (r: Counts)
    ensures |r| <= n && |r| <= |t|
    ensures Descending(r)
    ensures forall i :: 0 <= i < |r| ==> r[i] in t
    ensures multiset(r) <= multiset(t)
    ensures DistinctKeys(t) ==> DistinctKeys(r)
    ensures |t| <= n ==> multiset(r) == multiset(t)
    ensures forall e :: e in t && e !in r ==> |r| == n && (n == 0 || e.1 <= r[n - 1].1)
  {
    var s := SortDescending(t);
    var k := if |s| <= n then |s| else n;
    TopPrefix(t, s, k, n);
    PrefixSubMultiset(s, k);
    assert DistinctKeys(t) ==> DistinctKeys(s[..k]) by {
      if DistinctKeys(t) { SubMultisetKeepsDistinctKeys(s[..k], t); }
    }
    s[..k]
  }

  /** A prefix takes part of the multiset of the whole. */
  lemma PrefixSubMultiset(s: Counts, k: nat)
    requires k <= |s|
    ensures multiset(s[..k]) <= multiset(s)
  {
    assert s == s[..k] + s[k..];
  }

  /** With distinct keys no entry occurs twice. */
  lemma {:induction false} DistinctKeysOnce(t: Counts, x: (string, nat))
    requires DistinctKeys(t)
    ensures multiset(t)[x] <= 1
    decreases |t|
  {
    if t != [] {
      var tail := t[1..];
      assert t == [t[0]] + tail;
      assert DistinctKeys(tail) by {
        forall i, j | 0 <= i < j < |tail| ensures tail[i].0 != tail[j].0 {
          assert tail[i] == t[i + 1] && tail[j] == t[j + 1];
        }
      }
      DistinctKeysOnce(tail, x);
      assert forall j :: 0 <= j < |tail| ==> tail[j].0 != t[0].0 by {
        forall j | 0 <= j < |tail| ensures tail[j].0 != t[0].0 { assert tail[j] == t[j + 1]; }
      }
      assert t[0] !in tail;
    }
  }

  /** Two positions i < j of s add up to two occurrences of s[i] when they hold the same entry. */
  lemma TwoPositions(s: Counts, i: int, j: int)
    requires 0 <= i < j < |s|
    ensures multiset(s)[s[i]] >= 1 + (if s[j] == s[i] then 1 else 0)
  {
    var a := s[..j];
    assert s == a + [s[j]] + s[j + 1..];
    assert a[i] == s[i];
    assert s[i] in multiset(a);
  }

  /** Entries drawn from a tally with distinct keys, each at most as often as there, keep
      distinct keys. */
  lemma SubMultisetKeepsDistinctKeys(s: Counts, t: Counts)
    requires DistinctKeys(t) && multiset(s) <= multiset(t)
    ensures DistinctKeys(s)
  {
    forall i, j | 0 <= i < j < |s| ensures s[i].0 != s[j].0 {
      TwoPositions(s, i, j);
      DistinctKeysOnce(t, s[i]);
      assert s[i] != s[j];
      assert s[i] in multiset(t) && s[j] in multiset(t);
      var a :| 0 <= a < |t| && t[a] == s[i];
      var b :| 0 <= b < |t| && t[b] == s[j];
      assert a != b;
    }
  }

  lemma TopPrefix(t: Counts, s: Counts, k: nat, n: nat)
    requires Descending(s) && multiset(s) == multiset(t) && |s| == |t|
    requires k == if |s| <= n then |s| else n
    ensures Descending(s[..k])
    ensures forall i :: 0 <= i < k ==> s[..k][i] in t
    ensures |t| <= n ==> multiset(s[..k]) == multiset(t)
    ensures forall e :: e in t && e !in s[..k] ==> k == n && (n == 0 || e.1 <= s[..k][n - 1].1)
  {
    var r := s[..k];
    forall i | 0 <= i < k ensures r[i] in t {
      assert r[i] == s[i] && s[i] in multiset(s);
    }
    if |t| <= n {
      assert r == s;
    }
    forall e | e in t && e !in r ensures k == n && (n == 0 || e.1 <= r[n - 1].1) {
      assert e in multiset(t);
      assert e in multiset(s);
      var j :| 0 <= j < |s| && s[j] == e;
      assert forall i :: 0 <= i < k ==> r[i] == s[i] && r[i] in r;
      assert j >= k;
    }
  }
}

=== FILE: dashboard.dfy ===
/** The dashboard statistics: profile completion, the student's placement rate and pending
    count, the HOD's department approval and placement rates, and the TPO's system-wide
    counts. Each query becomes a count over the rows passed in. The three handlers are
    modelled as intended; each also has an `AsWritten` version against the declared models,
    where a profile relationship or an application column the code reads does not exist, so
    the handler answers 500 once its first checks pass. */
module Dashboard {
  import opened Basics
  import opened Records
  import Analytics

  /** A refusal carries the HTTP status and the error text. */
  datatype Response<T> = Ok(value: T) | Refused(code: int, error: string)

  // ---------------------------------------------------------------------------------------
  // Profile completion

  /** Whether each of the ten scored fields is filled in, in the order the code checks them:
      first name, last name, CGPA (zero counts as missing), phone, resume, skills, education,
      experience (each a non-empty list), date of birth, address. */
  function CompletionFields(p: StudentProfile): (r: seq<bool>)
    ensures |r| == 10
  {
    [TruthyText(p.firstName), TruthyText(p.lastName), TruthyNumber(p.cgpa), TruthyText(p.phone),
     TruthyText(p.resumeFile), ListOrEmpty(p.skills) != [], ListOrEmpty(p.education) != [],
     ListOrEmpty(p.experience) != [], TruthyText(p.dateOfBirth), TruthyText(p.address)]
  }

  /** `calculate_profile_completion`: ten points per filled field. */
  function ProfileCompletion(p: StudentProfile): (r: nat)
    ensures r == 10 * CountSet(CompletionFields(p))
    ensures r % 10 == 0 && r <= 100
    ensures r == 100 <==> forall i :: 0 <= i < 10 ==> CompletionFields(p)[i]
    ensures r == 0 <==> forall i :: 0 <= i < 10 ==> !CompletionFields(p)[i]
  {
    var k := CountSet(CompletionFields(p));
    TenPoints(k);
    k * 10
  }

  lemma TenPoints(k: nat)
    requires k <= 10
    ensures (k * 10) % 10 == 0 && k * 10 <= 100
    ensures k * 10 == 100 <==> k == 10
    ensures k * 10 == 0 <==> k == 0
  {
  }

  /** Filling in more fields never lowers the completion. */
  lemma ProfileCompletionMonotone(p: StudentProfile, q: StudentProfile)
    requires forall i :: 0 <= i < 10 ==> CompletionFields(p)[i] ==> CompletionFields(q)[i]
    ensures ProfileCompletion(p) <= ProfileCompletion(q)
  {
    CountSetMonotone(CompletionFields(p), CompletionFields(q));
  }

  /** A CGPA of zero scores like a missing one. */
  lemma ZeroCgpaScoresNothing(p: StudentProfile)
    ensures ProfileCompletion(p.(cgpa := Some(0.0))) == ProfileCompletion(p.(cgpa := None))
  {
    assert CompletionFields(p.(cgpa := Some(0.0))) == CompletionFields(p.(cgpa := None));
  }

  // ---------------------------------------------------------------------------------------
  // Student statistics

  function IsPlaced(a: Application): bool
  {
    a.status == Placed
  }

  function IsPending(a: Application): bool
  {
    a.status == Applied
  }

  /** `calculate_student_placement_rate` over the student's applications. */
  function StudentPlacementRate(apps: seq<Application>): (r: real)
    ensures r == Rate(|Filter(IsPlaced, apps)|, |apps|)
    ensures apps == [] ==> r == 0.0
    ensures 0.0 <= r <= 100.0
    ensures r == 100.0 <==> apps != [] && forall i :: 0 <= i < |apps| ==> apps[i].status == Placed
    ensures r == 0.0 <==> forall i :: 0 <= i < |apps| ==> apps[i].status != Placed
  {
    var placed := |Filter(IsPlaced, apps)|;
    FilterKeepsAll(IsPlaced, apps);
    if placed == 0 then FilterNoneIff(IsPlaced, apps); Rate(placed, |apps|) else Rate(placed, |apps|)
  }

  /** Counting placed applications position by position: where every placed application of
      one list is placed in the other, the other has at least as many. */
  lemma {:induction false} PlacedPointwise(a: seq<Application>, b: seq<Application>)
    requires |a| == |b| && forall i :: 0 <= i < |a| ==> IsPlaced(a[i]) ==> IsPlaced(b[i])
    ensures |Filter(IsPlaced, a)| <= |Filter(IsPlaced, b)|
    decreases |a|
  {
    if a != [] {
      assert forall i :: 0 <= i < |a[1..]| ==> a[1..][i] == a[i + 1] && b[1..][i] == b[i + 1];
      PlacedPointwise(a[1..], b[1..]);
    }
  }

  /** Marking more of the same applications placed never lowers the placement rate. */
  lemma PlacementRateMonotone(a: seq<Application>, b: seq<Application>)
    requires |a| == |b| && forall i :: 0 <= i < |a| ==> a[i].status == Placed ==> b[i].status == Placed
    ensures StudentPlacementRate(a) <= StudentPlacementRate(b)
  {
    PlacedPointwise(a, b);
    RateMonotone(|Filter(IsPlaced, a)|, |Filter(IsPlaced, b)|, |a|);
  }

  /** Only the status `placed` counts: a student whose applications were all selected or
      accepted, the statuses the reports call successful, has a placement rate of 0. */
  lemma SelectedIsNotPlaced(apps: seq<Application>)
    requires forall i :: 0 <= i < |apps| ==> Analytics.IsSuccessful(apps[i])
    ensures StudentPlacementRate(apps) == 0.0
  {
    assert |Placed| == 6 && |Selected| == 8 && |OfferAccepted| == 14;
    FilterNone(IsPlaced, apps);
  }

  predicate IsActiveDrive(d: Drive)
  {
    d.status == ActiveDrive
  }

  datatype StudentStats = StudentStats(totalApplications: nat, pendingApplications: nat,
                                       profileCompletion: nat, availableDrives: nat, placementRate: real)

  /** `get_student_stats`: only a student with a profile gets statistics, over that profile's
      applications. */
  function GetStudentStats(user: Option<User>, profile: Option<StudentProfile>,
                           apps: seq<Application>, drives: seq<Drive>): (r: Response<StudentStats>)
    ensures (user.None? || user.value.role != Student) ==> r == Refused(403, "Access denied")
    ensures user.Some? && user.value.role == Student && profile.None? ==> r == Refused(404, "Profile not found")
    ensures r.Ok? <==> user.Some? && user.value.role == Student && profile.Some?
    ensures r.Ok? ==>
      var mine := Filter((a: Application) => a.studentId == profile.value.id, apps);
      && r.value.totalApplications == |mine|
      && r.value.pendingApplications == |Filter(IsPending, mine)|
      && r.value.pendingApplications <= r.value.totalApplications
      && r.value.availableDrives == |Filter(IsActiveDrive, drives)|
      && r.value.profileCompletion == ProfileCompletion(profile.value)
      && r.value.placementRate == StudentPlacementRate(mine)
      && (r.value.totalApplications == 0 ==> r.value.placementRate == 0.0)
  {
    if user.None? || user.value.role != Student then Refused(403, "Access denied")
    else if profile.None? then Refused(404, "Profile not found")
    else
      var mine := Filter((a: Application) => a.studentId == profile.value.id, apps);
      Ok(StudentStats(|mine|, |Filter(IsPending, mine)|, ProfileCompletion(profile.value),
                      |Filter(IsActiveDrive, drives)|, StudentPlacementRate(mine)))
  }

  /** `get_student_stats` as written, against the declared models: `User` has no
      `student_profile` relationship (`StudentProfile` declares none), so reading it raises
      for every student before the profile check, and the handler answers 500 with the
      exception's text, here the parameter `crash`. Past that, the ordering by the missing
      `StudentApplication.created_at` would raise too. */
  function GetStudentStatsAsWritten(user: Option<User>, crash: string): (r: Response<StudentStats>)
    ensures !r.Ok?
    ensures (user.None? || user.value.role != Student) ==> r == Refused(403, "Access denied")
    ensures user.Some? && user.value.role == Student ==> r == Refused(500, crash)
  {
    if user.None? || user.value.role != Student then Refused(403, "Access denied")
    else Refused(500, crash)
  }

  /** Every student, with a profile or without, gets 500 from the handler as written where
      the intended one answers with statistics or 404; every other caller gets the intended
      403. */
  lemma StudentStatsAsWrittenFails(user: Option<User>, profile: Option<StudentProfile>,
                                   apps: seq<Application>, drives: seq<Drive>, crash: string)
    ensures user.Some? && user.value.role == Student ==>
      GetStudentStatsAsWritten(user, crash) == Refused(500, crash)
      && (GetStudentStats(user, profile, apps, drives).Ok? <==> profile.Some?)
    ensures GetStudentStats(user, profile, apps, drives) == Refused(403, "Access denied") <==>
      GetStudentStatsAsWritten(user, crash) == Refused(403, "Access denied")
  {
  }

  // ---------------------------------------------------------------------------------------
  // HOD statistics

  /** A student profile joined to its user's approval flag. */
  datatype StudentRow = StudentRow(profile: StudentProfile, approved: bool)

  datatype HodStats = HodStats(totalStudents: nat, approvedStudents: nat, pendingStudents: nat,
                               approvalRate: real, placementRate: real, studentsWithOffers: nat)

  /** A set no larger than a set containing it. */
  lemma SubsetSize(a: set<int>, b: set<int>)
    requires a <= b
    ensures |a| <= |b|
  {
    assert b == a + (b - a);
  }

  function ProfileIds(rows: seq<StudentRow>): (r: seq<int>)
    ensures |r| == |rows| && forall i :: 0 <= i < |rows| ==> r[i] == rows[i].profile.id
  {
    seq(|rows|, i requires 0 <= i < |rows| => rows[i].profile.id)
  }

  /** The department's students who hold an offer: the distinct profile ids of the
      department among the applicants whose application has an offer letter. */
  function StudentsWithOffers(deptRows: seq<StudentRow>, offerHolders: seq<int>): (r: nat)
    ensures r == |set i | 0 <= i < |deptRows| && deptRows[i].profile.id in offerHolders :: deptRows[i].profile.id|
    ensures r <= |deptRows|
    ensures offerHolders == [] ==> r == 0
  {
    var ids := ProfileIds(deptRows);
    var holders := set x | x in offerHolders && x in ids;
    assert holders == set i | 0 <= i < |deptRows| && deptRows[i].profile.id in offerHolders :: deptRows[i].profile.id by {
      forall x | x in holders
        ensures x in set i | 0 <= i < |deptRows| && deptRows[i].profile.id in offerHolders :: deptRows[i].profile.id
      {
        var i :| 0 <= i < |ids| && ids[i] == x;
        assert deptRows[i].profile.id == x;
      }
    }
    SubsetSize(holders, Analytics.SetOf(ids));
    Analytics.SetOfSize(ids);
    |holders|
  }

  function HoldsOffer(offerHolders: seq<int>): StudentRow -> bool
  {
    (row: StudentRow) => row.profile.id in offerHolders
  }

  /** With one row per student, the count is the number of department students holding an
      offer. */
  lemma {:induction false} OffersCountStudents(deptRows: seq<StudentRow>, offerHolders: seq<int>)
    requires Analytics.NoDuplicates(ProfileIds(deptRows))
    ensures StudentsWithOffers(deptRows, offerHolders) == |Filter(HoldsOffer(offerHolders), deptRows)|
    decreases |deptRows|
  {
    var ids := ProfileIds(deptRows);
    var s := set x | x in offerHolders && x in ids;
    if deptRows == [] {
      assert s == {};
    } else {
      var tail := deptRows[1..];
      assert ProfileIds(tail) == ids[1..];
      OffersCountStudents(tail, offerHolders);
      var u := set x | x in offerHolders && x in ids[1..];
      assert forall x :: x in ids <==> x == ids[0] || x in ids[1..];
      assert ids[0] !in ids[1..];
      if ids[0] in offerHolders {
        assert s == u + {ids[0]};
      } else {
        assert s == u;
      }
    }
  }

  function OfDepartment(dept: int): StudentRow -> bool
  {
    (row: StudentRow) => row.profile.departmentId == dept
  }

  predicate IsApproved(row: StudentRow)
  {
    row.approved
  }

  /** `get_hod_stats`: the HOD's own department, its approval split and its zero-guarded rates. */
  function GetHodStats(user: Option<User>, hodProfile: Option<HodProfile>, department: Option<Department>,
                       rows: seq<StudentRow>, offerHolders: seq<int>): (r: Response<HodStats>)
    ensures (user.None? || user.value.role != Hod) ==> r == Refused(403, "Access denied")
    ensures user.Some? && user.value.role == Hod && hodProfile.None? ==> r == Refused(404, "HOD profile not found")
    ensures user.Some? && user.value.role == Hod && hodProfile.Some? && department.None? ==>
      r == Refused(404, "Department not found")
    ensures r.Ok? <==> user.Some? && user.value.role == Hod && hodProfile.Some? && department.Some?
    ensures r.Ok? ==>
      var s := r.value;
      var mine := Filter(OfDepartment(department.value.id), rows);
      && s.totalStudents == |mine|
      && s.approvedStudents == |Filter(IsApproved, mine)|
      && s.studentsWithOffers == StudentsWithOffers(mine, offerHolders)
      && s.approvalRate == Rate(s.approvedStudents, s.totalStudents)
      && s.placementRate == Rate(s.studentsWithOffers, s.totalStudents)
      && s.approvedStudents + s.pendingStudents == s.totalStudents
      && (s.totalStudents == 0 ==> s.approvalRate == 0.0 && s.placementRate == 0.0)
      && 0.0 <= s.approvalRate <= 100.0 && 0.0 <= s.placementRate <= 100.0
      && (s.approvalRate == 100.0 <==> s.totalStudents > 0 && s.pendingStudents == 0)
  {
    if user.None? || user.value.role != Hod then Refused(403, "Access denied")
    else if hodProfile.None? then Refused(404, "HOD profile not found")
    else if department.None? then Refused(404, "Department not found")
    else
      var mine := Filter(OfDepartment(department.value.id), rows);
      var approved := Filter(IsApproved, mine);
      var pending := Filter((row: StudentRow) => !row.approved, mine);
      FilterDisjointCount(IsApproved, (row: StudentRow) => !row.approved, (row: StudentRow) => true, mine);
      assert Filter((row: StudentRow) => true, mine) == mine;
      var offers := StudentsWithOffers(mine, offerHolders);
      Ok(HodStats(|mine|, |approved|, |pending|, Rate(|approved|, |mine|), Rate(offers, |mine|), offers))
  }

  /** `get_hod_stats` as written, against the declared models: the backref `hod_profile`
      is a list (`HodProfile.user` declares it without `uselist=False`). An empty list still
      gives the 404, but for a HOD with a profile `hod_profile.department` raises, and the
      handler answers 500 with the exception's text `crash`; the department check is never
      reached. Past that, the ordering by the missing `StudentApplication.created_at` would
      raise too. */
  function GetHodStatsAsWritten(user: Option<User>, hodProfile: Option<HodProfile>, crash: string): (r: Response<HodStats>)
    ensures !r.Ok?
    ensures (user.None? || user.value.role != Hod) ==> r == Refused(403, "Access denied")
    ensures user.Some? && user.value.role == Hod && hodProfile.None? ==> r == Refused(404, "HOD profile not found")
    ensures user.Some? && user.value.role == Hod && hodProfile.Some? ==> r == Refused(500, crash)
  {
    if user.None? || user.value.role != Hod then Refused(403, "Access denied")
    else if hodProfile.None? then Refused(404, "HOD profile not found")
    else Refused(500, crash)
  }

  /** Every HOD with a profile gets 500 from the handler as written, where the intended one
      answers with statistics or the department's 404; every other caller gets the intended
      refusal. */
  lemma HodStatsAsWrittenFails(user: Option<User>, hodProfile: Option<HodProfile>, department: Option<Department>,
                               rows: seq<StudentRow>, offerHolders: seq<int>, crash: string)
    ensures user.Some? && user.value.role == Hod && hodProfile.Some? ==>
      GetHodStatsAsWritten(user, hodProfile, crash) == Refused(500, crash)
      && (GetHodStats(user, hodProfile, department, rows, offerHolders).Ok? <==> department.Some?)
    ensures !(user.Some? && user.value.role == Hod && hodProfile.Some?) ==>
      GetHodStatsAsWritten(user, hodProfile, crash) == GetHodStats(user, hodProfile, department, rows, offerHolders)
  {
  }

  /** The HOD's approval rate and the share of students still pending approval add up to 100
      whenever the department has students. */
  lemma HodApprovalComplement(user: Option<User>, hodProfile: Option<HodProfile>, department: Option<Department>,
                              rows: seq<StudentRow>, offerHolders: seq<int>)
    ensures var r := GetHodStats(user, hodProfile, department, rows, offerHolders);
            r.Ok? && r.value.totalStudents > 0 ==>
              r.value.approvalRate + Rate(r.value.pendingStudents, r.value.totalStudents) == 100.0
  {
    var r := GetHodStats(user, hodProfile, department, rows, offerHolders);
    if r.Ok? && r.value.totalStudents > 0 {
      RateComplement(r.value.approvedStudents, r.value.pendingStudents);
    }
  }

  // ---------------------------------------------------------------------------------------
  // TPO statistics

  datatype TpoStats = TpoStats(totalCompanies: nat, activeDrives: nat, totalApplications: nat,
                               totalStudents: nat, totalHods: nat, placementRate: real,
                               pendingApplications: nat, activeUsers: nat)

  function HasRole(role: Role): User -> bool
  {
    (u: User) => u.role == role
  }

  /** Every user has exactly one of the three roles. */
  lemma RolesPartitionUsers(users: seq<User>)
    ensures |Filter(HasRole(Student), users)| + |Filter(HasRole(Hod), users)| + |Filter(HasRole(Tpo), users)| == |users|
  {
    var sh := (u: User) => u.role == Student || u.role == Hod;
    FilterDisjointCount(HasRole(Student), HasRole(Hod), sh, users);
    FilterDisjointCount(sh, HasRole(Tpo), (u: User) => true, users);
    assert Filter((u: User) => true, users) == users;
  }

  /** `get_tpo_stats`: system-wide counts; the active users are the students, the HODs and
      one TPO. */
  function GetTpoStats(user: Option<User>, companyActive: seq<bool>, drives: seq<Drive>,
                       apps: seq<Application>, users: seq<User>): (r: Response<TpoStats>)
    ensures (user.None? || user.value.role != Tpo) <==> r == Refused(403, "Access denied")
    ensures r.Ok? ==>
      var s := r.value;
      && s.totalCompanies == CountSet(companyActive)
      && s.totalApplications == |apps|
      && s.activeDrives == |Filter(IsActiveDrive, drives)|
      && s.totalStudents == |Filter(HasRole(Student), users)|
      && s.totalHods == |Filter(HasRole(Hod), users)|
      && s.placementRate == StudentPlacementRate(apps)
      && s.pendingApplications == |Filter(IsPending, apps)|
      && (apps == [] ==> s.placementRate == 0.0)
      && 0.0 <= s.placementRate <= 100.0
      && s.activeUsers == s.totalStudents + s.totalHods + 1
      && s.totalStudents + s.totalHods <= |users|
      && (|Filter(HasRole(Tpo), users)| == 1 ==> s.activeUsers == |users|)
  {
    if user.None? || user.value.role != Tpo then Refused(403, "Access denied")
    else
      var students := |Filter(HasRole(Student), users)|;
      var hods := |Filter(HasRole(Hod), users)|;
      RolesPartitionUsers(users);
      Ok(TpoStats(CountSet(companyActive), |Filter(IsActiveDrive, drives)|, |apps|,
                  students, hods, Rate(|Filter(IsPlaced, apps)|, |apps|), |Filter(IsPending, apps)|,
                  students + hods + 1))
  }

  /** `get_tpo_stats` as written: after the role check it joins the applications to three
      entities in one `join` call and filters them by the missing
      `StudentApplication.created_at`. Either raises, so the handler answers 500 with the
      exception's text `crash` to every TPO. */
  function GetTpoStatsAsWritten(user: Option<User>, crash: string): (r: Response<TpoStats>)
    ensures !r.Ok?
    ensures (user.None? || user.value.role != Tpo) <==> r == Refused(403, "Access denied")
    ensures user.Some? && user.value.role == Tpo ==> r == Refused(500, crash)
  {
    if user.None? || user.value.role != Tpo then Refused(403, "Access denied")
    else Refused(500, crash)
  }

  /** Every TPO gets 500 from the handler as written instead of the statistics; every other
      caller gets the intended 403. */
  lemma TpoStatsAsWrittenFails(user: Option<User>, companyActive: seq<bool>, drives: seq<Drive>,
                               apps: seq<Application>, users: seq<User>, crash: string)
    ensures user.Some? && user.value.role == Tpo ==>
      GetTpoStats(user, companyActive, drives, apps, users).Ok?
      && GetTpoStatsAsWritten(user, crash) == Refused(500, crash)
    ensures GetTpoStats(user, companyActive, drives, apps, users).Refused? ==>
      GetTpoStatsAsWritten(user, crash) == GetTpoStats(user, companyActive, drives, apps, users)
  {
  }
}

=== FILE: drivespage.dfy ===
/** The student's placement-drives page: the search, CGPA and company filters, the
    favourite and applied sets, the job-fit labels and the apply-button guard. */
module DrivesPage {
  import opened Basics
  import opened Text
  import opened Records

  /** A drive as listed for the student: the company is optional, `eligible` comes from the
      server's listing. */
  datatype ListedDrive = ListedDrive(id: int, title: string, companyName: Option<string>,
                                     jobRole: string, minCgpa: Option<real>, eligible: bool)

  /** JavaScript `a.toLowerCase().includes(b.toLowerCase())`. */
  predicate ContainsIgnoringCase(text: string, term: string)
  {
    IsInfix(Lower(term), Lower(text))
  }

  /** `drive.company?.name?.toLowerCase().includes(...)`: false when there is no company. */
  predicate CompanyContains(d: ListedDrive, term: string)
  {
    d.companyName.Some? && ContainsIgnoringCase(d.companyName.value, term)
  }

  function MatchesSearch(term: string): ListedDrive -> bool
  {
    (d: ListedDrive) => ContainsIgnoringCase(d.title, term) || CompanyContains(d, term)
                        || ContainsIgnoringCase(d.jobRole, term)
  }

  /** `!drive.min_cgpa || drive.min_cgpa <= parseFloat(filterCGPA)`; the parsed value is None
      when the text is not a number, and then every comparison is false. */
  function WithinCgpa(entered: Option<real>): ListedDrive -> bool
  {
    (d: ListedDrive) => !TruthyNumber(d.minCgpa) || (entered.Some? && d.minCgpa.value <= entered.value)
  }

  function MatchesCompany(term: string): ListedDrive -> bool
  {
    (d: ListedDrive) => CompanyContains(d, term)
  }

  /** The three filters the page applies, each only when its input is non-empty. */
  predicate Kept(d: ListedDrive, search: string, cgpaText: string, cgpa: Option<real>, company: string)
  {
    && (search != "" ==> MatchesSearch(search)(d))
    && (cgpaText != "" ==> WithinCgpa(cgpa)(d))
    && (company != "" ==> MatchesCompany(company)(d))
  }

  /** `filterDrives`: the search filter, then the CGPA filter, then the company filter. */
  function FilterDrives(drives: seq<ListedDrive>, search: string, cgpaText: string, cgpa: Option<real>,
                        company: string): (r: seq<ListedDrive>)
    ensures IsSubsequence(r, drives)
    ensures search == "" && cgpaText == "" && company == "" ==> r == drives
    ensures forall d :: d in r <==> d in drives && Kept(d, search, cgpaText, cgpa, company)
  {
    var s1 := if search != "" then Filter(MatchesSearch(search), drives) else drives;
    var s2 := if cgpaText != "" then Filter(WithinCgpa(cgpa), s1) else s1;
    var s3 := if company != "" then Filter(MatchesCompany(company), s2) else s2;
    SubsequenceReflexive(drives);
    SubsequenceReflexive(s1);
    SubsequenceReflexive(s2);
    SubsequenceTransitive(s2, s1, drives);
    SubsequenceTransitive(s3, s2, drives);
    s3
  }

  /** A drive without a minimum CGPA, or with a minimum of zero, passes any CGPA filter. */
  lemma NoFloorPassesCgpaFilter(drives: seq<ListedDrive>, cgpaText: string, cgpa: Option<real>, d: ListedDrive)
    requires d in drives && !TruthyNumber(d.minCgpa)
    ensures d in FilterDrives(drives, "", cgpaText, cgpa, "")
  {
  }

  /** A drive without a company never passes a company filter. */
  lemma NoCompanyFailsCompanyFilter(drives: seq<ListedDrive>, company: string, d: ListedDrive)
    requires company != "" && d.companyName.None?
    ensures d !in FilterDrives(drives, "", "", None, company)
  {
  }

  /** `toggleFavorite(id)`: the id's membership flips; no other id changes. */
  function ToggleFavorite(favorites: set<int>, id: int): (r: set<int>)
    ensures id in r <==> id !in favorites
    ensures forall x :: x != id ==> (x in r <==> x in favorites)
  {
    if id in favorites then favorites - {id} else favorites + {id}
  }

  /** Toggling twice restores the favourites. */
  lemma ToggleTwice(favorites: set<int>, id: int)
    ensures ToggleFavorite(ToggleFavorite(favorites, id), id) == favorites
  {
    var r := ToggleFavorite(ToggleFavorite(favorites, id), id);
    assert forall x :: x in r <==> x in favorites;
  }

  /** `handleApplyDrive`: the id joins the applied set only on an ok response. */
  function RecordApplication(applied: set<int>, id: int, ok: bool): (r: set<int>)
    ensures ok ==> r == applied + {id}
    ensures !ok ==> r == applied
  {
    if ok then applied + {id} else applied
  }

  /** The card's Apply button is disabled for an ineligible drive or one already applied to. */
  predicate ApplyDisabled(d: ListedDrive, applied: set<int>)
  {
    !d.eligible || d.id in applied
  }

  /** The details dialog's Apply button is disabled only for an ineligible drive. */
  predicate DialogApplyDisabled(d: ListedDrive)
  {
    !d.eligible
  }

  /** The dialog does not consult the applied set: after a successful application the card's
      button is disabled while the dialog's stays enabled for an eligible drive, so a second
      request can be sent from there (the server then refuses it as a duplicate). */
  lemma DialogIgnoresApplied(d: ListedDrive, applied: set<int>)
    requires d.eligible
    ensures ApplyDisabled(d, RecordApplication(applied, d.id, true))
    ensures !DialogApplyDisabled(d)
  {
  }

  /** Once an application went through, the drive's button stays disabled; a failed one
      leaves every button as it was. */
  lemma ApplyOnce(d: ListedDrive, e: ListedDrive, applied: set<int>, ok: bool)
    ensures ok ==> ApplyDisabled(d, RecordApplication(applied, d.id, ok))
    ensures !ok ==> (ApplyDisabled(e, RecordApplication(applied, d.id, ok)) <==> ApplyDisabled(e, applied))
    ensures e.id != d.id ==> (ApplyDisabled(e, RecordApplication(applied, d.id, ok)) <==> ApplyDisabled(e, applied))
  {
  }

  datatype FitLabel = Excellent | Good | Fair | Poor

  datatype FitColor = Green | Orange | Red

  /** `getJobFitText`. */
  function JobFitText(score: real): (r: FitLabel)
    ensures r == Excellent <==> score >= 80.0
    ensures r == Good <==> 60.0 <= score < 80.0
    ensures r == Fair <==> 40.0 <= score < 60.0
    ensures r == Poor <==> score < 40.0
  {
    if score >= 80.0 then Excellent
    else if score >= 60.0 then Good
    else if score >= 40.0 then Fair
    else Poor
  }

  /** `getJobFitColor`. */
  function JobFitColor(score: real): (r: FitColor)
    ensures r == Green <==> score >= 80.0
    ensures r == Orange <==> 60.0 <= score < 80.0
    ensures r == Red <==> score < 60.0
  {
    if score >= 80.0 then Green
    else if score >= 60.0 then Orange
    else Red
  }

  /** The colour agrees with the label: green for excellent, orange for good, red for fair
      and poor alike. */
  lemma ColorFollowsLabel(score: real)
    ensures JobFitColor(score) == Green <==> JobFitText(score) == Excellent
    ensures JobFitColor(score) == Orange <==> JobFitText(score) == Good
    ensures JobFitColor(score) == Red <==> JobFitText(score) in {Fair, Poor}
  {
  }

  /** How favourable a label is, worst first. */
  function LabelRank(l: FitLabel): nat
  {
    match l
    case Poor => 0
    case Fair => 1
    case Good => 2
    case Excellent => 3
  }

  /** A higher score never gets a worse label. */
  lemma LabelMonotone(a: real, b: real)
    requires a <= b
    ensures LabelRank(JobFitText(a)) <= LabelRank(JobFitText(b))
  {
  }
}

=== FILE: email.dfy ===
/** The e-mail service: sending one message, sending a stored template with `{{key}}`
    variables filled in, the welcome and application-confirmation e-mails built on it, and
    bulk sending. The mail transport is a parameter: given a message it either accepts it or
    reports the error it raised. */
module Email {
  import opened Basics
  import opened Text
  import opened Templating
  import opened Records
  import Applications

  /** A row of the e-mail template table. */
  datatype StoredTemplate = StoredTemplate(id: int, name: string, subject: string, content: string)

  /** A message as handed to the transport and logged. */
  datatype Outgoing = Outgoing(recipient: string, subject: string, content: string,
                               templateId: Option<int>, userId: Option<int>)

  /** The transport's answer: None when the message went out, otherwise the error text. */
  type Transport = Outgoing -> Option<string>

  /** The `(success, message)` pair the service returns, with the message it tried to send
      and the status it logged for it. */
  datatype Delivery = Delivery(success: bool, message: string, attempted: Option<Outgoing>,
                               logStatus: string)

  /** `send_email`: the message is logged as sent; if the transport raises, the log entry is
      marked failed and the error is reported. */
  function SendEmail(m: Outgoing, transport: Transport): (r: Delivery)
    ensures r.attempted == Some(m)
    ensures r.success <==> transport(m).None?
    ensures r.logStatus == (if r.success then "sent" else "failed")
    ensures r.success ==> r.message == "Email sent successfully"
    ensures !r.success ==> r.message == "Failed to send email: " + transport(m).value
  {
    match transport(m)
    case None => Delivery(true, "Email sent successfully", Some(m), "sent")
    case Some(err) => Delivery(false, "Failed to send email: " + err, Some(m), "failed")
  }

  /** `EmailTemplate.query.filter_by(template_name=name).first()`. */
  function FindTemplate(ts: seq<StoredTemplate>, name: string): (r: Option<StoredTemplate>)
    ensures r.None? <==> forall i :: 0 <= i < |ts| ==> ts[i].name != name
    ensures r.Some? ==> r.value in ts && r.value.name == name
    decreases |ts|
  {
    if ts == [] then None
    else if ts[0].name == name then Some(ts[0])
    else FindTemplate(ts[1..], name)
  }

  /** `send_templated_email`: an unknown name is refused before anything is sent; otherwise
      every variable's `{{key}}` is replaced, in order, in subject and content. */
  function SendTemplated(ts: seq<StoredTemplate>, recipient: string, name: string,
                         vars: seq<(string, string)>, userId: Option<int>, transport: Transport): (r: Delivery)
    ensures FindTemplate(ts, name).None? ==> !r.success && r.message == "Template not found" && r.attempted.None?
    ensures FindTemplate(ts, name).Some? ==>
      (r.attempted.Some? && r.attempted.value.recipient == recipient && r.attempted.value.userId == userId
       && r.attempted.value.templateId == Some(FindTemplate(ts, name).value.id)
       && r.attempted.value.subject == Substitute(FindTemplate(ts, name).value.subject, vars)
       && r.attempted.value.content == Substitute(FindTemplate(ts, name).value.content, vars))
    ensures r.attempted.Some? ==> (r.success <==> transport(r.attempted.value).None?)
  {
    match FindTemplate(ts, name)
    case None => Delivery(false, "Template not found", None, "")
    case Some(t) =>
      SendEmail(Outgoing(recipient, Substitute(t.subject, vars), Substitute(t.content, vars),
                         Some(t.id), userId), transport)
  }

  /** A stored template without `{{` is sent exactly as stored, whatever the variables. */
  lemma TemplatedVerbatim(ts: seq<StoredTemplate>, recipient: string, name: string,
                          vars: seq<(string, string)>, userId: Option<int>, transport: Transport)
    requires FindTemplate(ts, name).Some?
    requires !HasDoubleBrace(FindTemplate(ts, name).value.subject)
    requires !HasDoubleBrace(FindTemplate(ts, name).value.content)
    ensures var m := SendTemplated(ts, recipient, name, vars, userId, transport).attempted.value;
      m.subject == FindTemplate(ts, name).value.subject && m.content == FindTemplate(ts, name).value.content
  {
    var t := FindTemplate(ts, name).value;
    SubstituteWithoutDoubleBrace(t.subject, vars);
    SubstituteWithoutDoubleBrace(t.content, vars);
  }

  /** A template whose content is one placeholder is sent with the variable's value as its
      content. */
  lemma TemplatedFillsPlaceholder(ts: seq<StoredTemplate>, recipient: string, name: string,
                                  key: string, value: string, userId: Option<int>, transport: Transport)
    requires FindTemplate(ts, name).Some? && FindTemplate(ts, name).value.content == Placeholder(key)
    ensures SendTemplated(ts, recipient, name, [(key, value)], userId, transport).attempted.value.content == value
  {
    SubstituteSinglePlaceholder(key, value);
  }

  /** The template a new user's welcome e-mail uses. */
  function WelcomeTemplateName(role: Role): (r: string)
    ensures r == "student_welcome" <==> role == Student
    ensures r == "student_welcome" || r == "user_welcome"
  {
    if role == Student then "student_welcome" else "user_welcome"
  }

  /** The variables of the welcome e-mail, in the order the handler inserts them. */
  function WelcomeVariables(u: User, firstName: string): (r: seq<(string, string)>)
  {
    var common := [("first_name", if firstName != "" then firstName else BeforeFirst(u.email, '@')),
                   ("role", Upper(RoleName(u.role))),
                   ("email", u.email)];
    if u.role == Student then
      common + [("status", "pending_approval"), ("message", "Your account is pending approval from your HOD.")]
    else
      common + [("message", "Your account has been created successfully.")]
  }

  /** `send_welcome_email`. */
  function SendWelcome(ts: seq<StoredTemplate>, u: User, firstName: string, transport: Transport): (r: Delivery)
    ensures FindTemplate(ts, WelcomeTemplateName(u.role)).None? ==> !r.success && r.attempted.None?
    ensures r.attempted.Some? ==> r.attempted.value.recipient == u.email && r.attempted.value.userId == Some(u.id)
    ensures var t := FindTemplate(ts, WelcomeTemplateName(u.role));
            t.Some? ==>
              r.attempted.Some? && r.attempted.value.templateId == Some(t.value.id)
              && r.attempted.value.subject == Substitute(t.value.subject, WelcomeVariables(u, firstName))
              && r.attempted.value.content == Substitute(t.value.content, WelcomeVariables(u, firstName))
    ensures r.attempted.Some? ==> (r.success <==> transport(r.attempted.value).None?)
  {
    SendTemplated(ts, u.email, WelcomeTemplateName(u.role), WelcomeVariables(u, firstName), Some(u.id), transport)
  }

  /** Students are told their account awaits approval; other users get no status. */
  lemma WelcomeStatusFollowsRole(u: User, firstName: string)
    ensures Lookup(WelcomeVariables(u, firstName), "status").Some? <==> u.role == Student
    ensures u.role == Student ==> Lookup(WelcomeVariables(u, firstName), "status") == Some("pending_approval")
    ensures Lookup(WelcomeVariables(u, firstName), "message").Some?
  {
    var vs := WelcomeVariables(u, firstName);
    assert vs[0].0 == "first_name" && vs[1].0 == "role" && vs[2].0 == "email";
    if u.role == Student {
      assert |vs| == 5 && vs[3] == ("status", "pending_approval") && vs[4].0 == "message";
    } else {
      assert |vs| == 4 && vs[3].0 == "message";
    }
  }

  /** Without a first name the greeting uses the local part of the address. */
  lemma WelcomeNameDefaultsToLocalPart(u: User, local: string, domain: string)
    requires '@' !in local && u.email == local + "@" + domain
    ensures Lookup(WelcomeVariables(u, ""), "first_name") == Some(local)
    ensures Lookup(WelcomeVariables(u, "Asha"), "first_name") == Some("Asha")
  {
    BeforeFirstOfJoin(local, '@', domain);
    assert local + "@" + domain == local + ['@'] + domain;
  }

  /** The role variable is the role name in capitals. */
  lemma WelcomeRoleUpper(u: User, firstName: string)
    ensures Lookup(WelcomeVariables(u, firstName), "role") == Some(Upper(RoleName(u.role)))
    ensures u.role == Tpo ==> Upper(RoleName(u.role)) == "TPO"
  {
  }

  /** The variables of the application confirmation, in insertion order. */
  function ConfirmationVariables(c: Applications.Confirmation): seq<(string, string)>
  {
    [("student_name", c.studentName), ("company_name", c.companyName),
     ("position", c.position), ("drive_title", c.driveTitle)]
  }

  /** `send_application_confirmation`: the application-received template, sent to the
      applicant without a user id. */
  function SendConfirmation(ts: seq<StoredTemplate>, c: Applications.Confirmation, transport: Transport): (r: Delivery)
    ensures FindTemplate(ts, "application_received").None? ==> !r.success && r.attempted.None?
    ensures r.attempted.Some? ==> r.attempted.value.recipient == c.recipient && r.attempted.value.userId.None?
    ensures var t := FindTemplate(ts, "application_received");
            t.Some? ==>
              r.attempted.Some? && r.attempted.value.templateId == Some(t.value.id)
              && r.attempted.value.subject == Substitute(t.value.subject, ConfirmationVariables(c))
              && r.attempted.value.content == Substitute(t.value.content, ConfirmationVariables(c))
    ensures r.attempted.Some? ==> (r.success <==> transport(r.attempted.value).None?)
  {
    SendTemplated(ts, c.recipient, "application_received", ConfirmationVariables(c), None, transport)
  }

  /** A confirmation template that is just the `{{student_name}}` placeholder carries the
      student's name, provided the name holds no `{{` for the later variables to rewrite. */
  lemma ConfirmationNamesStudent(ts: seq<StoredTemplate>, c: Applications.Confirmation, transport: Transport)
    requires FindTemplate(ts, "application_received").Some?
    requires FindTemplate(ts, "application_received").value.content == Placeholder("student_name")
    requires !HasDoubleBrace(c.studentName)
    ensures SendConfirmation(ts, c, transport).attempted.value.content == c.studentName
  {
    var vars := ConfirmationVariables(c);
    ReplaceAllExact(Placeholder("student_name"), c.studentName);
    SubstituteWithoutDoubleBrace(c.studentName, vars[1..]);
  }

  /** One entry of a bulk send: an address and its variables, if any. */
  datatype BulkEntry = BulkEntry(email: string, variables: Option<seq<(string, string)>>)

  datatype BulkResult = BulkResult(email: string, success: bool, message: string)

  /** The message a bulk entry receives: the shared subject and content with the entry's
      variables filled in; an entry without variables gets them as written. */
  function BulkMessage(subject: string, content: string, e: BulkEntry): Outgoing
  {
    var vars := if e.variables.Some? then e.variables.value else [];
    Outgoing(e.email, Substitute(subject, vars), Substitute(content, vars), None, None)
  }

  /** `send_bulk_emails`: one result per entry, in entry order, each for that entry's address
      and reporting whether its own message went out. */
  function BulkSend(entries: seq<BulkEntry>, subject: string, content: string, transport: Transport): (r: seq<BulkResult>)
    ensures |r| == |entries|
    ensures forall i :: 0 <= i < |entries| ==>
      (r[i].email == entries[i].email
       && r[i].success == transport(BulkMessage(subject, content, entries[i])).None?
       && r[i].message == SendEmail(BulkMessage(subject, content, entries[i]), transport).message)
    decreases |entries|
  {
    if entries == [] then []
    else
      var d := SendEmail(BulkMessage(subject, content, entries[0]), transport);
      [BulkResult(entries[0].email, d.success, d.message)] + BulkSend(entries[1..], subject, content, transport)
  }

  /** A failure for one recipient does not stop the others: the results for the entries
      after it are what sending to those entries alone gives. */
  lemma {:induction false} BulkSendSplits(a: seq<BulkEntry>, b: seq<BulkEntry>, subject: string, content: string,
                                          transport: Transport)
    ensures BulkSend(a + b, subject, content, transport)
      == BulkSend(a, subject, content, transport) + BulkSend(b, subject, content, transport)
    decreases |a|
  {
    if a == [] {
      assert a + b == b;
    } else {
      assert (a + b)[0] == a[0] && (a + b)[1..] == a[1..] + b;
      BulkSendSplits(a[1..], b, subject, content, transport);
    }
  }

  /** Without `{{` in the shared texts every recipient gets them verbatim. */
  lemma BulkPlainTexts(subject: string, content: string, e: BulkEntry)
    requires !HasDoubleBrace(subject) && !HasDoubleBrace(content)
    ensures BulkMessage(subject, content, e).subject == subject
    ensures BulkMessage(subject, content, e).content == content
  {
    var vars := if e.variables.Some? then e.variables.value else [];
    SubstituteWithoutDoubleBrace(subject, vars);
    SubstituteWithoutDoubleBrace(content, vars);
  }
}

=== FILE: notifications.dfy ===
/** The notification panel's list state: marking one or all notifications read, deleting,
    the unread / high-priority filters and the two badge counts. */
module Notifications {
  import opened Basics

  datatype Notification = Notification(id: int, kind: string, title: string, message: string,
                                       read: bool, priority: string)

  predicate IsUnread(n: Notification) { !n.read }

  predicate IsHigh(n: Notification) { n.priority == "high" }

  predicate IsHighUnread(n: Notification) { n.priority == "high" && !n.read }

  function HasId(id: int): Notification -> bool
  {
    (n: Notification) => n.id == id
  }

  function LacksId(id: int): Notification -> bool
  {
    (n: Notification) => n.id != id
  }

  function UnreadWithId(id: int): Notification -> bool
  {
    (n: Notification) => n.id == id && !n.read
  }

  /** The notification as it is once read: only the flag differs. */
  function AsRead(n: Notification): (r: Notification)
    ensures r.read
    ensures r.id == n.id && r.kind == n.kind && r.title == n.title && r.message == n.message
            && r.priority == n.priority
  {
    n.(read := true)
  }

  /** `markAsRead(id)`: the entries with that id become read; every other entry, the length
      and the order stay as they were. */
  function MarkAsRead(ns: seq<Notification>, id: int): (r: seq<Notification>)
    ensures |r| == |ns|
    ensures forall i :: 0 <= i < |ns| && ns[i].id == id ==> r[i] == AsRead(ns[i])
    ensures forall i :: 0 <= i < |ns| && ns[i].id != id ==> r[i] == ns[i]
    decreases |ns|
  {
    if ns == [] then []
    else
      var head := if ns[0].id == id then AsRead(ns[0]) else ns[0];
      var r := [head] + MarkAsRead(ns[1..], id);
      assert forall i :: 0 < i < |ns| ==> r[i] == MarkAsRead(ns[1..], id)[i - 1] && ns[i] == ns[1..][i - 1];
      r
  }

  /** Marking read removes exactly that id's unread entries from the unread count. */
  lemma {:induction false} MarkAsReadUnreadCount(ns: seq<Notification>, id: int)
    ensures UnreadCount(MarkAsRead(ns, id)) + |Filter(UnreadWithId(id), ns)| == UnreadCount(ns)
    decreases |ns|
  {
    if ns != [] {
      MarkAsReadUnreadCount(ns[1..], id);
      assert MarkAsRead(ns, id)[1..] == MarkAsRead(ns[1..], id);
    }
  }

  /** Marking the same id read twice is the same as once. */
  lemma MarkAsReadIdempotent(ns: seq<Notification>, id: int)
    ensures MarkAsRead(MarkAsRead(ns, id), id) == MarkAsRead(ns, id)
  {
    var once := MarkAsRead(ns, id);
    var twice := MarkAsRead(once, id);
    assert forall i :: 0 <= i < |ns| ==> twice[i] == once[i];
  }

  /** `markAllAsRead`: every entry becomes read, each otherwise unchanged. */
  function MarkAllAsRead(ns: seq<Notification>): (r: seq<Notification>)
    ensures |r| == |ns|
    ensures forall i :: 0 <= i < |ns| ==> r[i] == AsRead(ns[i])
    decreases |ns|
  {
    if ns == [] then []
    else
      var r := [AsRead(ns[0])] + MarkAllAsRead(ns[1..]);
      assert forall i :: 0 < i < |ns| ==> r[i] == MarkAllAsRead(ns[1..])[i - 1] && ns[i] == ns[1..][i - 1];
      r
  }

  /** After marking everything read nothing is unread, so the badge and the mark-all button
      disappear. */
  lemma MarkAllClearsUnread(ns: seq<Notification>)
    ensures UnreadCount(MarkAllAsRead(ns)) == 0
    ensures HighPriorityCount(MarkAllAsRead(ns)) == 0
  {
    var r := MarkAllAsRead(ns);
    FilterNone(IsUnread, r);
    FilterNone(IsHighUnread, r);
  }

  /** `deleteNotification(id)`: the entries with other ids, in order. */
  function DeleteNotification(ns: seq<Notification>, id: int): (r: seq<Notification>)
    ensures IsSubsequence(r, ns)
    ensures forall i :: 0 <= i < |r| ==> r[i].id != id
    ensures forall i :: 0 <= i < |ns| && ns[i].id != id ==> ns[i] in r
  {
    Filter(LacksId(id), ns)
  }

  /** Deleting removes exactly as many entries as carry the id. */
  lemma DeleteCount(ns: seq<Notification>, id: int)
    ensures |DeleteNotification(ns, id)| + |Filter(HasId(id), ns)| == |ns|
  {
    FilterDisjointCount(LacksId(id), HasId(id), (n: Notification) => true, ns);
  }

  /** `filteredNotifications`: "unread" and "high" select their class; anything else shows
      the whole list. */
  function FilteredNotifications(ns: seq<Notification>, filter: string): (r: seq<Notification>)
    ensures IsSubsequence(r, ns)
    ensures filter == "unread" ==> forall i :: 0 <= i < |r| ==> !r[i].read
    ensures filter == "high" ==> forall i :: 0 <= i < |r| ==> r[i].priority == "high"
    ensures filter == "unread" ==> forall i :: 0 <= i < |ns| && !ns[i].read ==> ns[i] in r
    ensures filter == "high" ==> forall i :: 0 <= i < |ns| && ns[i].priority == "high" ==> ns[i] in r
    ensures filter != "unread" && filter != "high" ==> r == ns
  {
    if filter == "unread" then Filter(IsUnread, ns)
    else if filter == "high" then Filter(IsHigh, ns)
    else SubsequenceReflexive(ns); ns
  }

  /** `unreadCount`. */
  function UnreadCount(ns: seq<Notification>): (r: nat)
    ensures r <= |ns|
    ensures r == 0 <==> forall i :: 0 <= i < |ns| ==> ns[i].read
  {
    var u := Filter(IsUnread, ns);
    if |u| == 0 then FilterNoneIff(IsUnread, ns); 0
    else assert u[0] in ns && !u[0].read; |u|
  }

  /** `highPriorityCount`: high priority and unread. */
  function HighPriorityCount(ns: seq<Notification>): nat
  {
    |Filter(IsHighUnread, ns)|
  }

  /** The high-priority badge never exceeds the unread badge, which never exceeds the list. */
  lemma CountsOrdered(ns: seq<Notification>)
    ensures HighPriorityCount(ns) <= UnreadCount(ns) <= |ns|
  {
    FilterImpliesCount(IsHighUnread, IsUnread, ns);
  }

  /** Clicking an entry marks it read when it is unread and changes nothing otherwise. */
  function Click(ns: seq<Notification>, n: Notification): (r: seq<Notification>)
    ensures n.read ==> r == ns
    ensures !n.read ==> r == MarkAsRead(ns, n.id)
  {
    if !n.read then MarkAsRead(ns, n.id) else ns
  }

  /** A click on a listed unread entry lowers the unread count. */
  lemma ClickUnreadLowersCount(ns: seq<Notification>, k: nat)
    requires k < |ns| && !ns[k].read
    ensures UnreadCount(Click(ns, ns[k])) < UnreadCount(ns)
  {
    MarkAsReadUnreadCount(ns, ns[k].id);
    assert ns[k] in Filter(UnreadWithId(ns[k].id), ns);
  }
}

=== FILE: pieces.dfy ===
/** The form the AI service's built-in e-mail templates are written in: literal text and
    single-brace slots `{name}`, neither of which holds an opening brace of its own. */
module Pieces {

  type PlainChar = c: char | c != '{'

  /** Text with no opening brace. */
  type Plain = seq<PlainChar>

  type NameChar = c: char | c != '{' && c != '}'

  /** A slot name: no brace of either kind. */
  type Name = seq<NameChar>

  /** A built-in template written as literal text and single-brace slots `{name}`; neither
      the text nor a slot name contains an opening brace of its own. */
  datatype Piece = Lit(text: Plain) | Slot(name: Name)

  function RenderPiece(p: Piece): string
  {
    match p
    case Lit(t) => t
    case Slot(n) => "{" + n + "}"
  }

  function Render(ps: seq<Piece>): string
    decreases |ps|
  {
    if ps == [] then "" else RenderPiece(ps[0]) + Render(ps[1..])
  }

  lemma {:induction false} RenderConcat(a: seq<Piece>, b: seq<Piece>)
    ensures Render(a + b) == Render(a) + Render(b)
    decreases |a|
  {
    if a != [] {
      assert (a + b)[0] == a[0];
      assert (a + b)[1..] == a[1..] + b;
      RenderConcat(a[1..], b);
    } else {
      assert a + b == b;
    }
  }
}

=== FILE: profileview.dfy ===
/** The student profile page's completion meter: eight fields, each complete when it is a
    truthy JavaScript value that is a non-empty array or has non-blank text, shown as a
    rounded percentage. */
module ProfileView {
  import opened Basics
  import opened Text

  /** The JavaScript values a profile field can hold. */
  datatype JsValue = Missing | Str(s: string) | Num(x: real) | Arr(items: seq<string>)

  /** JavaScript truthiness (NaN is not modelled). */
  predicate Truthy(v: JsValue)
  {
    match v
    case Missing => false
    case Str(s) => s != ""
    case Num(x) => x != 0.0
    case Arr(_) => true
  }

  /** The text `toString()` gives, as far as its blankness goes: a number always prints
      digits. */
  predicate BlankText(v: JsValue)
    requires !v.Arr?
  {
    match v
    case Missing => true
    case Str(s) => Strip(s) == ""
    case Num(_) => false
  }

  /** `field && (Array.isArray(field) ? field.length > 0 : field.toString().trim() !== '')`. */
  predicate Complete(v: JsValue)
  {
    Truthy(v) && (if v.Arr? then |v.items| > 0 else !BlankText(v))
  }

  /** A field is complete exactly when it is a non-empty array, a non-zero number, or text
      with a non-space character. */
  lemma CompleteIff(v: JsValue)
    ensures Complete(v) <==> (v.Arr? && v.items != []) || (v.Num? && v.x != 0.0) || (v.Str? && !Blank(v.s))
  {
    if v.Str? {
      StripEmptyIffBlank(v.s);
      assert v.s == "" ==> Blank(v.s);
    }
  }

  /** A CGPA of zero, an empty list and whitespace all count as missing. */
  lemma EmptyValuesIncomplete()
    ensures !Complete(Num(0.0)) && !Complete(Arr([])) && !Complete(Str(" "))
  {
    CompleteIff(Str(" "));
    assert Blank(" ") by { assert IsSpace(" "[0]); }
  }

  datatype ProfileFields = ProfileFields(firstName: JsValue, lastName: JsValue, cgpa: JsValue,
                                         phone: JsValue, resumeFile: JsValue, skills: JsValue,
                                         education: JsValue, experience: JsValue)

  /** The eight fields in the order the page lists them, as completion flags. */
  function Flags(p: ProfileFields): (r: seq<bool>)
    ensures |r| == 8
  {
    [Complete(p.firstName), Complete(p.lastName), Complete(p.cgpa), Complete(p.phone),
     Complete(p.resumeFile), Complete(p.skills), Complete(p.education), Complete(p.experience)]
  }

  /** `Math.round(x)`: the nearest integer, halves rounded up. */
  function RoundHalfUp(x: real): int
  {
    (x + 0.5).Floor
  }

  /** The percentage shown for k of the eight fields complete. */
  function Percent(k: nat): (r: int)
    requires k <= 8
    ensures r == (25 * k + 1) / 2
    ensures 0 <= r <= 100
    ensures r == 100 <==> k == 8
    ensures r == 0 <==> k == 0
  {
    var r := RoundHalfUp(k as real / 8.0 * 100.0);
    assert r == (25 * k + 1) / 2 by {
      if k == 0 {} else if k == 1 {} else if k == 2 {} else if k == 3 {} else if k == 4 {}
      else if k == 5 {} else if k == 6 {} else if k == 7 {} else {}
    }
    r
  }

  /** More complete fields never show a lower percentage. */
  lemma PercentMonotone(j: nat, k: nat)
    requires j <= k <= 8
    ensures Percent(j) <= Percent(k)
  {
  }

  /** `calculateProfileCompletion`: zero without a profile. */
  function ProfileCompletion(profile: Option<ProfileFields>): (r: int)
    ensures profile.None? ==> r == 0
    ensures profile.Some? ==> r == Percent(CountSet(Flags(profile.value)))
    ensures 0 <= r <= 100
    ensures profile.Some? ==> (r == 100 <==> forall i :: 0 <= i < 8 ==> Flags(profile.value)[i])
    ensures profile.Some? ==> (r == 0 <==> forall i :: 0 <= i < 8 ==> !Flags(profile.value)[i])
  {
    if profile.None? then 0 else Percent(CountSet(Flags(profile.value)))
  }

  /** Completing more fields never lowers the meter. */
  lemma CompletionMonotone(p: ProfileFields, q: ProfileFields)
    requires forall i :: 0 <= i < 8 ==> Flags(p)[i] ==> Flags(q)[i]
    ensures ProfileCompletion(Some(p)) <= ProfileCompletion(Some(q))
  {
    CountSetMonotone(Flags(p), Flags(q));
    PercentMonotone(CountSet(Flags(p)), CountSet(Flags(q)));
  }
}

=== FILE: records.dfy ===
/** The portal's persistent records, reduced to the columns the modelled operations read or
    write. Nullable text columns are `string` with "" standing for NULL (the handlers only
    test them for truthiness); nullable numbers and JSON list columns are `Option`s. */
module Records {
  import opened Basics

  /** Application statuses as the code spells them; the vocabulary differs between files,
      so a status is a plain string and these are the spellings the modelled code tests. */
  const Applied := "applied"
  const UnderReview := "under_review"
  const Shortlisted := "shortlisted"
  const InterviewScheduled := "interview_scheduled"
  const InterviewCompleted := "interview_completed"
  const Selected := "selected"
  const OfferAccepted := "offer_accepted"
  const Rejected := "rejected"
  const Placed := "placed"

  /** A drive accepts applications only in this status. */
  const ActiveDrive := "active"

  datatype Role = Student | Hod | Tpo

  function RoleName(r: Role): string
  {
    match r
    case Student => "student"
    case Hod => "hod"
    case Tpo => "tpo"
  }

  /** The three role strings the registration endpoint accepts. */
  function ParseRole(s: string): (r: Option<Role>)
    ensures r.Some? <==> s in ["student", "hod", "tpo"]
    ensures r.Some? ==> RoleName(r.value) == s
  {
    if s == "student" then Some(Student)
    else if s == "hod" then Some(Hod)
    else if s == "tpo" then Some(Tpo)
    else None
  }

  lemma ParseRoleName(r: Role)
    ensures ParseRole(RoleName(r)) == Some(r)
  {
  }

  /** The stored password stands in for its hash: checking a password is equality. */
  datatype User = User(id: int, email: string, password: string, role: Role,
                       isActive: bool, isApproved: bool)

  datatype Department = Department(id: int, name: string, hodUserId: Option<int>)

  datatype StudentProfile = StudentProfile(
    id: int, userId: int, studentCode: string,
    firstName: string, lastName: string, departmentId: int, batchYear: int,
    cgpa: Option<real>, phone: string, dateOfBirth: string, gender: string, address: string,
    profileImage: string, resumeFile: string,
    skills: Option<seq<string>>, experience: Option<seq<string>>, education: Option<seq<string>>,
    isActive: bool)

  datatype HodProfile = HodProfile(
    id: int, userId: int, employeeCode: string, firstName: string, lastName: string,
    departmentId: int, phone: string, qualification: string, experienceYears: int, isActive: bool)

  datatype Drive = Drive(
    id: int, companyId: int, companyName: Option<string>, title: string, jobRole: string,
    status: string, minCgpa: Option<real>, requiredSkills: Option<seq<string>>)

  datatype Application = Application(
    studentId: int, driveId: int, status: string, aiScore: Option<real>, appliedAt: DateTime)

  /** A naive `datetime`: calendar date plus the second within the day. */
  datatype DateTime = DateTime(year: int, month: int, day: int, second: int)

  predicate IsLeapYear(y: int)
  {
    (y % 4 == 0 && y % 100 != 0) || y % 400 == 0
  }

  function DaysInMonth(y: int, m: int): (r: int)
    requires 1 <= m <= 12
    ensures 28 <= r <= 31
    ensures r == 29 <==> m == 2 && IsLeapYear(y)
    ensures r == 28 <==> m == 2 && !IsLeapYear(y)
    ensures r == 30 <==> m == 4 || m == 6 || m == 9 || m == 11
    ensures r == 31 <==> m == 1 || m == 3 || m == 5 || m == 7 || m == 8 || m == 10 || m == 12
  {
    if m == 2 then (if IsLeapYear(y) then 29 else 28)
    else if m == 4 || m == 6 || m == 9 || m == 11 then 30
    else 31
  }

  /** The days of months 1 to m of year y. */
  function DaysThrough(y: int, m: int): int
    requires 0 <= m <= 12
  {
    if m == 0 then 0 else DaysThrough(y, m - 1) + DaysInMonth(y, m)
  }

  /** The twelve months make up the calendar year: 366 days in a leap year, 365 otherwise. */
  lemma {:induction false} MonthsMakeYear(y: int)
    ensures DaysThrough(y, 12) == if IsLeapYear(y) then 366 else 365
  {
    var feb := DaysInMonth(y, 2);
    assert DaysThrough(y, 1) == 31;
    assert DaysThrough(y, 2) == 31 + feb;
    assert DaysThrough(y, 3) == 62 + feb;
    assert DaysThrough(y, 4) == 92 + feb;
    assert DaysThrough(y, 5) == 123 + feb;
    assert DaysThrough(y, 6) == 153 + feb;
    assert DaysThrough(y, 7) == 184 + feb;
    assert DaysThrough(y, 8) == 215 + feb;
    assert DaysThrough(y, 9) == 245 + feb;
    assert DaysThrough(y, 10) == 276 + feb;
    assert DaysThrough(y, 11) == 306 + feb;
  }

  predicate ValidDateTime(t: DateTime)
  {
    1 <= t.month <= 12 && 1 <= t.day <= DaysInMonth(t.year, t.month) && 0 <= t.second < 86400
  }

  /** Chronological order: year, then month, then day, then time of day. */
  predicate NotAfter(a: DateTime, b: DateTime)
  {
    a.year < b.year
    || (a.year == b.year && (a.month < b.month
    || (a.month == b.month && (a.day < b.day
    || (a.day == b.day && a.second <= b.second)))))
  }

  lemma NotAfterTotal(a: DateTime, b: DateTime)
    ensures NotAfter(a, b) || NotAfter(b, a)
    ensures NotAfter(a, b) && NotAfter(b, a) ==> a == b
  {
  }

  lemma NotAfterTransitive(a: DateTime, b: DateTime, c: DateTime)
    requires NotAfter(a, b) && NotAfter(b, c)
    ensures NotAfter(a, c)
  {
  }

  /** Python truthiness of a nullable number: NULL and zero are false. */
  predicate TruthyNumber(x: Option<real>)
  {
    x.Some? && x.value != 0.0
  }

  /** Python truthiness of a nullable text column ("" stands for NULL). */
  predicate TruthyText(s: string)
  {
    s != ""
  }

  /** `get_skills()`-style accessors: a NULL JSON column reads as the empty list. */
  function ListOrEmpty(x: Option<seq<string>>): (r: seq<string>)
    ensures x.None? ==> r == []
    ensures x.Some? ==> r == x.value
  {
    if x.Some? then x.value else []
  }
}

=== FILE: templating.dfy ===
/** Placeholder substitution as the e-mail and AI services perform it: every `{{key}}`
    in a template is replaced by the variable's value, one variable after another, using
    Python's `str.replace` (all non-overlapping occurrences, scanned left to right). */
module Templating {
  import opened Basics
  import opened Text
  import opened Pieces

  /** Python `s.replace(pat, v)` for a non-empty pattern. */
  function ReplaceAll(s: string, pat: string, v: string): string
    requires |pat| > 0
    decreases |s|
  {
    if |s| < |pat| then s
    else if s[..|pat|] == pat then v + ReplaceAll(s[|pat|..], pat, v)
    else [s[0]] + ReplaceAll(s[1..], pat, v)
  }

  /** An occurrence inside a suffix is an occurrence in the whole text. */
  lemma InfixOfTail(pat: string, s: string)
    requires s != []
    requires IsInfix(pat, s[1..])
    ensures IsInfix(pat, s)
  {
    var i :| 0 <= i <= |s[1..]| - |pat| && OccursAt(pat, s[1..], i);
    assert s[i + 1..i + 1 + |pat|] == s[1..][i..i + |pat|];
    assert OccursAt(pat, s, i + 1);
  }

  /** Text in which the pattern does not occur is returned unchanged by `replace`. */
  lemma {:induction false} ReplaceAllWithoutMatch(s: string, pat: string, v: string)
    requires |pat| > 0
    requires !IsInfix(pat, s)
    ensures ReplaceAll(s, pat, v) == s
    decreases |s|
  {
    if |s| >= |pat| {
      assert !OccursAt(pat, s, 0);
      if IsInfix(pat, s[1..]) {
        InfixOfTail(pat, s);
      }
      ReplaceAllWithoutMatch(s[1..], pat, v);
    }
  }

  /** Replacing a pattern by itself changes nothing. */
  lemma {:induction false} ReplaceAllBySelf(s: string, pat: string)
    requires |pat| > 0
    ensures ReplaceAll(s, pat, pat) == s
    decreases |s|
  {
    if |s| >= |pat| {
      if s[..|pat|] == pat {
        ReplaceAllBySelf(s[|pat|..], pat);
        assert s == s[..|pat|] + s[|pat|..];
      } else {
        ReplaceAllBySelf(s[1..], pat);
        assert s == [s[0]] + s[1..];
      }
    }
  }

  /** A text that is exactly the pattern is rewritten into the value. */
  lemma ReplaceAllExact(pat: string, v: string)
    requires |pat| > 0
    ensures ReplaceAll(pat, pat, v) == v
  {
    assert pat[..|pat|] == pat;
    assert pat[|pat|..] == [];
  }

  /** The placeholder `{{key}}` the services build with an f-string. */
  function Placeholder(key: string): (r: string)
    ensures |r| == |key| + 4
    ensures r[..2] == "{{" && r[2..|r| - 2] == key && r[|r| - 2..] == "}}"
  {
    "{{" + key + "}}"
  }

  /** The variables are applied in the order the mapping yields them. */
  function Substitute(s: string, vars: seq<(string, string)>): string
    decreases |vars|
  {
    if vars == [] then s
    else Substitute(ReplaceAll(s, Placeholder(vars[0].0), vars[0].1), vars[1..])
  }

  predicate HasDoubleBrace(s: string)
  {
    IsInfix("{{", s)
  }

  /** Every placeholder begins with `{{`, so text with no `{{` contains no placeholder. */
  lemma PlaceholderNeedsDoubleBrace(s: string, key: string)
    requires !HasDoubleBrace(s)
    ensures !IsInfix(Placeholder(key), s)
  {
    var p := Placeholder(key);
    if IsInfix(p, s) {
      var i :| 0 <= i <= |s| - |p| && OccursAt(p, s, i);
      assert s[i..i + |p|] == p;
      assert s[i..i + 2] == s[i..i + |p|][..2];
      assert OccursAt("{{", s, i);
    }
  }

  /** Substitution rewrites only the double-brace form: text without `{{` passes through
      whatever the variables are. */
  lemma {:induction false} SubstituteWithoutDoubleBrace(s: string, vars: seq<(string, string)>)
    requires !HasDoubleBrace(s)
    ensures Substitute(s, vars) == s
    decreases |vars|
  {
    if vars != [] {
      PlaceholderNeedsDoubleBrace(s, vars[0].0);
      ReplaceAllWithoutMatch(s, Placeholder(vars[0].0), vars[0].1);
      SubstituteWithoutDoubleBrace(s, vars[1..]);
    }
  }

  /** Substitution with a variable present does rewrite: a template that is exactly one
      placeholder becomes the variable's value. */
  lemma SubstituteSinglePlaceholder(key: string, value: string)
    ensures Substitute(Placeholder(key), [(key, value)]) == value
  {
    ReplaceAllExact(Placeholder(key), value);
  }

  /** Every `{` is immediately followed by something other than `{`. */
  predicate BracesIsolated(s: string)
  {
    forall i :: 0 <= i < |s| && s[i] == '{' ==> i + 1 < |s| && s[i + 1] != '{'
  }

  lemma BracesIsolatedConcat(a: string, b: string)
    requires BracesIsolated(a) && BracesIsolated(b)
    ensures BracesIsolated(a + b)
  {
    var s := a + b;
    forall i | 0 <= i < |s| && s[i] == '{'
      ensures i + 1 < |s| && s[i + 1] != '{'
    {
      if i < |a| {
        assert a[i] == '{';
      } else {
        assert b[i - |a|] == '{';
      }
    }
  }

  lemma {:induction false} RenderBracesIsolated(ps: seq<Piece>)
    ensures BracesIsolated(Render(ps))
    decreases |ps|
  {
    if ps != [] {
      var head := RenderPiece(ps[0]);
      match ps[0] {
        case Lit(t) =>
          assert BracesIsolated(head);
        case Slot(n) =>
          assert head == ['{'] + n + ['}'];
          forall i | 0 < i < |head|
            ensures head[i] != '{'
          {
            if i <= |n| {
              assert head[i] == n[i - 1];
            }
          }
      }
      RenderBracesIsolated(ps[1..]);
      BracesIsolatedConcat(head, Render(ps[1..]));
    }
  }

  /** A template built from brace-free literals and single-brace slots has no `{{`. */
  lemma RenderedHasNoDoubleBrace(ps: seq<Piece>)
    ensures !HasDoubleBrace(Render(ps))
  {
    var s := Render(ps);
    RenderBracesIsolated(ps);
    forall i | 0 <= i <= |s| - 2
      ensures !OccursAt("{{", s, i)
    {
      assert s[i..i + 2] == [s[i], s[i + 1]];
    }
  }

  /** So substitution into such a template returns it verbatim. */
  lemma SubstituteRenderedVerbatim(ps: seq<Piece>, vars: seq<(string, string)>)
    ensures Substitute(Render(ps), vars) == Render(ps)
  {
    RenderedHasNoDoubleBrace(ps);
    SubstituteWithoutDoubleBrace(Render(ps), vars);
  }

  /** The single-brace form `{key}` the built-in templates are written in. */
  function SlotPlaceholder(key: string): (r: string)
    ensures |r| == |key| + 2 && r[0] == '{' && r[1..|r| - 1] == key && r[|r| - 1] == '}'
  {
    "{" + key + "}"
  }

  /** The variables applied in order, each replacing its single-brace placeholder. */
  function FillSlots(s: string, vars: seq<(string, string)>): string
    decreases |vars|
  {
    if vars == [] then s
    else FillSlots(ReplaceAll(s, SlotPlaceholder(vars[0].0), vars[0].1), vars[1..])
  }

  /** Where the pattern does not start, `replace` keeps the first character and moves on. */
  lemma ReplaceAllStep(s: string, pat: string, v: string)
    requires |pat| > 0 && s != []
    requires !(|s| >= |pat| && s[..|pat|] == pat)
    ensures ReplaceAll(s, pat, v) == [s[0]] + ReplaceAll(s[1..], pat, v)
  {
  }

  /** A pattern that opens with `{` cannot start inside brace-free text. */
  lemma {:induction false} ReplaceAllPlainPrefix(a: string, b: string, pat: string, v: string)
    requires |pat| > 0 && pat[0] == '{' && '{' !in a
    ensures ReplaceAll(a + b, pat, v) == a + ReplaceAll(b, pat, v)
    decreases |a|
  {
    if a != [] {
      var s := a + b;
      assert s[0] == a[0] && s[1..] == a[1..] + b;
      assert |s| >= |pat| ==> s[..|pat|][0] == a[0];
      ReplaceAllStep(s, pat, v);
      assert '{' !in a[1..] by {
        forall i | 0 <= i < |a[1..]| ensures a[1..][i] != '{' {
          assert a[1..][i] == a[i + 1];
        }
      }
      ReplaceAllPlainPrefix(a[1..], b, pat, v);
      assert a == [a[0]] + a[1..];
    } else {
      assert a + b == b;
    }
  }

  /** One variable filled in at the piece level: its slots become its value. */
  function FillPieces(ps: seq<Piece>, key: Name, v: Plain): (r: seq<Piece>)
    ensures |r| == |ps|
    ensures forall j :: 0 <= j < |ps| ==> r[j] == (if ps[j] == Slot(key) then Lit(v) else ps[j])
    decreases |ps|
  {
    if ps == [] then []
    else [if ps[0] == Slot(key) then Lit(v) else ps[0]] + FillPieces(ps[1..], key, v)
  }

  /** A slot with another name is not an occurrence of `{key}`: the two differ at some
      position the placeholder covers. */
  lemma OtherSlotNoMatch(n: Name, key: Name, rest: string)
    requires n != key
    ensures var s := "{" + n + "}" + rest; var pat := SlotPlaceholder(key);
      !(|s| >= |pat| && s[..|pat|] == pat)
  {
    var s := "{" + n + "}" + rest;
    var pat := SlotPlaceholder(key);
    var k: int;
    if |key| == |n| {
      var i :| 0 <= i < |n| && n[i] != key[i];
      k := i + 1;
      assert s[k] == n[i];
    } else if |key| < |n| {
      k := |key| + 1;
      assert s[k] == n[|key|];
      assert n[|key|] in n;
    } else {
      k := |n| + 1;
      assert pat[k] == key[|n|];
      assert key[|n|] in key;
    }
    assert 0 <= k < |pat| && k < |s| && s[k] != pat[k];
  }

  lemma LitReplaced(t: Plain, ps: seq<Piece>, key: Name, v: Plain)
    requires ReplaceAll(Render(ps), SlotPlaceholder(key), v) == Render(FillPieces(ps, key, v))
    ensures ReplaceAll(Render([Lit(t)] + ps), SlotPlaceholder(key), v)
      == Render(FillPieces([Lit(t)] + ps, key, v))
  {
    var qs := [Lit(t)] + ps;
    assert qs[1..] == ps;
    assert FillPieces(qs, key, v) == [Lit(t)] + FillPieces(ps, key, v);
    ReplaceAllPlainPrefix(t, Render(ps), SlotPlaceholder(key), v);
  }

  lemma SlotReplaced(ps: seq<Piece>, key: Name, v: Plain)
    requires ReplaceAll(Render(ps), SlotPlaceholder(key), v) == Render(FillPieces(ps, key, v))
    ensures ReplaceAll(Render([Slot(key)] + ps), SlotPlaceholder(key), v)
      == Render(FillPieces([Slot(key)] + ps, key, v))
  {
    var qs := [Slot(key)] + ps;
    var pat := SlotPlaceholder(key);
    var s := Render(qs);
    assert qs[1..] == ps;
    assert s == pat + Render(ps);
    assert s[..|pat|] == pat && s[|pat|..] == Render(ps);
    assert FillPieces(qs, key, v) == [Lit(v)] + FillPieces(ps, key, v);
  }

  /** `replace` of `{key}` passes over a slot with another name. */
  lemma OtherSlotText(n: Name, key: Name, rest: string, v: string)
    requires n != key
    ensures ReplaceAll("{" + n + "}" + rest, SlotPlaceholder(key), v)
      == "{" + n + "}" + ReplaceAll(rest, SlotPlaceholder(key), v)
  {
    var pat := SlotPlaceholder(key);
    var tail := n + "}";
    var s := "{" + n + "}" + rest;
    NameTailPlain(n);
    OtherSlotNoMatch(n, key, rest);
    ReplaceAllStep(s, pat, v);
    assert s[0] == '{' && s[1..] == tail + rest;
    ReplaceAllPlainPrefix(tail, rest, pat, v);
    assert [s[0]] + (tail + ReplaceAll(rest, pat, v)) == "{" + n + "}" + ReplaceAll(rest, pat, v);
  }

  /** A name and its closing brace hold no opening brace. */
  lemma NameTailPlain(n: Name)
    ensures '{' !in n + "}"
  {
    var tail := n + "}";
    forall i | 0 <= i < |tail| ensures tail[i] != '{' {
      if i < |n| { assert tail[i] == n[i]; }
    }
  }


  lemma OtherSlotKept(n: Name, ps: seq<Piece>, key: Name, v: Plain)
    requires n != key
    requires ReplaceAll(Render(ps), SlotPlaceholder(key), v) == Render(FillPieces(ps, key, v))
    ensures ReplaceAll(Render([Slot(n)] + ps), SlotPlaceholder(key), v)
      == Render(FillPieces([Slot(n)] + ps, key, v))
  {
    var qs := [Slot(n)] + ps;
    assert qs[1..] == ps;
    assert Render(qs) == "{" + n + "}" + Render(ps);
    assert FillPieces(qs, key, v) == [Slot(n)] + FillPieces(ps, key, v);
    OtherSlotText(n, key, Render(ps), v);
  }

  /** `replace` with a single-brace placeholder on a rendered template fills exactly the
      slots of that name. */
  lemma {:induction false} ReplaceSlotRendered(ps: seq<Piece>, key: Name, v: Plain)
    ensures ReplaceAll(Render(ps), SlotPlaceholder(key), v) == Render(FillPieces(ps, key, v))
    decreases |ps|
  {
    if ps != [] {
      ReplaceSlotRendered(ps[1..], key, v);
      assert ps == [ps[0]] + ps[1..];
      match ps[0] {
        case Lit(t) => LitReplaced(t, ps[1..], key, v);
        case Slot(n) =>
          if n == key {
            SlotReplaced(ps[1..], key, v);
          } else {
            OtherSlotKept(n, ps[1..], key, v);
          }
      }
    }
  }

  /** Variables that can be filled in at the piece level: brace-free names and values. */
  predicate SlotSafe(vars: seq<(string, string)>)
  {
    forall i :: 0 <= i < |vars| ==> '{' !in vars[i].0 && '}' !in vars[i].0 && '{' !in vars[i].1
  }

  /** The value of the first variable with that name. */
  function Lookup(vars: seq<(string, string)>, key: string): (r: Option<string>)
    ensures r.None? <==> forall i :: 0 <= i < |vars| ==> vars[i].0 != key
    ensures r.Some? ==> exists i :: 0 <= i < |vars| && vars[i] == (key, r.value)
    decreases |vars|
  {
    if vars == [] then None
    else if vars[0].0 == key then Some(vars[0].1)
    else Lookup(vars[1..], key)
  }

  /** A piece after filling: a slot some variable names becomes that variable's value. */
  function FillWith(p: Piece, vars: seq<(string, string)>): Piece
    requires SlotSafe(vars)
  {
    if p.Slot? && Lookup(vars, p.name).Some? then Lit(Lookup(vars, p.name).value) else p
  }

  /** Every variable filled in, in order, at the piece level. */
  function FillAll(ps: seq<Piece>, vars: seq<(string, string)>): (r: seq<Piece>)
    requires SlotSafe(vars)
    ensures |r| == |ps|
    ensures forall j :: 0 <= j < |ps| ==> r[j] == FillWith(ps[j], vars)
    decreases |vars|
  {
    if vars == [] then ps
    else
      var r := FillAll(FillPieces(ps, vars[0].0, vars[0].1), vars[1..]);
      assert forall j :: 0 <= j < |ps| ==> r[j] == FillWith(ps[j], vars) by {
        forall j | 0 <= j < |ps|
          ensures r[j] == FillWith(ps[j], vars)
        {
          var q := FillPieces(ps, vars[0].0, vars[0].1)[j];
          assert r[j] == FillWith(q, vars[1..]);
        }
      }
      r
  }

  /** Filling the text of a rendered template is rendering the filled template. */
  lemma {:induction false} FillSlotsRendered(ps: seq<Piece>, vars: seq<(string, string)>)
    requires SlotSafe(vars)
    ensures FillSlots(Render(ps), vars) == Render(FillAll(ps, vars))
    decreases |vars|
  {
    if vars != [] {
      ReplaceSlotRendered(ps, vars[0].0, vars[0].1);
      FillSlotsRendered(FillPieces(ps, vars[0].0, vars[0].1), vars[1..]);
      assert FillAll(ps, vars) == FillAll(FillPieces(ps, vars[0].0, vars[0].1), vars[1..]);
    }
  }
}

=== FILE: text.dfy ===
/** String helpers with the meaning the portal's Python and JavaScript code relies on:
    ASCII case mapping, whitespace trimming, substring search and the "text after the last
    separator" split used for file extensions. */
module Text {

  function LowerChar(c: char): char
  {
    if 'A' <= c <= 'Z' then (c as int + 32) as char else c
  }

  function UpperChar(c: char): char
  {
    if 'a' <= c <= 'z' then (c as int - 32) as char else c
  }

  /** Python `str.lower()` / JavaScript `toLowerCase()`, restricted to ASCII letters. */
  function Lower(s: string): (r: string)
    ensures |r| == |s|
    ensures forall i :: 0 <= i < |s| ==> r[i] == LowerChar(s[i])
  {
    seq(|s|, i requires 0 <= i < |s| => LowerChar(s[i]))
  }

  /** Python `str.upper()`, restricted to ASCII letters. */
  function Upper(s: string): (r: string)
    ensures |r| == |s|
    ensures forall i :: 0 <= i < |s| ==> r[i] == UpperChar(s[i])
  {
    seq(|s|, i requires 0 <= i < |s| => UpperChar(s[i]))
  }

  /** Lower-casing leaves no capital letter, keeps every other character, and changes nothing
      that upper-casing can see. */
  lemma LowerMeaning(s: string)
    ensures |Lower(s)| == |s|
    ensures forall i :: 0 <= i < |s| ==> !('A' <= Lower(s)[i] <= 'Z')
    ensures forall i :: 0 <= i < |s| && !('A' <= s[i] <= 'Z') ==> Lower(s)[i] == s[i]
    ensures Upper(Lower(s)) == Upper(s)
  {
  }

  /** Upper-casing leaves no small letter, keeps every other character, and changes nothing
      that lower-casing can see. */
  lemma UpperMeaning(s: string)
    ensures |Upper(s)| == |s|
    ensures forall i :: 0 <= i < |s| ==> !('a' <= Upper(s)[i] <= 'z')
    ensures forall i :: 0 <= i < |s| && !('a' <= s[i] <= 'z') ==> Upper(s)[i] == s[i]
    ensures Lower(Upper(s)) == Lower(s)
  {
  }

  lemma LowerIdempotent(s: string)
    ensures Lower(Lower(s)) == Lower(s)
  {
  }

  lemma LowerConcat(a: string, b: string)
    ensures Lower(a + b) == Lower(a) + Lower(b)
  {
  }

  /** The ASCII whitespace characters that both `str.strip()` and `String.prototype.trim()` remove. */
  predicate IsSpace(c: char)
  {
    c == ' ' || c == '\t' || c == '\n' || c == '\r' || c == '\U{0B}' || c == '\U{0C}'
  }

  predicate Blank(s: string)
  {
    forall i :: 0 <= i < |s| ==> IsSpace(s[i])
  }

  /** Drops leading whitespace: the result is the suffix of s that starts at its first non-space. */
  function TrimStart(s: string): (r: string)
    ensures |r| <= |s| && r == s[|s| - |r|..]
    ensures forall i :: 0 <= i < |s| - |r| ==> IsSpace(s[i])
    ensures r != [] ==> !IsSpace(r[0])
    decreases |s|
  {
    if s != [] && IsSpace(s[0]) then TrimStart(s[1..]) else s
  }

  /** Drops trailing whitespace: the result is the prefix of s that ends at its last non-space. */
  function TrimEnd(s: string): (r: string)
    ensures |r| <= |s| && r == s[..|r|]
    ensures forall i :: |r| <= i < |s| ==> IsSpace(s[i])
    ensures r != [] ==> !IsSpace(r[|r| - 1])
    decreases |s|
  {
    if s != [] && IsSpace(s[|s| - 1]) then TrimEnd(s[..|s| - 1]) else s
  }

  /** Python `str.strip()` / JavaScript `trim()` over ASCII whitespace. */
  function Strip(s: string): string
  {
    TrimEnd(TrimStart(s))
  }

  /** Stripping leaves nothing exactly when the text is all whitespace. */
  lemma StripEmptyIffBlank(s: string)
    ensures Strip(s) == [] <==> Blank(s)
  {
  }

  /** Python `pat in s` / JavaScript `s.includes(pat)`. */
  predicate IsInfix(pat: string, s: string)
  {
    exists i :: 0 <= i <= |s| - |pat| && OccursAt(pat, s, i)
  }

  /** pat appears in s starting at index i. */
  predicate OccursAt(pat: string, s: string, i: int)
  {
    0 <= i <= |s| - |pat| && s[i..i + |pat|] == pat
  }

  /** Index of the last occurrence of c in s, or -1 when there is none. */
  function LastIndexOf(s: string, c: char): (r: int)
    ensures -1 <= r < |s|
    ensures r >= 0 ==> s[r] == c
    ensures forall j :: r < j < |s| ==> s[j] != c
    ensures r == -1 <==> c !in s
    decreases |s|
  {
    if s == [] then -1
    else if s[|s| - 1] == c then |s| - 1
    else LastIndexOf(s[..|s| - 1], c)
  }

  /** Python `s.rsplit(c, 1)[1]`: the text after the last c. */
  function AfterLast(s: string, c: char): (r: string)
    requires c in s
    ensures c !in r
    ensures exists k :: 0 <= k < |s| && s == s[..k] + [c] + r
  {
    var k := LastIndexOf(s, c);
    assert s == s[..k] + [c] + s[k + 1..];
    s[k + 1..]
  }

  /** The last-separator split sees through anything placed before the separator. */
  lemma AfterLastOfJoin(front: string, c: char, back: string)
    requires c !in back
    ensures c in front + [c] + back
    ensures LastIndexOf(front + [c] + back, c) == |front|
    ensures AfterLast(front + [c] + back, c) == back
  {
    var s := front + [c] + back;
    assert s[|front|] == c;
    var k := LastIndexOf(s, c);
    assert s[k + 1..] == back;
  }

  /** Python `s.split(c)[0]`: the text before the first c, or all of s when c is absent. */
  function BeforeFirst(s: string, c: char): (r: string)
    ensures |r| <= |s| && r == s[..|r|]
    ensures c !in r
    ensures |r| < |s| <==> c in s
    ensures |r| < |s| ==> s[|r|] == c
  {
    if s == [] then []
    else if s[0] == c then []
    else [s[0]] + BeforeFirst(s[1..], c)
  }

  /** The first-separator split sees through anything placed after the separator. */
  lemma BeforeFirstOfJoin(front: string, c: char, back: string)
    requires c !in front
    ensures BeforeFirst(front + [c] + back, c) == front
  {
    var s := front + [c] + back;
    var r := BeforeFirst(s, c);
    assert s[|front|] == c;
    assert s[..|front|] == front;
  }
}

=== FILE: uploads.dfy ===
/** The file service's naming rules: the extension whitelists read from the text after the
    last dot, the ordered rejection checks of the save operations, the generated file names
    and paths, file URLs, and the newest-first listing. The disk is replaced by inputs: the
    random token, whether the written file is then found, and the directory listing. */
module Uploads {
  import opened Basics
  import opened Text
  import Counting

  const MaxDocumentSize: nat := 16 * 1024 * 1024
  const MaxLogoSize: nat := 5 * 1024 * 1024
  const MaxProfileImageSize: nat := 3 * 1024 * 1024

  const DocumentExtensions: set<string> := {"pdf", "doc", "docx", "txt"}
  const ImageExtensions: set<string> := {"jpg", "jpeg", "png", "gif", "bmp"}

  /** `filename.rsplit('.', 1)[1].lower()`, which exists only when the name has a dot. */
  function Extension(name: string): (r: string)
    requires '.' in name
    ensures '.' !in r && Lower(r) == r
    ensures exists k :: 0 <= k < |name| && name[k] == '.' && r == Lower(name[k + 1..])
                        && forall j :: k < j < |name| ==> name[j] != '.'
  {
    var k := LastIndexOf(name, '.');
    assert name == name[..k] + ['.'] + name[k + 1..];
    AfterLastOfJoin(name[..k], '.', name[k + 1..]);
    var r := Lower(AfterLast(name, '.'));
    LowerIdempotent(AfterLast(name, '.'));
    assert '.' !in r by {
      forall i | 0 <= i < |r| ensures r[i] != '.' { assert r[i] == LowerChar(name[k + 1..][i]); }
    }
    r
  }

  /** The extension is what follows the last dot, whatever comes before it. */
  lemma ExtensionOfJoin(front: string, ext: string)
    requires '.' !in ext
    ensures '.' in front + "." + ext
    ensures Extension(front + "." + ext) == Lower(ext)
  {
    assert front + "." + ext == front + ['.'] + ext;
    AfterLastOfJoin(front, '.', ext);
  }

  /** `allowed_file`. */
  predicate AllowedFile(name: string)
  {
    '.' in name && Extension(name) in DocumentExtensions
  }

  /** A name with a dot is allowed exactly when the lower-cased text after its last dot is
      pdf, doc, docx or txt; a name without a dot never is. */
  lemma AllowedFileIff(front: string, ext: string)
    requires '.' !in ext
    ensures AllowedFile(front + "." + ext) <==> Lower(ext) in DocumentExtensions
  {
    ExtensionOfJoin(front, ext);
  }

  /** The check ignores case. */
  lemma UpperCaseExtensionAllowed()
    ensures AllowedFile("CV.PDF")
  {
    ExtensionOfJoin("CV", "PDF");
    assert "CV" + "." + "PDF" == "CV.PDF";
    PdfIsDocument();
  }

  lemma PdfIsDocument()
    ensures Lower("PDF") in DocumentExtensions
  {
    assert Lower("PDF") == "pdf";
  }

  /** Only the last extension counts. */
  lemma LastExtensionDecides()
    ensures !AllowedFile("cv.pdf.exe")
  {
    ExtensionOfJoin("cv.pdf", "exe");
    assert "cv.pdf" + "." + "exe" == "cv.pdf.exe";
    ExeNotDocument();
  }

  lemma ExeNotDocument()
    ensures Lower("exe") !in DocumentExtensions
  {
    assert Lower("exe")[0] == 'e';
  }

  lemma NameWithoutDotRefused()
    ensures !AllowedFile("resume")
  {
    assert forall i :: 0 <= i < |"resume"| ==> "resume"[i] != '.';
  }

  /** `uuid.uuid4().hex[:8]`: eight lower-case hexadecimal digits. */
  predicate IsHexToken(t: string)
  {
    |t| == 8 && forall i :: 0 <= i < |t| ==> ('0' <= t[i] <= '9' || 'a' <= t[i] <= 'f')
  }

  /** `os.path.join(a, b)` for a relative b. */
  function JoinPath(a: string, b: string): (r: string)
    ensures a == "" ==> r == b
    ensures a != "" && a[|a| - 1] == '/' ==> r == a + b
    ensures a != "" && a[|a| - 1] != '/' ==> r == a + "/" + b
  {
    if a == "" then b else if a[|a| - 1] == '/' then a + b else a + "/" + b
  }

  /** An upload: its file name ("" when missing) and its declared content length. */
  datatype Upload = Upload(filename: string, contentLength: nat)

  /** A save either stops before writing, with an error, or writes `filepath`; a written
      file counts as saved only when it is then found on disk. */
  datatype SaveResult = Rejected(error: string) | Written(filename: string, filepath: string, found: bool)

  predicate Succeeded(r: SaveResult)
  {
    r.Written? && r.found
  }

  /** The error the service reports for an unsuccessful save. */
  function ErrorOf(r: SaveResult): string
  {
    if r.Rejected? then r.error else if r.found then "" else "Failed to save file"
  }

  /** The stored name: prefix, owner id, token, then the lower-cased extension. */
  function StoredName(prefix: string, id: string, token: string, ext: string): string
  {
    prefix + id + "_" + token + "." + ext
  }

  /** A stored name keeps the extension it was given. */
  lemma StoredNameExtension(prefix: string, id: string, token: string, ext: string)
    requires '.' !in ext && ext == Lower(ext)
    ensures '.' in StoredName(prefix, id, token, ext)
    ensures Extension(StoredName(prefix, id, token, ext)) == ext
  {
    assert StoredName(prefix, id, token, ext) == (prefix + id + "_" + token) + "." + ext;
    ExtensionOfJoin(prefix + id + "_" + token, ext);
  }

  /** `save_resume` and `save_offer_letter`: no file, then a disallowed extension, then an
      oversized file are refused in that order, before anything is written. */
  function SaveDocument(file: Option<Upload>, prefix: string, dir: string, id: string, token: string,
                        folder: string, found: bool): (r: SaveResult)
    requires IsHexToken(token)
    ensures (file.None? || file.value.filename == "") ==> r == Rejected("No file provided")
    ensures file.Some? && file.value.filename != "" && !AllowedFile(file.value.filename) ==>
      r == Rejected("File type not allowed")
    ensures (file.Some? && AllowedFile(file.value.filename) && file.value.contentLength > MaxDocumentSize) ==>
      r == Rejected("File size exceeds limit")
    ensures r.Written? <==> file.Some? && AllowedFile(file.value.filename) && file.value.contentLength <= MaxDocumentSize
    ensures r.Written? ==>
      (r.filename == StoredName(prefix, id, token, Extension(file.value.filename))
       && r.filepath == JoinPath(JoinPath(folder, dir), r.filename) && r.found == found)
  {
    if file.None? || file.value.filename == "" then Rejected("No file provided")
    else if !AllowedFile(file.value.filename) then Rejected("File type not allowed")
    else if file.value.contentLength > MaxDocumentSize then Rejected("File size exceeds limit")
    else
      var name := StoredName(prefix, id, token, Extension(file.value.filename));
      Written(name, JoinPath(JoinPath(folder, dir), name), found)
  }

  function SaveResume(file: Option<Upload>, studentId: string, token: string, folder: string, found: bool): (r: SaveResult)
    requires IsHexToken(token)
    ensures r == SaveDocument(file, "resume_", "resumes", studentId, token, folder, found)
    ensures r.Written? ==> AllowedFile(file.value.filename) && file.value.contentLength <= MaxDocumentSize
    ensures r.Written? ==> r.filepath == JoinPath(JoinPath(folder, "resumes"), r.filename)
  {
    SaveDocument(file, "resume_", "resumes", studentId, token, folder, found)
  }

  /** A saved resume is named `resume_<student id>_<token>.<extension>`, lies in the resumes
      directory, and its own name passes the whitelist with the same extension. */
  lemma SavedResumeName(file: Option<Upload>, studentId: string, token: string, folder: string, found: bool)
    requires IsHexToken(token)
    requires SaveResume(file, studentId, token, folder, found).Written?
    ensures var r := SaveResume(file, studentId, token, folder, found);
            var ext := Extension(file.value.filename);
            && r.filename == "resume_" + studentId + "_" + token + "." + ext
            && |r.filename| == 17 + |studentId| + |ext|
            && AllowedFile(r.filename) && Extension(r.filename) == ext
  {
    StoredNameExtension("resume_", studentId, token, Extension(file.value.filename));
  }

  function SaveOfferLetter(file: Option<Upload>, applicationId: string, token: string, folder: string,
                           found: bool): (r: SaveResult)
    requires IsHexToken(token)
    ensures r == SaveDocument(file, "offer_letter_", "offer_letters", applicationId, token, folder, found)
    ensures r.Written? ==> AllowedFile(file.value.filename) && file.value.contentLength <= MaxDocumentSize
    ensures r.Written? ==> r.filepath == JoinPath(JoinPath(folder, "offer_letters"), r.filename)
  {
    SaveDocument(file, "offer_letter_", "offer_letters", applicationId, token, folder, found)
  }

  /** `save_company_logo` and `save_profile_image`: no file is refused first; a name without
      a dot makes the extension lookup raise, which the handler reports as a failed upload;
      then a non-image extension, then an oversized image are refused. */
  function SaveImage(file: Option<Upload>, prefix: string, dir: string, limit: nat, wrongType: string,
                     id: string, token: string, folder: string, found: bool): (r: SaveResult)
    requires IsHexToken(token)
    ensures (file.None? || file.value.filename == "") ==> r == Rejected("No file provided")
    ensures file.Some? && file.value.filename != "" && '.' !in file.value.filename ==>
      r == Rejected("File upload failed: list index out of range")
    ensures file.Some? && '.' in file.value.filename && Extension(file.value.filename) !in ImageExtensions ==>
      r == Rejected(wrongType)
    ensures (file.Some? && '.' in file.value.filename && Extension(file.value.filename) in ImageExtensions
             && file.value.contentLength > limit) ==> r == Rejected("Image size exceeds limit")
    ensures r.Written? <==>
      (file.Some? && '.' in file.value.filename && Extension(file.value.filename) in ImageExtensions
       && file.value.contentLength <= limit)
    ensures r.Written? ==>
      (r.filename == StoredName(prefix, id, token, Extension(file.value.filename))
       && r.filepath == JoinPath(JoinPath(folder, dir), r.filename) && r.found == found)
  {
    if file.None? || file.value.filename == "" then Rejected("No file provided")
    else if '.' !in file.value.filename then Rejected("File upload failed: list index out of range")
    else if Extension(file.value.filename) !in ImageExtensions then Rejected(wrongType)
    else if file.value.contentLength > limit then Rejected("Image size exceeds limit")
    else
      var name := StoredName(prefix, id, token, Extension(file.value.filename));
      Written(name, JoinPath(JoinPath(folder, dir), name), found)
  }

  /** A company logo must be a jpg, jpeg, png, gif or bmp image of at most 5 MiB. */
  function SaveCompanyLogo(file: Option<Upload>, companyId: string, token: string, folder: string,
                           found: bool): (r: SaveResult)
    requires IsHexToken(token)
    ensures r == SaveImage(file, "logo_", "company_logos", MaxLogoSize, "Image file required for logo",
                           companyId, token, folder, found)
    ensures r.Written? ==> Extension(file.value.filename) in ImageExtensions && file.value.contentLength <= MaxLogoSize
    ensures r.Written? ==> r.filepath == JoinPath(JoinPath(folder, "company_logos"), r.filename)
  {
    SaveImage(file, "logo_", "company_logos", MaxLogoSize, "Image file required for logo",
              companyId, token, folder, found)
  }

  function SaveProfileImage(file: Option<Upload>, userId: string, token: string, folder: string,
                            found: bool): (r: SaveResult)
    requires IsHexToken(token)
    ensures r == SaveImage(file, "profile_", "profile_images", MaxProfileImageSize,
                           "Image file required for profile picture", userId, token, folder, found)
    ensures r.Written? ==> Extension(file.value.filename) in ImageExtensions && file.value.contentLength <= MaxProfileImageSize
    ensures r.Written? ==> r.filepath == JoinPath(JoinPath(folder, "profile_images"), r.filename)
  {
    SaveImage(file, "profile_", "profile_images", MaxProfileImageSize,
              "Image file required for profile picture", userId, token, folder, found)
  }

  /** `get_file_url`. */
  function GetFileUrl(filename: string, category: string): (r: string)
    ensures r == "" <==> filename == ""
    ensures filename != "" ==> r == "/uploads/" + category + "/" + filename
  {
    if filename == "" then "" else "/uploads/" + category + "/" + filename
  }

  /** The URL names the file: the text after its last slash is the file name when the name
      has no slash. */
  lemma UrlNamesFile(filename: string, category: string)
    requires filename != "" && '/' !in filename
    ensures '/' in GetFileUrl(filename, category)
    ensures AfterLast(GetFileUrl(filename, category), '/') == filename
  {
    assert GetFileUrl(filename, category) == ("/uploads/" + category) + ['/'] + filename;
    AfterLastOfJoin("/uploads/" + category, '/', filename);
  }

  /** Python's `s[:limit]`: a negative limit counts back from the end. */
  function SlicePrefix<T>(s: seq<T>, limit: int): (r: seq<T>)
    ensures |r| <= |s| && r == s[..|r|]
    ensures |r| == if limit >= 0 then (if limit <= |s| then limit else |s|)
                   else (if |s| + limit >= 0 then |s| + limit else 0)
  {
    if limit >= |s| then s
    else if limit >= 0 then s[..limit]
    else if |s| + limit >= 0 then s[..|s| + limit]
    else []
  }

  /** A directory entry: its name, its modification time, and whether it is a regular file. */
  datatype DirEntry = DirEntry(name: string, modified: nat, isFile: bool)

  /** The regular files of a listing as (name, modification time) pairs. */
  function RegularFiles(entries: seq<DirEntry>): (r: Counting.Counts)
    ensures |r| <= |entries|
    ensures forall i :: 0 <= i < |r| ==> exists j :: 0 <= j < |entries| && entries[j].isFile
                                                    && r[i] == (entries[j].name, entries[j].modified)
    ensures forall j :: 0 <= j < |entries| && entries[j].isFile ==> (entries[j].name, entries[j].modified) in r
    decreases |entries|
  {
    if entries == [] then []
    else
      var rest := RegularFiles(entries[1..]);
      assert forall j :: 0 <= j < |entries[1..]| ==> entries[1..][j] == entries[j + 1];
      if entries[0].isFile then
        var r := [(entries[0].name, entries[0].modified)] + rest;
        assert forall i :: 0 < i < |r| ==> r[i] == rest[i - 1];
        r
      else rest
  }

  /** `list_files`: nothing when the directory is missing; otherwise the regular files,
      newest first, cut by Python's slice. */
  function ListFiles(dirExists: bool, entries: seq<DirEntry>, limit: int): (r: Counting.Counts)
    ensures !dirExists ==> r == []
    ensures limit >= 0 ==> |r| <= limit
    ensures Counting.Descending(r)
    ensures forall i :: 0 <= i < |r| ==> r[i] in RegularFiles(entries)
    ensures multiset(r) <= multiset(RegularFiles(entries))
    ensures dirExists && limit >= |RegularFiles(entries)| ==> multiset(r) == multiset(RegularFiles(entries))
    ensures dirExists && limit >= 0 ==>
      forall e :: e in RegularFiles(entries) && e !in r ==> |r| == limit && (limit == 0 || e.1 <= r[limit - 1].1)
  {
    if !dirExists then []
    else
      var files := RegularFiles(entries);
      var r := SlicePrefix(Counting.SortDescending(files), limit);
      if limit >= 0 then
        assert r == Counting.MostCommon(files, limit);
        r
      else
        SortedPrefixFacts(files, |r|);
        r
  }

  /** Any prefix of the newest-first order is ordered, and holds each file no more often than
      the listing does. */
  lemma SortedPrefixFacts(files: Counting.Counts, k: nat)
    requires k <= |files|
    ensures var p := Counting.SortDescending(files)[..k];
            Counting.Descending(p) && multiset(p) <= multiset(files)
            && forall i :: 0 <= i < |p| ==> p[i] in files
  {
    var sorted := Counting.SortDescending(files);
    var p := sorted[..k];
    Counting.PrefixSubMultiset(sorted, k);
    forall i | 0 <= i < |p| ensures p[i] in files {
      assert p[i] == sorted[i] && sorted[i] in multiset(sorted);
    }
    assert Counting.Descending(p) by {
      forall i, j | 0 <= i < j < |p| ensures p[i].1 >= p[j].1 { assert p[i] == sorted[i] && p[j] == sorted[j]; }
    }
  }
}
